=== FILE: README.md ===
# Document-extraction benchmark: a Dafny model of its scoring core

The application benchmarks LLM document extraction. A user uploads JPG scans
and their ground-truth JSON files. The application asks a model to fill in a
schema derived from the ground truth. It then scores the model's answer
against the ground truth, field by field, and keeps running metrics. This
project models the pure parts of that flow and proves what they promise.

- **Evaluator** (`Evaluation`, `EvaluationFlat`, `EvaluationPaths`,
  `EvaluationFacts`). The evaluator walks the ground truth and aligns each
  ground-truth leaf with the prediction found at the same path. It scores the
  pair and stores a `{llm_text, gt_text, score}` record under the path
  (`a.b`, `c[0]`). Any exception turns the whole result into
  `{"evaluate error": message}`.
  - The leaf score is `_compute_score`. It uses `normalize_text`
    (`Normalization`, `Text`) and difflib's token ratio (`SequenceMatcher`).
  - `Compare` takes the leaf scorer as a parameter, and `Evaluate` passes
    `ComputeScore`. The shape facts are therefore proved for every scorer.
  - `EvaluationFlat` restates the recursion as "align all leaves, then score
    them in order". The recursive evaluator is proved to agree with it.
- **Metrics** (`MetricsService`). The per-session counters and series form an
  immutable record, and each operation maps it to a new one. Scoring one
  document is `mark_by_score` and `update_metrics`.
- **Session store** (`AppState`). `st.session_state` is an explicit ordered
  dict. The model covers defaults, reset, image navigation and the metrics
  snapshot merge.
- **Schema extraction** (`Pipeline`, `SchemaService`). These are the two
  copies of `extract_schema_from_gt`, plus the JPG name check.
- **File pairing and result rows** (`FileUtils`).
- **Result grouping and box packing** (`HighlightService`).
- **UI helpers** (`StreamlitUi`, `Widgets`): `clear_json_values`,
  `validate_non_empty`, the button key, and the upload widget's
  name-deduplicating list.
- **Provider detection and fence stripping** (`LlmService`).

A Python value is the datatype `Values.Value`:

| Python value | Model |
|---|---|
| `None` | `Null` |
| bool, int, float | `Bool`, `Int`, `Float` (a real) |
| str | `Str` |
| list | `List` |
| set of strings | `StrSet` |
| dict | `Dict`, an association list that keeps insertion order |

Assigning to a dict key replaces the value in place, or appends the key when
it is new. An exception is an `Err(PyError)` carrying its message.
`SequenceMatcher` is a standard-library module that is not in the
repository. It is modelled from difflib's documented algorithm: the longest
matching block (earliest in `a`, then in `b`), recursion on both sides, and
the autojunk rule for second sequences of 200 or more tokens.

## Model

| member | source | states |
|---|---|---|
| EvaluationFlat.EvaluateOutcome | src/services/evaluation_service.py:23-38 | evaluate never raises: it returns the one-entry dict `{"evaluate error": <text>}` exactly when the walk raises (the set branch cannot iterate the prediction, or an aligned leaf reaches `.lower()` on a truthy non-string); when no set branch fails, the text is `str(e)` of the first raising leaf's AttributeError, naming the ground truth's type if it is a truthy non-string and the prediction's otherwise; without a failure it is the dict built by scoring the aligned leaves in order, and a ground-truth key "evaluate error" of its own is told apart because it then maps to a record |
| EvaluationFlat.AlignedError | src/services/evaluation_service.py:41-74 | when every set branch can iterate its prediction, the walk raises the exception of the first raising aligned leaf |
| EvaluationFlat.ScoreLeavesFirstError | src/services/evaluation_service.py:68-70 | scoring aligned leaves stops at the first leaf whose score raises, with that leaf's exception |
| EvaluationFacts.NumberLeafFails | src/services/evaluation_service.py:68-69 | a non-zero number leaf facing a truthy prediction is not coerced to text: `.lower()` fails and the whole result is the "'int' object has no attribute 'lower'" error dict |
| EvaluationFlat.EvaluateFails | src/services/evaluation_service.py:23-74 | the walk fails exactly when the set branch cannot iterate the prediction, or some aligned leaf has a truthy prediction and a non-string truthy ground truth or a non-string prediction |
| EvaluationFlat.CompareIsFlat | src/services/evaluation_service.py:41-74 | the recursive walk succeeds exactly when aligning all leaves and scoring them in order succeeds, and then gives the same results |
| EvaluationFlat.EvaluateRecords | src/services/evaluation_service.py:68-74 | on success every result key is distinct and every value is a `{llm_text, gt_text, score}` record |
| EvaluationFlat.ScoreLeavesLastWins | src/services/evaluation_service.py:70 | when several leaves share a path, the record under that path is the one from the last of them |
| EvaluationFlat.ScoreLeavesOther | src/services/evaluation_service.py:70 | scoring leaves never touches a path none of them has |
| EvaluationFlat.ScoreLeavesFails | src/services/evaluation_service.py:69 | scoring aligned leaves fails exactly when some leaf's score cannot be computed |
| EvaluationFlat.EvaluateMissing | src/services/evaluation_service.py:47-58 | against a `None` prediction, evaluation succeeds and every record has `llm_text` None and score 0.0 |
| EvaluationPaths.CompareKeys | src/services/evaluation_service.py:47-74 | the result keys are the earlier keys followed by the new ground-truth leaf paths in visiting order, duplicates dropped |
| EvaluationPaths.EvaluateKeys | src/services/evaluation_service.py:23-74 | the result is either the error dict or keyed by exactly the distinct ground-truth leaf paths, first-visit order |
| EvaluationPaths.KeysIgnorePrediction | src/services/evaluation_service.py:47-58 | when both succeed, two predictions give the same result keys: keys depend only on the ground truth's shape |
| EvaluationPaths.AddAllContents | src/services/evaluation_service.py:70 | assigning a sequence of paths keeps keys distinct, keeps the old keys as a prefix, and holds exactly the old keys and the new paths |
| EvaluationFacts.ExtraKeysIgnored | src/services/evaluation_service.py:48-51 | prediction keys that the ground truth lacks do not change the result |
| EvaluationFacts.NonDictParent | src/services/evaluation_service.py:50 | a non-dict prediction facing a dict is treated like an empty dict |
| EvaluationFacts.TrailingItemsIgnored | src/services/evaluation_service.py:55-58 | prediction items past the ground truth's length do not change the result |
| EvaluationFacts.NonListParent | src/services/evaluation_service.py:57 | a non-list prediction facing a list is treated like an empty list |
| EvaluationFacts.EntriesUseLookupsOnly | src/services/evaluation_service.py:48-51 | the dict loop reads the prediction only through `pred.get(key)` for the ground truth's keys |
| EvaluationFacts.ItemsUseLookupsOnly | src/services/evaluation_service.py:55-58 | the list loop reads the prediction only through the guarded `pred[idx]` |
| EvaluationFacts.SetBranch | src/services/evaluation_service.py:61-65 | a set is compared as its sorted list against the prediction list, and fails with the prediction's iteration error |
| EvaluationFacts.SetAgainstList | src/services/evaluation_service.py:64-65 | a list prediction facing a set keeps its own order (it is not sorted) |
| EvaluationFacts.SetOrderIrrelevant | src/services/evaluation_service.py:63-64 | set against set: the order in which either set's members are listed does not affect the result |
| EvaluationFacts.SetAgainstNumber | src/services/evaluation_service.py:64 | a truthy number facing a set raises "object is not iterable" |
| EvaluationFacts.StrItemsAreItems | src/services/evaluation_service.py:63-65 | the sorted set members are compared exactly as the list of those strings would be |
| EvaluationFacts.PathCollision | src/services/evaluation_service.py:47-74 | a literal key `"a.b"` and the nested path `a` then `b` collide: one entry remains, at the first position, holding the later record |
| Evaluation.NormalizeValue | src/services/evaluation_service.py:79-90 | a falsy leaf (None, 0, "", [], {}) normalises to "" by the `if not text` guard; normalising fails exactly for a truthy non-string, with the `.lower()` AttributeError; on success the text is normal |
| Normalization.NormalizeText | src/services/evaluation_service.py:79-90 | the output contains only `a-z`, `0-9` and single inner spaces, and has no leading or trailing space |
| Normalization.NormalizeIdempotent | src/services/evaluation_service.py:79-90 | normalising twice is normalising once |
| Normalization.NormalFixed | src/services/evaluation_service.py:79-90 | already-normal text is left unchanged |
| Normalization.SeparatorsToSpaces | src/services/evaluation_service.py:85 | exactly the characters `/ , ; \|` become spaces, position by position |
| Normalization.KeepWordChars | src/services/evaluation_service.py:87 | what remains is lower-case letters, digits and whitespace, and every such character of the input is still there |
| Normalization.KeepWordCharsAppend | src/services/evaluation_service.py:87 | the filter works character by character: filtering a concatenation concatenates the filtered parts |
| Normalization.KeepWordCharsOne | src/services/evaluation_service.py:87 | a single character is kept exactly when it is `[a-z0-9]` or whitespace |
| Normalization.CollapseSpaces | src/services/evaluation_service.py:89 | every whitespace run becomes one space; other characters come from the input; the output is empty only for empty input and starts with a space exactly when the input starts with whitespace |
| Normalization.CollapseWords | src/services/evaluation_service.py:89 | collapsing whitespace runs keeps the words: `split()` of the result equals `split()` of the input |
| Normalization.NormalizeWords | src/services/evaluation_service.py:79-90 | the tokens of the normalised text are exactly the tokens of the lower-cased text with separators turned into spaces and other non-word characters dropped |
| Text.WordsStrip | src/services/evaluation_service.py:89 | stripping leading and trailing whitespace keeps the words |
| Evaluation.ComputeScore | src/services/evaluation_service.py:92-118 | every score that is computed lies in [0, 1] |
| Evaluation.ScoreError | src/services/evaluation_service.py:98-102 | the score raises exactly when the prediction is truthy and either side is a non-string that must be lowered; the message names the ground truth's type first |
| Evaluation.ScoreOfMissing | src/services/evaluation_service.py:98-99 | a falsy prediction scores 0.0 whatever the ground truth is |
| Evaluation.ScoreOfEquivalent | src/services/evaluation_service.py:105-106 | texts equal after normalisation score 1.0 |
| Evaluation.ScoreOfSelf | src/services/evaluation_service.py:105-106 | a non-empty string scores 1.0 against itself |
| Evaluation.ScoreOfEmptyTruth | src/services/evaluation_service.py:113-114 | any ground truth with no tokens (a falsy value such as None, 0, [] or {}, or an empty or punctuation-only string) scores 1.0 against a non-empty string prediction iff that prediction has no tokens either, else 0.0 |
| Evaluation.ScoreOfFalsyTruth | src/services/evaluation_service.py:81-82 | a falsy ground truth normalises to "", so against a non-empty string prediction it scores 1.0 iff the prediction has no tokens, else 0.0 |
| Evaluation.ScoreOfStrings | src/services/evaluation_service.py:101-118 | for a non-empty prediction string, the score depends only on the two normalised texts |
| Evaluation.NormalScoreIsRatio | src/services/evaluation_service.py:109-118 | different normalised texts with some ground-truth tokens score difflib's ratio of the token lists |
| Evaluation.ScoreZeroIffDisjoint | src/services/evaluation_service.py:109-118 | in the ratio case the score is 0.0 iff the two token lists share no token |
| Evaluation.Round4 | src/services/evaluation_service.py:73 | `round(score, 4)` is within 0.00005 of the score, has at most four decimals, and stays in [0, 1] |
| Evaluation.Round4Exact | src/services/evaluation_service.py:73 | a value with four decimals is left unchanged by rounding |
| Evaluation.Round4Ends | src/services/evaluation_service.py:73 | rounding fixes 0.0 and 1.0 |
| Evaluation.SetPredList | src/services/evaluation_service.py:64 | turning the prediction into a list fails exactly for a truthy number |
| Text.StripEmpty | src/services/evaluation_service.py:89 | stripping leaves nothing exactly when the text is all whitespace |
| Text.WordsEmpty | src/services/evaluation_service.py:109-110 | `split()` gives no tokens exactly when the text is all whitespace |
| Text.WordsShape | src/services/evaluation_service.py:109-110 | every token from `split()` is non-empty and holds no whitespace |
| SequenceMatcher.LongestMatchNoPopular | src/services/evaluation_service.py:117-118 | without popular tokens, the longest-match step returns a longest block, the earliest in the first sequence and then in the second |
| SequenceMatcher.Scan | src/services/evaluation_service.py:117-118 | the scan over the window finds a longest block of unpopular tokens, the earliest among the longest, or `(alo, blo, 0)` |
| SequenceMatcher.CoreRunIsLongest | src/services/evaluation_service.py:117-118 | the run measured from `(i, j)` is at least as long as every unpopular block starting there |
| SequenceMatcher.ExtendLeft | src/services/evaluation_service.py:117-118 | extending a match to the left keeps it a block ending at the same place |
| SequenceMatcher.ExtendRight | src/services/evaluation_service.py:117-118 | extending a match to the right keeps it a block starting at the same place |
| SequenceMatcher.Matched | src/services/evaluation_service.py:117-118 | the matched token count never exceeds either window's length |
| SequenceMatcher.Ratio | src/services/evaluation_service.py:117-118 | the ratio lies in [0, 1], and is 1.0 for two empty sequences |
| SequenceMatcher.RatioOfEqual | src/services/evaluation_service.py:117-118 | every token list matched against itself has ratio 1.0, popular tokens included |
| SequenceMatcher.MatchedOfEqual | src/services/evaluation_service.py:117-118 | `find_longest_match` on a non-empty list and itself reports the one block `(0, 0, n)`, so all `n` tokens match |
| SequenceMatcher.CoreDiagonal | src/services/evaluation_service.py:117-118 | matching a list against itself, the earliest longest block the `b2j` scan finds lies on the diagonal |
| SequenceMatcher.LeftToStart | src/services/evaluation_service.py:117-118 | from a diagonal block, the leftward extension loop reaches the start |
| SequenceMatcher.RightToEnd | src/services/evaluation_service.py:117-118 | from a diagonal block, the rightward extension loop reaches the end, over popular tokens too |
| SequenceMatcher.MatchedZeroIffDisjoint | src/services/evaluation_service.py:117-118 | without popular tokens, nothing matches iff the two lists share no token |
| SequenceMatcher.RatioZeroIffDisjoint | src/services/evaluation_service.py:117-118 | without popular tokens, the ratio is 0.0 iff the two lists share no token |
| StringOrder.Sort | src/services/evaluation_service.py:63 | `sorted` on strings gives an ordered permutation of its input |
| StringOrder.SortedUnique | src/services/evaluation_service.py:63 | two sorted permutations of the same strings are equal |
| StringOrder.SortCanonical | src/services/evaluation_service.py:63-64 | sorting depends only on the multiset of strings, not on their order |
| StringOrder.LeTotal | src/services/evaluation_service.py:63 | any two strings are comparable in code-point order |
| StringOrder.LeTransitive | src/services/evaluation_service.py:63 | the string order is transitive |
| StringOrder.LeAntisymmetric | src/services/evaluation_service.py:63 | two strings each at most the other are equal |
| Values.Put | src/services/evaluation_service.py:70 | dict assignment keeps the key order (a new key goes last) and makes the key map to the new value |
| Values.PutOther | src/services/evaluation_service.py:70 | dict assignment leaves every other key's value unchanged |
| Values.Get | src/services/evaluation_service.py:50 | lookup finds nothing exactly for an absent key, and otherwise returns a value stored under that key |
| MetricsService.Reset | src/services/metrics_service.py:23-31 | reset zeroes all six counters and empties both series |
| MetricsService.RecordProcessing | src/services/metrics_service.py:36-37 | record_processing appends the time and changes nothing else |
| MetricsService.AddDocument | src/services/metrics_service.py:42-43 | only `total_docs` moves, by one |
| MetricsService.MarkCorrect | src/services/metrics_service.py:48-49 | only `correct_predictions` moves, by one |
| MetricsService.MarkIncorrect | src/services/metrics_service.py:51-52 | only `incorrect_predictions` moves, by one |
| MetricsService.MarkClassificationCorrect | src/services/metrics_service.py:57-58 | only `correct_classification` moves, by one |
| MetricsService.MarkClassificationIncorrect | src/services/metrics_service.py:60-61 | only `incorrect_classification` moves, by one |
| MetricsService.MarkLlmFailure | src/services/metrics_service.py:66-67 | only `llm_failures` moves, by one |
| MetricsService.RecordAccuracy | src/services/metrics_service.py:69-70 | record_accuracy appends the value and changes no counter |
| MetricsService.ToDictRoundTrip | src/services/metrics_service.py:75-86 | the exported dict determines the record: reading it back gives the same metrics |
| MetricsService.ToDictGets | src/services/metrics_service.py:75-86 | each of the eight keys maps to its counter or series |
| MetricsService.ToDict | src/services/metrics_service.py:75-86 | the export has exactly the eight keys, in order |
| MetricsService.MarkByScore | src/services/metrics_service.py:130-153 | it fails for a non-dict result or one with no numeric score (division by zero), changing nothing; otherwise the prediction counters grow by the number of scored fields, the correct one by those at or above 0.75, and the appended accuracy is the passing fraction, so it lies in [0, 1] |
| MetricsService.MarkFields | src/services/metrics_service.py:133-144 | the field loop adds the passing fields to `correct_predictions` and the others to `incorrect_predictions`, touching nothing else |
| MetricsService.ScoredOrderFree | src/services/metrics_service.py:133-144 | the counts of scored and passing fields do not depend on the field order |
| MetricsService.UpdateMetrics | src/services/metrics_service.py:161-176 | it fails, changing nothing, exactly when the classification score cannot be read or compared; otherwise exactly one classification counter moves (the correct one iff the score exceeds 0.8), `total_docs` grows by one, `llm_failures` stays, the prediction counters grow by the passing and failing scored fields, and the appended accuracy is the passing fraction |
| MetricsService.AllPassingDocument | src/services/metrics_service.py:130-176 | a document whose every scored field reaches 0.75 appends exactly 1.0 and counts each scored field as a correct prediction |
| MetricsService.AllPassed | src/services/metrics_service.py:133-144 | when no scored field falls below 0.75, all of them pass |
| MetricsService.ClassifiedHasScoredField | src/services/metrics_service.py:151-163 | once the classification score compares, `mark_by_score` cannot divide by zero, so an update never stops half-way |
| MetricsService.UpdateIgnoresPrediction | src/services/metrics_service.py:172-173 | the prediction passed in has no effect on the metrics, since `mark_llm_failure` is referenced but not called |
| MetricsService.UpdatesKeepConsistent | src/services/metrics_service.py:161-176 | any run of updates keeps `total_docs == correct_classification + incorrect_classification == len(accuracy_)` and leaves `llm_failures` alone |
| MetricsService.SessionConsistent | src/services/metrics_service.py:23-31 | from a reset record, any run of updates satisfies the counting invariant with `llm_failures` at 0 |
| MetricsService.UpdateMetricsCounted | src/services/metrics_service.py:161-176 | the update as its `is_json` branch intends: `llm_failures` grows by one exactly for a prediction that is not JSON, and the rest moves as in the code as written |
| MetricsService.CountedDiffersOnlyInFailures | src/services/metrics_service.py:172-173 | the counted update and the code as written raise the same exceptions and differ only in `llm_failures` |
| MetricsService.UncountedFailure | src/services/metrics_service.py:172-173 | for a classifiable result and a prediction that is not JSON, the code as written leaves `llm_failures` unchanged where the counted update adds one |
| MetricsService.CountedFailures | src/services/metrics_service.py:161-176 | with the failure counted, a run over classifiable results keeps the counting invariant and `llm_failures` equals the number of predictions that are not JSON |
| AppState.InitKeepsExisting | src/core/state.py:32-36 | init keeps every existing entry in place and adds exactly the missing defaults, with their default values |
| AppState.InitIdempotent | src/core/state.py:32-36 | calling init twice is calling it once |
| AppState.FillDefaults | src/core/state.py:34-36 | filling defaults keeps the store as a prefix and gives each missing key its default |
| AppState.ResetKeepsMetrics | src/core/state.py:66-74 | reset leaves only `metrics`, holding the old value if truthy and `{}` otherwise |
| AppState.ResetIdempotent | src/core/state.py:66-74 | resetting twice is resetting once |
| AppState.InitAfterReset | src/core/state.py:32-74 | init after reset keeps the surviving metrics and restores every other default |
| AppState.GetCurrentImage | src/core/state.py:88-93 | with no images the current image is `None` |
| AppState.CurrentImageAt | src/core/state.py:88-93 | an in-range index gives that image, and an index beyond either end raises IndexError |
| AppState.Index | src/core/state.py:92 | Python list indexing: valid exactly for `-n <= i < n`, counting from the end for negative `i` |
| AppState.NextImage | src/core/state.py:96-99 | with no images nothing changes; on success the store has the same keys |
| AppState.PrevImage | src/core/state.py:101-105 | with no images nothing changes; on success the store has the same keys |
| AppState.Move | src/core/state.py:96-105 | a step changes only `current_image_index` |
| AppState.MoveModulo | src/core/state.py:96-105 | with an int index the new index is `(i ± 1) mod n`, which lies in `[0, n)` |
| AppState.MoveInRange | src/core/state.py:96-105 | after any successful step with images present, the index lies in `[0, n)` |
| AppState.PrevAfterNext | src/core/state.py:96-105 | for an in-range index, next then prev restores the store |
| AppState.Add | src/core/state.py:150-151 | adding two numbers gives their sum, an int exactly when both are ints |
| AppState.MergeGet | src/core/state.py:148-158 | after a merge, each snapshot key holds the combination of old and new value, and every other key is unchanged |
| AppState.MergeAddsNumbers | src/core/state.py:150-151 | two numbers under one key are added |
| AppState.MergeConcatenatesLists | src/core/state.py:152-153 | two lists under one key are concatenated, old first |
| AppState.MergeTwiceDoubles | src/core/state.py:152-153 | merging the same snapshot twice appends its list twice |
| AppState.MergeOverwrites | src/core/state.py:154-158 | a type mismatch or a new key takes the snapshot's value |
| AppState.MergeLeavesOthers | src/core/state.py:148-158 | keys absent from the snapshot keep their value |
| AppState.MergeKeys | src/core/state.py:148-158 | old keys keep their order, and the keys are exactly the old ones and the snapshot's |
| AppState.MergeIntoEmpty | src/core/state.py:143-146 | merging into an empty dict gives the snapshot |
| AppState.UpdateMetrics | src/core/state.py:137-160 | the merge fails exactly when the stored metrics is a non-dict, non-`None` value and the snapshot is non-empty; on success only `metrics` changes |
| AppState.UpdateFromNothing | src/core/state.py:143-146 | with metrics missing or `None`, the stored metrics becomes the snapshot |
| AppState.UpdateMerges | src/core/state.py:146-160 | with stored metrics a dict, each key ends up combined from the snapshot or unchanged |
| AppState.UpdateNonDictError | src/core/state.py:148-158 | a stored metrics that is not a dict fails at the first snapshot entry `(k, v)`: a number with "argument of type … is not iterable", a list with the string-index error; a string or set is subscripted ("string indices must be integers" / "'set' object is not subscriptable") only when it holds `k` and `v` is a number or a list, because the `isinstance(value, …)` tests short-circuit, and otherwise the assignment fails with "… object does not support item assignment" |
| AppState.StoredTextOverwritten | src/core/state.py:149-156 | a stored `"abc"` handed `{"a": "x"}` fails in the assignment, not the read |
| AppState.StoredSetOverwritten | src/core/state.py:149-156 | a stored `{"a"}` handed `{"a": None}` fails in the assignment, not the read |
| AppState.StoredTextRead | src/core/state.py:149-150 | a stored `"abc"` handed `{"a": 1}` fails reading `metrics["a"]` |
| Pipeline.Schema | src/core/pipeline.py:61-67 | dict keys are kept; a list becomes a singleton or stays empty; every other value becomes `"string"` |
| Pipeline.SchemaIsSchema | src/core/pipeline.py:61-67 | every result is a schema: dicts of schemas, lists of at most one schema, and `"string"` |
| Pipeline.SchemaFixesSchemas | src/core/pipeline.py:61-67 | a schema is left unchanged |
| Pipeline.SchemaIdempotent | src/core/pipeline.py:61-69 | extracting the schema of a schema changes nothing |
| Pipeline.SchemaIgnoresTail | src/core/pipeline.py:65 | only the first list element matters |
| Pipeline.SchemaOfEntry | src/core/pipeline.py:63 | each dict key maps to the schema of its value |
| Pipeline.ValidateInput | src/core/pipeline.py:43-51 | `None` raises "No file uploaded."; otherwise the file passes iff its lowercased name ends in `.jpg` or `.jpeg` |
| Pipeline.RefusedNames | src/core/pipeline.py:47-49 | a refused name is reported as "name is not a JPG/JPEG file." |
| Pipeline.ExtensionIgnoresCase | src/core/pipeline.py:47 | the extension check does not depend on letter case |
| Pipeline.ExtensionExamples | src/core/pipeline.py:47-48 | `SCAN.JPG` and `scan.JpEg` pass; `scan.png` and `scan.jpg.pdf` are refused |
| SchemaService.AgreesWithPipeline | src/services/schema_service.py:14-23 | the service's `_extract_schema` equals the pipeline's `_extract` on every value |
| SchemaService.ExtractSchema | src/services/schema_service.py:14-23 | leaves become `"string"` and an empty list stays empty |
| SchemaService.ExtractIdempotent | src/services/schema_service.py:14-23 | the per-element transform is idempotent |
| SchemaService.ExtractSchemaFromGt | src/services/schema_service.py:25 | the output has one schema per input element, each the pipeline's schema of it; a non-iterable input fails |
| SchemaService.ListOfDocuments | src/services/schema_service.py:25 | for a list, the output has the same length, and extracting again changes nothing |
| FileUtils.Stem | src/utils/file_utils.py:17-21 | the stem is a prefix of the path |
| FileUtils.StemOfAppend | src/utils/file_utils.py:17-21 | splitext removes exactly the last extension |
| FileUtils.StemWithoutDot | src/utils/file_utils.py:17-21 | a name without a dot is its own stem |
| FileUtils.JsonDictFindsLast | src/utils/file_utils.py:17 | among JSON files sharing a stem, the dict keeps the last one |
| FileUtils.Pair | src/utils/file_utils.py:19-27 | one entry per JPG in order, each the JSON filed under the JPG's stem; it fails, with the AttributeError from `jpg_file.name`, exactly when some stem has no JSON |
| FileUtils.SortGtFilesSpec | src/utils/file_utils.py:5-27 | entry i is the last uploaded JSON whose stem is JPG i's stem; it fails exactly when some JPG has no such JSON |
| FileUtils.RowOf | src/utils/file_utils.py:41-54 | a dict entry shows its `gt_text` and `llm_text` (falsy ones as "") and its score (missing as ""); a non-dict entry gives an all-"" row |
| FileUtils.RowsOf | src/utils/file_utils.py:36-54 | one row per `result` entry, in order; no `result` gives no rows |
| FileUtils.ConvertRows | src/utils/file_utils.py:32-58 | one row list per item, in order, and failure exactly when some item fails |
| FileUtils.RowOfRecord | src/utils/file_utils.py:41-47 | an evaluator record becomes a row with its texts (falsy ones as "") and its rounded score |
| HighlightService.SectionSubkeyJoin | src/services/highlight_service.py:72-82 | a key without a dot is its own section with subkey `_self`; otherwise section, ".", subkey rebuild the key |
| HighlightService.Section | src/services/highlight_service.py:72-73 | the section is the text before the first "." |
| HighlightService.RenderResults | src/services/highlight_service.py:57-86 | a non-dict result is rejected and a dict is grouped |
| HighlightService.GroupEntries | src/services/highlight_service.py:61-86 | the grouped dict has distinct sections |
| HighlightService.GroupSections | src/services/highlight_service.py:68-86 | a section appears iff some key has it |
| HighlightService.GroupFindsLast | src/services/highlight_service.py:76-82 | each (section, subkey) holds the value of the last key that maps to it |
| HighlightService.BoxWidth | src/services/highlight_service.py:156 | the width is `7*len+20` clamped to [80, 400]: 400 at or above the top, 80 at or below the bottom, `7*len+20` between |
| HighlightService.BoxWidthMonotone | src/services/highlight_service.py:156 | longer text never gives a narrower box |
| HighlightService.BoxOf | src/services/highlight_service.py:150-157 | only dict infos give a box, and a dict info gives one exactly when `float(score)` succeeds and a truthy `llm_text` has a `len`; its text is `llm_text` or the "No extraction" label when that is falsy, and its width is the clamped width of that text's length |
| HighlightService.RecordGivesBox | src/services/highlight_service.py:150-157 | every evaluator record with a string or missing `llm_text` and a numeric score gives a box |
| HighlightService.NonDictsGiveNoBoxes | src/services/highlight_service.py:151-152 | non-dict infos are skipped |
| HighlightService.PackRows | src/services/highlight_service.py:166-203 | the rows concatenate back to the boxes, every row after the first is non-empty and closed only when its successor's first box does not fit, with a container of at least 400 every row is non-empty and fits, and a row is empty exactly when the first box is wider than the container (then it is the first row) |
| HighlightService.RenderCompactBoxes | src/services/highlight_service.py:138-203 | a non-dict result is rejected; `st.columns(0)` raises exactly when the first box is wider than the container; otherwise the rows are non-empty, full, and hold exactly the dict entries' boxes, in order |
| StreamlitUi.ClearJsonValues | src/ui/streamlitUI.py:448-454 | dict keys and list lengths are kept and every other value becomes "" |
| StreamlitUi.ClearKeepsShape | src/ui/streamlitUI.py:448-454 | the output has the input's shape and all its leaves are "" |
| StreamlitUi.ClearUnique | src/ui/streamlitUI.py:448-454 | the output is the only value of the input's shape whose leaves are all "" |
| StreamlitUi.ClearIdempotent | src/ui/streamlitUI.py:448-454 | clearing twice is clearing once |
| StreamlitUi.ValidateNonEmpty | src/ui/streamlitUI.py:523-527 | the text is accepted iff it has a non-whitespace character; otherwise "label cannot be empty." is shown |
| StreamlitUi.ValidateAgreesWithWords | src/ui/streamlitUI.py:523-527 | validation accepts exactly the texts in which `split()` finds a word, and whitespace padding on either side never changes the verdict or the message |
| StreamlitUi.ButtonKey | src/ui/streamlitUI.py:267-268 | a given key is used; otherwise the label is |
| StreamlitUi.DefaultKeysFollowLabels | src/ui/streamlitUI.py:267-268 | two buttons without keys collide exactly when their labels are equal |
| Widgets.NewWidget | src/ui/widgets.py:4-8 | a new widget has no files |
| Widgets.NewDefaultWidget | src/ui/widgets.py:4-8 | without `type`, a new widget accepts jpg, jpeg and png and has no files |
| Widgets.Render | src/ui/widgets.py:10-27 | existing files stay in order and new names are appended in upload order; distinct names stay distinct, even with duplicates in one batch; an empty upload changes nothing |
| Widgets.FreshNames | src/ui/widgets.py:19-25 | a name is appended iff it is uploaded and not already held |
| Widgets.FreshDistinct | src/ui/widgets.py:19-25 | the appended files have pairwise distinct names |
| Widgets.Files | src/ui/widgets.py:29-31 | `files` returns the held list |
| Widgets.ClearAll | src/ui/widgets.py:33-34 | clear_all empties the list and keeps label, key and types |
| Widgets.ClearThenRender | src/ui/widgets.py:18-34 | after clear_all, a render holds just the batch's first file of each name |
| LlmService.DetectProvider | src/services/llm_service.py:69-83 | the result is "openai" iff the lowercased text before the first "-" starts with gpt, o1 or o3, "gemini" iff it starts with gemini, and otherwise ValueError "Unknown model provider for: model" |
| LlmService.FirstProvider | src/services/llm_service.py:79-81 | a provider is found exactly when some map key prefixes the text, and it is the one of the first such key: no earlier key prefixes it |
| LlmService.DetectIgnoresCase | src/services/llm_service.py:77 | detection does not depend on letter case |
| LlmService.UpperCaseDetected | src/services/llm_service.py:77 | `GPT-4o` is an openai model |
| LlmService.GroqRefused | src/services/llm_service.py:36-83 | `groq-0` is offered in the model options but raises ValueError |
| LlmService.GptFamily | src/services/llm_service.py:77-81 | every `gpt-...` name is an openai model |
| LlmService.GeminiFamily | src/services/llm_service.py:77-81 | every `gemini-...` name is a gemini model |
| LlmService.StripFences | src/services/llm_service.py:89 | the stripped reply holds no "```" and has no leading or trailing whitespace |
| LlmService.StripFencesIdempotent | src/services/llm_service.py:89 | stripping twice is stripping once |
| LlmService.FencedReply | src/services/llm_service.py:89 | a reply wrapped in a json fence gives back its stripped body |
| LlmService.PlainReply | src/services/llm_service.py:89 | a reply without backticks is only stripped of whitespace |

## Left out

- Streamlit rendering, HTML and CSS, `st.error`/`st.warning` output, `st.columns`, progress bars and page glue are side effects with nothing to prove; the model returns what would be shown.
- The OpenAI and Gemini clients, `dotenv_values`, `ENV_KEYS`, OCR, PIL decoding, temp files, timing and `LocalStorage` are foreign calls or I/O.
- `json.loads` after fence stripping and `is_json` are foreign parsers. `is_json` is a parameter `isJson` of the counted update; the update as written never uses its result.
- Floating point: floats are reals, so `round(score, 4)` is exact half-to-even rounding on reals and `2*M/T` is an exact fraction.
- `score_to_gradient` and the box colours are display only.
- Strings are ASCII: `lower()` maps only `A-Z`, and whitespace is the ASCII set that `str.isspace` and `\s` accept.
- Tuples are left out. They behave like lists in the evaluator, and JSON never produces them.
- Dict keys are strings only, so the non-string-key branch of the highlight grouping is unreachable in the model.
- Sets hold strings only. Python's set iteration order is unspecified, and the model lists a set's members in some order. `SetOrderIrrelevant` shows that the evaluator's result does not depend on it.
- The text of a `KeyError` and the exact message of a failed comparison are modelled only as far as the `evaluate error` dict needs.
- HighlightService.BoxOf: `float(score)` on a string is a parameter `parses`, because Python's float parser is out of scope.
- Python list aliasing between an exported metrics dict and the session store is left out: the merge has value semantics.
- The `Metrics` object stored in the session (`get_metrics`, `set_metrics`, `get_metrics_obj`, `set_metrics_obj`) and `add_uploaded_file` are left out. They only store objects or decode images.
- HighlightService.RenderCompactBoxes: when `st.columns(0)` raises, the model reports `ColumnsRaised` and does not model the Streamlit exception's type or text, because it comes from Streamlit.
- EvaluationFlat.EvaluateOutcome: when some set branch cannot iterate its prediction, the error text is not pinned. The walk may raise first at the set or at an earlier leaf's `.lower()`, and the flat reading aligns every set before scoring any leaf, so it does not say which is reported.
- FileUtils.Stem: models `posixpath.splitext` only. Backslash separators and drive letters of `ntpath` on Windows are not modelled.
- Evaluation.ScoreZeroIffDisjoint: stated only when the prediction has no autojunk-popular token. With popular tokens, a shared token may fail to seed a match. The autojunk rule itself is modelled, not assumed away.
- SequenceMatcher.LongestMatchNoPopular: the earliest-longest property is stated without popular tokens. With them, `LongestMatch` is only proved to return a block.

## Findings

| source | as written | input that shows it | evidently intended | confidence | as-written member | corrected member |
|---|---|---|---|---|---|---|
| src/services/metrics_service.py:172-173 | `self.mark_llm_failure` is referenced without being called, so `llm_failures` never changes | `update_metrics("not json", {"document_type": {"score": 0.9}})`: `llm_failures` stays 0 | `self.mark_llm_failure()`: one more LLM failure for each prediction that is not JSON | high; not executed | MetricsService.UncountedFailure | MetricsService.UpdateMetricsCounted |

`MetricsService.UpdateMetrics` and `RunUpdates` model the code as written.
`MetricsService.CountedFailures` proves the intended property for the
corrected `RunCounted`: `llm_failures` counts the non-JSON predictions.

=== FILE: evaluation.dfy ===
/** `Evaluator` (src/services/evaluation_service.py): aligns a ground-truth
    value with a prediction, shape-driven by the ground truth, and scores each
    ground-truth leaf against the prediction found at the same place. */
module Evaluation {
  import opened Wrappers
  import opened Values
  import opened Text
  import opened Normalization
  import StringOrder
  import SequenceMatcher

  // ---------------------------------------------------------------
  // _compute_score
  // ---------------------------------------------------------------

  /** `normalize_text` applied to an arbitrary leaf: a falsy value gives "",
      a string is normalised, any other value fails at `.lower()`. */
  function NormalizeValue(v: Value): (r: Result<string, PyError>)
    ensures r.Ok? ==> IsNormal(r.value)
    ensures !Truthy(v) ==> r == Ok("")
    ensures r.Err? <==> Truthy(v) && !v.Str?
    ensures r.Err? ==> r.error == AttributeError(TypeName(v), "lower")
  {
    if !Truthy(v) then Ok("")
    else if v.Str? then Ok(NormalizeText(v.s))
    else Err(AttributeError(TypeName(v), "lower"))
  }

  /** `_compute_score(gt, pred)`: a similarity in [0, 1]. */
  function ComputeScore(gt: Value, pred: Value): (r: Result<real, PyError>)
    ensures r.Ok? ==> 0.0 <= r.value <= 1.0
  {
    if !Truthy(pred) then Ok(0.0)
    else
      var g :- NormalizeValue(gt);
      var p :- NormalizeValue(pred);
      Ok(NormalScore(g, p))
  }

  /** The part of `_compute_score` after normalisation. */
  function NormalScore(g: string, p: string): (r: real)
    ensures 0.0 <= r <= 1.0
  {
    if g == p then 1.0
    else
      var gTokens := Words(g);
      var pTokens := Words(p);
      if |gTokens| == 0 then (if |pTokens| == 0 then 1.0 else 0.0)
      else SequenceMatcher.Ratio(gTokens, pTokens)
  }

  /** For two strings with a non-empty prediction, the score is the score of
      their normal forms. */
  lemma ScoreOfStrings(g: string, p: string)
    requires |p| > 0
    ensures ComputeScore(Str(g), Str(p)) == Ok(NormalScore(NormalizeText(g), NormalizeText(p)))
  {
    NormalizeString(p);
    NormalizeString(g);
    ScoreOfNormalized(Str(g), Str(p), NormalizeText(g), NormalizeText(p));
  }

  lemma ScoreOfNormalized(gt: Value, pred: Value, g: string, p: string)
    requires Truthy(pred)
    requires NormalizeValue(gt) == Ok(g) && NormalizeValue(pred) == Ok(p)
    ensures ComputeScore(gt, pred) == Ok(NormalScore(g, p))
  {
  }

  lemma NormalizeString(s: string)
    ensures NormalizeValue(Str(s)) == Ok(NormalizeText(s))
  {
    if |s| == 0 {
      assert NormalizeText(s) == "";
    } else {
      NormalizeStringValue(Str(s));
    }
  }

  lemma NormalizeStringValue(v: Value)
    requires v.Str? && |v.s| > 0
    ensures NormalizeValue(v) == Ok(NormalizeText(v.s))
  {
  }

  /** Scoring fails exactly when the prediction is truthy and one side that
      reaches `.lower()` is not a string; the ground truth is looked at
      first. */
  lemma ScoreError(gt: Value, pred: Value)
    ensures ComputeScore(gt, pred).Err? <==>
      Truthy(pred) && ((Truthy(gt) && !gt.Str?) || !pred.Str?)
    ensures ComputeScore(gt, pred).Err? ==>
      ComputeScore(gt, pred).error ==
        if Truthy(gt) && !gt.Str? then AttributeError(TypeName(gt), "lower")
        else AttributeError(TypeName(pred), "lower")
  {
  }

  /** A falsy prediction (None, "", 0, empty container) scores 0 whatever the
      ground truth is. */
  lemma ScoreOfMissing(gt: Value, pred: Value)
    requires !Truthy(pred)
    ensures ComputeScore(gt, pred) == Ok(0.0)
  {
  }

  /** Texts equal after normalisation score 1; in particular `score(s, s) = 1`
      for every non-empty string. */
  lemma ScoreOfEquivalent(g: string, p: string)
    requires |p| > 0 && NormalizeText(g) == NormalizeText(p)
    ensures ComputeScore(Str(g), Str(p)) == Ok(1.0)
  {
    ScoreOfStrings(g, p);
  }

  lemma ScoreOfSelf(s: string)
    requires |s| > 0
    ensures ComputeScore(Str(s), Str(s)) == Ok(1.0)
  {
    ScoreOfEquivalent(s, s);
  }

  /** A ground truth with no tokens (a falsy value such as None, 0, [] or {},
      or a string that is empty or only punctuation) scores 1 exactly when
      the prediction has no tokens either. A truthy prediction that can be
      scored is a non-empty string. */
  lemma ScoreOfEmptyTruth(gt: Value, p: string)
    requires |p| > 0 && NormalizeValue(gt).Ok? && Words(NormalizeValue(gt).value) == []
    ensures ComputeScore(gt, Str(p)) == Ok(if Words(NormalizeText(p)) == [] then 1.0 else 0.0)
  {
    var gn, pn := NormalizeValue(gt).value, NormalizeText(p);
    NormalizeString(p);
    ScoreOfNormalized(gt, Str(p), gn, pn);
    if gn != pn && Words(pn) == [] {
      WordsEmpty(gn);
      WordsEmpty(pn);
      NormalNoSpaceIsEmpty(gn);
      NormalNoSpaceIsEmpty(pn);
    }
  }

  /** In particular a falsy ground truth (None, 0, "", [] or {}) against a
      non-empty string prediction. */
  lemma ScoreOfFalsyTruth(gt: Value, p: string)
    requires !Truthy(gt) && |p| > 0
    ensures ComputeScore(gt, Str(p)) == Ok(if Words(NormalizeText(p)) == [] then 1.0 else 0.0)
  {
    WordsEmpty("");
    ScoreOfEmptyTruth(gt, p);
  }

  /** A normalised text made only of whitespace is empty. */
  lemma NormalNoSpaceIsEmpty(s: string)
    requires IsNormal(s) && forall k :: 0 <= k < |s| ==> IsSpace(s[k])
    ensures s == ""
  {
  }

  /** Once both sides have tokens and normalise differently, the score is 0
      exactly when they share no token (for predictions below difflib's
      popularity threshold). */
  lemma ScoreZeroIffDisjoint(g: string, p: string)
    requires |p| > 0
    requires NormalizeText(g) != NormalizeText(p)
    requires Words(NormalizeText(g)) != []
    requires SequenceMatcher.NoPopular(Words(NormalizeText(p)))
    ensures var a, b := Words(NormalizeText(g)), Words(NormalizeText(p));
      ComputeScore(Str(g), Str(p)) == Ok(0.0) <==>
        forall i, j :: 0 <= i < |a| && 0 <= j < |b| ==> a[i] != b[j]
  {
    ScoreOfStrings(g, p);
    NormalScoreZeroIffDisjoint(NormalizeText(g), NormalizeText(p));
  }

  lemma NormalScoreZeroIffDisjoint(gn: string, pn: string)
    requires gn != pn && Words(gn) != [] && SequenceMatcher.NoPopular(Words(pn))
    ensures var a, b := Words(gn), Words(pn);
      NormalScore(gn, pn) == 0.0 <==>
        forall i, j :: 0 <= i < |a| && 0 <= j < |b| ==> a[i] != b[j]
  {
    NormalScoreIsRatio(gn, pn);
    RatioZeroTransfer(gn, pn, Words(gn), Words(pn));
  }

  lemma NormalScoreIsRatio(gn: string, pn: string)
    requires gn != pn && Words(gn) != []
    ensures NormalScore(gn, pn) == SequenceMatcher.Ratio(Words(gn), Words(pn))
  {
  }

  lemma RatioZeroTransfer(gn: string, pn: string, a: seq<string>, b: seq<string>)
    requires NormalScore(gn, pn) == SequenceMatcher.Ratio(a, b)
    requires |a| > 0 && SequenceMatcher.NoPopular(b)
    ensures NormalScore(gn, pn) == 0.0 <==>
        forall i, j :: 0 <= i < |a| && 0 <= j < |b| ==> a[i] != b[j]
  {
    SequenceMatcher.RatioZeroIffDisjoint(a, b);
  }

  // ---------------------------------------------------------------
  // round(score, 4)
  // ---------------------------------------------------------------

  const Scale: real := 10000.0

  /** `x` is a whole number of ten-thousandths. */
  predicate FourDecimals(x: real) {
    (x * Scale).Floor as real == x * Scale
  }

  /** Python's `round(x, 4)`: to the nearest multiple of 1/10000, ties to the
      even multiple. */
  function Round4(x: real): (r: real)
    ensures -0.00005 <= r - x <= 0.00005
    ensures 0.0 <= x <= 1.0 ==> 0.0 <= r <= 1.0
    ensures FourDecimals(r)
  {
    var y := x * Scale;
    var f := y.Floor;
    var frac := y - f as real;
    var n := if frac < 0.5 then f
             else if frac > 0.5 then f + 1
             else if f % 2 == 0 then f else f + 1;
    RoundingBounds(x, n);
    assert n as real / Scale * Scale == n as real;
    n as real / Scale
  }

  lemma RoundingBounds(x: real, n: int)
    requires -0.5 <= n as real - x * Scale <= 0.5
    ensures -0.00005 <= n as real / Scale - x <= 0.00005
    ensures 0.0 <= x <= 1.0 ==> 0.0 <= n as real / Scale <= 1.0
  {
    if 0.0 <= x <= 1.0 {
      assert -0.5 <= n as real <= Scale + 0.5;
      assert 0 <= n <= 10000;
    }
  }

  /** A value that already has four decimals is left alone; in particular
      scores 0 and 1 survive rounding exactly. */
  lemma Round4Exact(n: int)
    ensures Round4(n as real / Scale) == n as real / Scale
  {
    var x := n as real / Scale;
    assert x * Scale == n as real;
    assert (x * Scale).Floor == n;
  }

  lemma Round4Ends()
    ensures Round4(0.0) == 0.0 && Round4(1.0) == 1.0
  {
    Round4Exact(0);
    Round4Exact(10000);
  }

  // ---------------------------------------------------------------
  // _compare_recursive and evaluate
  // ---------------------------------------------------------------

  /** The flat result dict under construction: path -> leaf record. */
  type Results = seq<(string, Value)>

  /** The score of a ground-truth leaf against its prediction, or the
      exception computing it raises; `evaluate` uses `ComputeScore`. */
  type Scorer = (Value, Value) -> Result<real, PyError>

  /** The leaf record `{"llm_text": pred, "gt_text": gt, "score": round(score, 4)}`. */
  function Record(gt: Value, pred: Value, score: real): Value {
    Dict([("llm_text", pred), ("gt_text", gt), ("score", Float(Round4(score)))])
  }

  /** `f"{prefix}.{key}" if prefix else key` */
  function ChildPath(prefix: string, key: string): string {
    if |prefix| > 0 then prefix + "." + key else key
  }

  /** `f"{prefix}[{idx}]"` */
  function IndexPath(prefix: string, i: nat): string {
    prefix + "[" + NatToString(i) + "]"
  }

  /** `pred.get(key) if isinstance(pred, dict) else None` */
  function PredChild(pred: Value, key: string): Value {
    if pred.Dict? then
      match Get(pred.entries, key)
      case Some(v) => v
      case None => Null
    else Null
  }

  /** `pred[idx] if isinstance(pred, list) and idx < len(pred) else None` */
  function PredItem(pred: Value, i: nat): Value {
    if pred.List? && i < |pred.items| then pred.items[i] else Null
  }

  /** The prediction side of the set branch:
      `sorted(pred) if isinstance(pred, set) else (list(pred) if pred else [])`. */
  function SetPredList(pred: Value): (r: Result<seq<Value>, PyError>)
    ensures r.Err? <==> Truthy(pred) && IsNumber(pred)
  {
    if pred.StrSet? then Ok(StrValues(StringOrder.Sort(pred.elems)))
    else if !Truthy(pred) then Ok([])
    else
      match pred
      case List(xs) => Ok(xs)
      case Dict(es) => Ok(StrValues(Keys(es)))
      case Str(s) => Ok(CharValues(s))
      case _ => Err(TypeError("'" + TypeName(pred) + "' object is not iterable"))
  }

  /** `list(s)` for a string: its characters as one-character strings. */
  function CharValues(s: string): (vs: seq<Value>)
    ensures |vs| == |s| && forall i :: 0 <= i < |s| ==> vs[i] == Str([s[i]])
  {
    seq(|s|, i requires 0 <= i < |s| => Str([s[i]]))
  }

  function StrValues(xs: seq<string>): (vs: seq<Value>)
    ensures |vs| == |xs| && forall i :: 0 <= i < |xs| ==> vs[i] == Str(xs[i])
  {
    seq(|xs|, i requires 0 <= i < |xs| => Str(xs[i]))
  }

  /** The leaf case: score the pair and store its record under `path`. */
  function CompareLeaf(scorer: Scorer, gt: Value, pred: Value, path: string, acc: Results): Result<Results, PyError> {
    var score :- scorer(gt, pred);
    Ok(Put(acc, path, Record(gt, pred, score)))
  }

  /** `_compare_recursive(gt, pred, prefix, results)`: the results after the
      call, or the exception it raises. */
  function Compare(scorer: Scorer, gt: Value, pred: Value, prefix: string, acc: Results): Result<Results, PyError>
    decreases gt, 1
  {
    match gt
    case Dict(_) => CompareEntries(scorer, gt, 0, pred, prefix, acc)
    case List(_) => CompareItems(scorer, gt, 0, pred, prefix, acc)
    case StrSet(elems) =>
      var predList := SetPredList(pred);
      if predList.Err? then Err(predList.error)
      else CompareStrItems(scorer, StringOrder.Sort(elems), 0, List(predList.value), prefix, acc)
    case _ => CompareLeaf(scorer, gt, pred, prefix, acc)
  }

  /** The loop over `gt.items()`, from entry `i` on. */
  function CompareEntries(scorer: Scorer, gt: Value, i: nat, pred: Value, prefix: string, acc: Results): Result<Results, PyError>
    requires gt.Dict? && i <= |gt.entries|
    decreases gt, 0, |gt.entries| - i
  {
    if i == |gt.entries| then Ok(acc)
    else
      var key := gt.entries[i].0;
      var acc' :- Compare(scorer, gt.entries[i].1, PredChild(pred, key), ChildPath(prefix, key), acc);
      CompareEntries(scorer, gt, i + 1, pred, prefix, acc')
  }

  /** The loop over `enumerate(gt)`, from index `i` on. */
  function CompareItems(scorer: Scorer, gt: Value, i: nat, pred: Value, prefix: string, acc: Results): Result<Results, PyError>
    requires gt.List? && i <= |gt.items|
    decreases gt, 0, |gt.items| - i
  {
    if i == |gt.items| then Ok(acc)
    else
      var acc' :- Compare(scorer, gt.items[i], PredItem(pred, i), IndexPath(prefix, i), acc);
      CompareItems(scorer, gt, i + 1, pred, prefix, acc')
  }

  /** The list loop as it runs on `sorted(gt)` for a set `gt`: every item is a
      string, hence a leaf. */
  function CompareStrItems(scorer: Scorer, gts: seq<string>, i: nat, pred: Value, prefix: string, acc: Results): Result<Results, PyError>
    requires i <= |gts|
    decreases |gts| - i
  {
    if i == |gts| then Ok(acc)
    else
      var acc' :- CompareLeaf(scorer, Str(gts[i]), PredItem(pred, i), IndexPath(prefix, i), acc);
      CompareStrItems(scorer, gts, i + 1, pred, prefix, acc')
  }

  const ErrorKey: string := "evaluate error"

  /** `evaluate(ground_truth, llm_output)`: never raises; an exception
      anywhere becomes `{"evaluate error": str(e)}`. */
  function Evaluate(gt: Value, pred: Value): (r: Value)
    ensures r.Dict?
  {
    match Compare(ComputeScore, gt, pred, "", [])
    case Ok(results) => Dict(results)
    case Err(e) => Dict([(ErrorKey, Str(Message(e)))])
  }
}

=== FILE: evaluation_facts.dfy ===
/** How `_compare_recursive` reads the prediction: only through the lookups
    at the ground truth's keys and indices, and through `sorted`/`list` in
    the set branch. */
module EvaluationFacts {
  import opened Wrappers
  import opened Values
  import opened Evaluation
  import StringOrder

  // ---------------------------------------------------------------
  // Dicts: only the ground truth's keys are looked up
  // ---------------------------------------------------------------

  lemma {:induction false} EntriesUseLookupsOnly(scorer: Scorer, gt: Value, i: nat, p1: Value, p2: Value, prefix: string, acc: Results)
    requires gt.Dict? && i <= |gt.entries|
    requires forall j :: i <= j < |gt.entries| ==> PredChild(p1, gt.entries[j].0) == PredChild(p2, gt.entries[j].0)
    ensures CompareEntries(scorer, gt, i, p1, prefix, acc) == CompareEntries(scorer, gt, i, p2, prefix, acc)
    decreases |gt.entries| - i
  {
    if i < |gt.entries| {
      var key := gt.entries[i].0;
      var c := Compare(scorer, gt.entries[i].1, PredChild(p1, key), ChildPath(prefix, key), acc);
      EntriesStep(scorer, gt, i, p1, prefix, acc);
      EntriesStep(scorer, gt, i, p2, prefix, acc);
      if c.Ok? {
        EntriesUseLookupsOnly(scorer, gt, i + 1, p1, p2, prefix, c.value);
      }
    }
  }

  /** Prediction keys the ground truth does not have are ignored. */
  lemma ExtraKeysIgnored(scorer: Scorer, es: seq<(string, Value)>, pes: seq<(string, Value)>, extra: seq<(string, Value)>, prefix: string, acc: Results)
    requires forall k :: k in Keys(extra) ==> k !in Keys(es)
    ensures Compare(scorer, Dict(es), Dict(pes + extra), prefix, acc) == Compare(scorer, Dict(es), Dict(pes), prefix, acc)
  {
    var gt := Dict(es);
    forall j | 0 <= j < |es| ensures PredChild(Dict(pes + extra), es[j].0) == PredChild(Dict(pes), es[j].0) {
      assert Keys(es)[j] == es[j].0;
      GetAppend(pes, extra, es[j].0);
    }
    EntriesUseLookupsOnly(scorer, gt, 0, Dict(pes + extra), Dict(pes), prefix, acc);
  }

  /** A prediction that is not a dict where the ground truth has one is
      treated like an empty dict: every key is looked up as `None`. */
  lemma NonDictParent(scorer: Scorer, es: seq<(string, Value)>, pred: Value, prefix: string, acc: Results)
    requires !pred.Dict?
    ensures Compare(scorer, Dict(es), pred, prefix, acc) == Compare(scorer, Dict(es), Dict([]), prefix, acc)
  {
    EntriesUseLookupsOnly(scorer, Dict(es), 0, pred, Dict([]), prefix, acc);
  }

  // ---------------------------------------------------------------
  // Lists: only the ground truth's indices are looked up
  // ---------------------------------------------------------------

  lemma {:induction false} ItemsUseLookupsOnly(scorer: Scorer, gt: Value, i: nat, p1: Value, p2: Value, prefix: string, acc: Results)
    requires gt.List? && i <= |gt.items|
    requires forall j :: i <= j < |gt.items| ==> PredItem(p1, j) == PredItem(p2, j)
    ensures CompareItems(scorer, gt, i, p1, prefix, acc) == CompareItems(scorer, gt, i, p2, prefix, acc)
    decreases |gt.items| - i
  {
    if i < |gt.items| {
      var c := Compare(scorer, gt.items[i], PredItem(p1, i), IndexPath(prefix, i), acc);
      ItemsStep(scorer, gt, i, gt.items[i], p1, prefix, acc);
      ItemsStep(scorer, gt, i, gt.items[i], p2, prefix, acc);
      if c.Ok? {
        ItemsUseLookupsOnly(scorer, gt, i + 1, p1, p2, prefix, c.value);
      }
    }
  }

  /** Prediction items past the ground truth's length are ignored. */
  lemma TrailingItemsIgnored(scorer: Scorer, xs: seq<Value>, ps: seq<Value>, extra: seq<Value>, prefix: string, acc: Results)
    requires |ps| >= |xs|
    ensures Compare(scorer, List(xs), List(ps + extra), prefix, acc) == Compare(scorer, List(xs), List(ps), prefix, acc)
  {
    forall j | 0 <= j < |xs| ensures PredItem(List(ps + extra), j) == PredItem(List(ps), j) {
      assert (ps + extra)[j] == ps[j];
    }
    ItemsUseLookupsOnly(scorer, List(xs), 0, List(ps + extra), List(ps), prefix, acc);
  }

  /** A prediction that is not a list where the ground truth has one is
      treated like an empty list: every index is looked up as `None`. */
  lemma NonListParent(scorer: Scorer, xs: seq<Value>, pred: Value, prefix: string, acc: Results)
    requires !pred.List?
    ensures Compare(scorer, List(xs), pred, prefix, acc) == Compare(scorer, List(xs), List([]), prefix, acc)
  {
    ItemsUseLookupsOnly(scorer, List(xs), 0, pred, List([]), prefix, acc);
  }

  // ---------------------------------------------------------------
  // Sets
  // ---------------------------------------------------------------

  lemma {:induction false} StrItemsAreItems(scorer: Scorer, gts: seq<string>, i: nat, pred: Value, prefix: string, acc: Results)
    requires i <= |gts|
    ensures CompareStrItems(scorer, gts, i, pred, prefix, acc) == CompareItems(scorer, List(StrValues(gts)), i, pred, prefix, acc)
    decreases |gts| - i
  {
    if i < |gts| {
      var gt := List(StrValues(gts));
      assert gt.items[i] == Str(gts[i]);
      ItemsStep(scorer, gt, i, Str(gts[i]), pred, prefix, acc);
      StrItemsStep(scorer, gts, i, pred, prefix, acc);
      var c := CompareLeaf(scorer, Str(gts[i]), PredItem(pred, i), IndexPath(prefix, i), acc);
      if c.Ok? {
        StrItemsAreItems(scorer, gts, i + 1, pred, prefix, c.value);
      }
    }
  }

  /** The set branch is the list branch run on `sorted(gt)` against the
      prediction list, at the same prefix; in particular a list prediction
      is compared in its own order. */
  lemma SetBranchIsListBranch(scorer: Scorer, elems: seq<string>, pred: Value, prefix: string, acc: Results)
    ensures Compare(scorer, StrSet(elems), pred, prefix, acc) ==
      var predList := SetPredList(pred);
      if predList.Err? then Err(predList.error)
      else Compare(scorer, List(StrValues(StringOrder.Sort(elems))), List(predList.value), prefix, acc)
  {
    var sp := SetPredList(pred);
    if sp.Ok? {
      StrItemsAreItems(scorer, StringOrder.Sort(elems), 0, List(sp.value), prefix, acc);
    }
  }

  lemma SetAgainstList(scorer: Scorer, elems: seq<string>, xs: seq<Value>, prefix: string, acc: Results)
    ensures Compare(scorer, StrSet(elems), List(xs), prefix, acc) ==
      Compare(scorer, List(StrValues(StringOrder.Sort(elems))), List(xs), prefix, acc)
  {
    SetBranchIsListBranch(scorer, elems, List(xs), prefix, acc);
    assert SetPredList(List(xs)) == Ok(xs);
  }

  /** A set iterates in no particular order, and the result does not depend
      on it: two listings of the same ground-truth set, against two listings
      of the same predicted set, give the same results. */
  lemma SetOrderIrrelevant(scorer: Scorer, a: seq<string>, b: seq<string>, pa: seq<string>, pb: seq<string>, prefix: string, acc: Results)
    requires multiset(a) == multiset(b) && multiset(pa) == multiset(pb)
    ensures Compare(scorer, StrSet(a), StrSet(pa), prefix, acc) == Compare(scorer, StrSet(b), StrSet(pb), prefix, acc)
  {
    StringOrder.SortCanonical(a, b);
    StringOrder.SortCanonical(pa, pb);
    SetAgainstSet(scorer, a, pa, prefix, acc);
    SetAgainstSet(scorer, b, pb, prefix, acc);
  }

  lemma SetAgainstSet(scorer: Scorer, elems: seq<string>, pelems: seq<string>, prefix: string, acc: Results)
    ensures Compare(scorer, StrSet(elems), StrSet(pelems), prefix, acc) ==
      CompareStrItems(scorer, StringOrder.Sort(elems), 0, List(StrValues(StringOrder.Sort(pelems))), prefix, acc)
  {
    SetBranch(scorer, elems, StrSet(pelems), prefix, acc);
  }

  /** One unfolding of the set branch. */
  lemma SetBranch(scorer: Scorer, elems: seq<string>, pred: Value, prefix: string, acc: Results)
    ensures SetPredList(pred).Err? ==> Compare(scorer, StrSet(elems), pred, prefix, acc) == Err(SetPredList(pred).error)
    ensures SetPredList(pred).Ok? ==>
      Compare(scorer, StrSet(elems), pred, prefix, acc)
        == CompareStrItems(scorer, StringOrder.Sort(elems), 0, List(SetPredList(pred).value), prefix, acc)
  {
  }

  /** A truthy number where the set branch expects an iterable raises
      `TypeError`. */
  lemma SetAgainstNumber(scorer: Scorer, elems: seq<string>, pred: Value, prefix: string, acc: Results)
    requires Truthy(pred) && IsNumber(pred)
    ensures Compare(scorer, StrSet(elems), pred, prefix, acc) ==
      Err(TypeError("'" + TypeName(pred) + "' object is not iterable"))
  {
  }

  // ---------------------------------------------------------------
  // One iteration of each loop
  // ---------------------------------------------------------------

  lemma EntriesStep(scorer: Scorer, gt: Value, i: nat, pred: Value, prefix: string, acc: Results)
    requires gt.Dict? && i < |gt.entries|
    ensures Compare(scorer, gt.entries[i].1, PredChild(pred, gt.entries[i].0), ChildPath(prefix, gt.entries[i].0), acc).Err? ==>
      CompareEntries(scorer, gt, i, pred, prefix, acc) == Err(Compare(scorer, gt.entries[i].1, PredChild(pred, gt.entries[i].0), ChildPath(prefix, gt.entries[i].0), acc).error)
    ensures Compare(scorer, gt.entries[i].1, PredChild(pred, gt.entries[i].0), ChildPath(prefix, gt.entries[i].0), acc).Ok? ==>
      CompareEntries(scorer, gt, i, pred, prefix, acc) == CompareEntries(scorer, gt, i + 1, pred, prefix, Compare(scorer, gt.entries[i].1, PredChild(pred, gt.entries[i].0), ChildPath(prefix, gt.entries[i].0), acc).value)
  {
  }

  lemma ItemsStep(scorer: Scorer, gt: Value, i: nat, x: Value, pred: Value, prefix: string, acc: Results)
    requires gt.List? && i < |gt.items| && gt.items[i] == x
    ensures Compare(scorer, x, PredItem(pred, i), IndexPath(prefix, i), acc).Err? ==>
      CompareItems(scorer, gt, i, pred, prefix, acc) == Err(Compare(scorer, x, PredItem(pred, i), IndexPath(prefix, i), acc).error)
    ensures Compare(scorer, x, PredItem(pred, i), IndexPath(prefix, i), acc).Ok? ==>
      CompareItems(scorer, gt, i, pred, prefix, acc) == CompareItems(scorer, gt, i + 1, pred, prefix, Compare(scorer, x, PredItem(pred, i), IndexPath(prefix, i), acc).value)
  {
  }

  /** A string item is a leaf, so the list loop's step is the leaf case. */
  lemma StrItemsStep(scorer: Scorer, gts: seq<string>, i: nat, pred: Value, prefix: string, acc: Results)
    requires i < |gts|
    ensures Compare(scorer, Str(gts[i]), PredItem(pred, i), IndexPath(prefix, i), acc) == CompareLeaf(scorer, Str(gts[i]), PredItem(pred, i), IndexPath(prefix, i), acc)
    ensures CompareLeaf(scorer, Str(gts[i]), PredItem(pred, i), IndexPath(prefix, i), acc).Err? ==>
      CompareStrItems(scorer, gts, i, pred, prefix, acc) == Err(CompareLeaf(scorer, Str(gts[i]), PredItem(pred, i), IndexPath(prefix, i), acc).error)
    ensures CompareLeaf(scorer, Str(gts[i]), PredItem(pred, i), IndexPath(prefix, i), acc).Ok? ==>
      CompareStrItems(scorer, gts, i, pred, prefix, acc) == CompareStrItems(scorer, gts, i + 1, pred, prefix, CompareLeaf(scorer, Str(gts[i]), PredItem(pred, i), IndexPath(prefix, i), acc).value)
  {
  }

  // ---------------------------------------------------------------
  // Scenarios
  // ---------------------------------------------------------------

  /** `{"a.b": "x", "a": {"b": "y"}}` produces the path `a.b` twice; the
      second record overwrites the first and the key appears once. */
  lemma PathCollision()
    ensures Evaluate(Dict([("a.b", Str("x")), ("a", Dict([("b", Str("y"))]))]), Null)
         == Dict([("a.b", Record(Str("y"), Null, 0.0))])
  {
    var inner := Dict([("b", Str("y"))]);
    var gt := Dict([("a.b", Str("x")), ("a", inner)]);
    var r1 := [("a.b", Record(Str("x"), Null, 0.0))];
    var r2 := [("a.b", Record(Str("y"), Null, 0.0))];
    CollisionFirst();
    CollisionSecond();
    assert CompareEntries(ComputeScore, gt, 2, Null, "", r2) == Ok(r2);
    assert CompareEntries(ComputeScore, gt, 1, Null, "", r1) == Ok(r2);
  }

  /** The top-level key `a.b` is recorded at `a.b`. */
  lemma CollisionFirst()
    ensures Compare(ComputeScore, Str("x"), Null, "a.b", []) == Ok([("a.b", Record(Str("x"), Null, 0.0))])
  {
    assert ComputeScore(Str("x"), Null) == Ok(0.0);
  }

  /** The nested `a` → `b` reaches the same path and overwrites the record. */
  lemma CollisionSecond()
    ensures Compare(ComputeScore, Dict([("b", Str("y"))]), Null, "a", [("a.b", Record(Str("x"), Null, 0.0))])
         == Ok([("a.b", Record(Str("y"), Null, 0.0))])
  {
    var inner := Dict([("b", Str("y"))]);
    var r1 := [("a.b", Record(Str("x"), Null, 0.0))];
    var r2 := [("a.b", Record(Str("y"), Null, 0.0))];
    assert ChildPath("a", "b") == "a.b";
    assert ComputeScore(Str("y"), Null) == Ok(0.0);
    assert Put(r1, "a.b", Record(Str("y"), Null, 0.0)) == r2;
    assert Compare(ComputeScore, Str("y"), Null, "a.b", r1) == Ok(r2);
    assert CompareEntries(ComputeScore, inner, 1, Null, "a", r2) == Ok(r2);
  }


  /** A number in the ground truth facing a truthy prediction reaches
      `.lower()`; the whole result is the error dict, whose message reads
      `'int' object has no attribute 'lower'`. */
  lemma NumberLeafFails(k: string, n: int, pred: Value)
    requires n != 0 && Truthy(pred)
    ensures Evaluate(Dict([(k, Int(n))]), Dict([(k, pred)]))
         == Dict([(ErrorKey, Str(Message(AttributeError("int", "lower"))))])
  {
    NumberLeafDict(k, n, pred);
  }

  lemma NumberLeafDict(k: string, n: int, pred: Value)
    requires n != 0 && Truthy(pred)
    ensures Compare(ComputeScore, Dict([(k, Int(n))]), Dict([(k, pred)]), "", []) == Err(AttributeError("int", "lower"))
  {
    NumberLeafEntries(k, n, pred);
  }

  lemma NumberLeafEntries(k: string, n: int, pred: Value)
    requires n != 0 && Truthy(pred)
    ensures CompareEntries(ComputeScore, Dict([(k, Int(n))]), 0, Dict([(k, pred)]), "", []) == Err(AttributeError("int", "lower"))
  {
    assert PredChild(Dict([(k, pred)]), k) == pred;
    assert ChildPath("", k) == k;
    NumberLeafCompare(k, n, pred);
  }

  lemma NumberLeafCompare(path: string, n: int, pred: Value)
    requires n != 0 && Truthy(pred)
    ensures Compare(ComputeScore, Int(n), pred, path, []) == Err(AttributeError("int", "lower"))
  {
    ScoreError(Int(n), pred);
  }
}

=== FILE: evaluation_flat.dfy ===
/** A flat reading of `_compare_recursive`: first align every ground-truth
    leaf with the prediction found at the same place, then score the aligned
    pairs one after another. The recursive evaluator agrees with it, which
    gives its failure, record and missing-prediction properties. */
module EvaluationFlat {
  import opened Wrappers
  import opened Values
  import opened Evaluation
  import StringOrder
  import Seqs

  /** One ground-truth leaf, the prediction aligned with it, and its path. */
  datatype Leaf = Leaf(path: string, gt: Value, pred: Value)

  /** The aligned leaves of `gt` in visiting order; only the set branch's
      `list(pred)` can fail here. */
  function Align(gt: Value, pred: Value, prefix: string): Result<seq<Leaf>, PyError>
    decreases gt, 1
  {
    match gt
    case Dict(_) => AlignEntries(gt, 0, pred, prefix)
    case List(_) => AlignItems(gt, 0, pred, prefix)
    case StrSet(elems) =>
      var predList := SetPredList(pred);
      if predList.Err? then Err(predList.error)
      else Ok(AlignStrs(StringOrder.Sort(elems), 0, List(predList.value), prefix))
    case _ => Ok([Leaf(prefix, gt, pred)])
  }

  function AlignEntries(gt: Value, i: nat, pred: Value, prefix: string): Result<seq<Leaf>, PyError>
    requires gt.Dict? && i <= |gt.entries|
    decreases gt, 0, |gt.entries| - i
  {
    if i == |gt.entries| then Ok([])
    else
      var key := gt.entries[i].0;
      var first :- Align(gt.entries[i].1, PredChild(pred, key), ChildPath(prefix, key));
      var rest :- AlignEntries(gt, i + 1, pred, prefix);
      Ok(first + rest)
  }

  function AlignItems(gt: Value, i: nat, pred: Value, prefix: string): Result<seq<Leaf>, PyError>
    requires gt.List? && i <= |gt.items|
    decreases gt, 0, |gt.items| - i
  {
    if i == |gt.items| then Ok([])
    else
      var first :- Align(gt.items[i], PredItem(pred, i), IndexPath(prefix, i));
      var rest :- AlignItems(gt, i + 1, pred, prefix);
      Ok(first + rest)
  }

  function AlignStrs(gts: seq<string>, i: nat, pred: Value, prefix: string): seq<Leaf>
    requires i <= |gts|
    decreases |gts| - i
  {
    if i == |gts| then []
    else [Leaf(IndexPath(prefix, i), Str(gts[i]), PredItem(pred, i))] + AlignStrs(gts, i + 1, pred, prefix)
  }

  /** Score the aligned leaves in order, each assignment into `results`. */
  function ScoreLeaves(scorer: Scorer, ls: seq<Leaf>, acc: Results): Result<Results, PyError>
    decreases |ls|
  {
    if |ls| == 0 then Ok(acc)
    else
      var acc' :- CompareLeaf(scorer, ls[0].gt, ls[0].pred, ls[0].path, acc);
      ScoreLeaves(scorer, ls[1..], acc')
  }

  /** Align, then score. */
  function Flat(scorer: Scorer, gt: Value, pred: Value, prefix: string, acc: Results): Result<Results, PyError> {
    match Align(gt, pred, prefix)
    case Err(e) => Err(e)
    case Ok(ls) => ScoreLeaves(scorer, ls, acc)
  }

  /** Both succeed or both fail, and on success they agree. (Which exception
      is reported first may differ.) */
  predicate SameOutcome(r1: Result<Results, PyError>, r2: Result<Results, PyError>) {
    r1.Ok? == r2.Ok? && (r1.Ok? ==> r1.value == r2.value)
  }

  lemma {:induction false} ScoreLeavesAppend(scorer: Scorer, l1: seq<Leaf>, l2: seq<Leaf>, acc: Results)
    ensures ScoreLeaves(scorer, l1 + l2, acc) ==
      match ScoreLeaves(scorer, l1, acc)
      case Err(e) => Err(e)
      case Ok(a) => ScoreLeaves(scorer, l2, a)
    decreases |l1|
  {
    if |l1| == 0 {
      assert l1 + l2 == l2;
    } else {
      assert (l1 + l2)[0] == l1[0];
      assert (l1 + l2)[1..] == l1[1..] + l2;
      var c := CompareLeaf(scorer, l1[0].gt, l1[0].pred, l1[0].path, acc);
      if c.Ok? {
        ScoreLeavesAppend(scorer, l1[1..], l2, c.value);
      }
    }
  }

  /** `_compare_recursive` is "align, then score each leaf in order". */
  lemma {:induction false} CompareIsFlat(scorer: Scorer, gt: Value, pred: Value, prefix: string, acc: Results)
    ensures SameOutcome(Compare(scorer, gt, pred, prefix, acc), Flat(scorer, gt, pred, prefix, acc))
    ensures Align(gt, pred, prefix).Ok? ==> Compare(scorer, gt, pred, prefix, acc) == Flat(scorer, gt, pred, prefix, acc)
    decreases gt, 1
  {
    match gt
    case Dict(_) => EntriesAreFlat(scorer, gt, 0, pred, prefix, acc);
    case List(_) => ItemsAreFlat(scorer, gt, 0, pred, prefix, acc);
    case StrSet(elems) =>
      var sp := SetPredList(pred);
      if sp.Ok? {
        StrItemsAreFlat(scorer, StringOrder.Sort(elems), 0, List(sp.value), prefix, acc);
      }
    case _ =>
      var ls := [Leaf(prefix, gt, pred)];
      assert Flat(scorer, gt, pred, prefix, acc) == ScoreLeaves(scorer, ls, acc);
      assert ls[1..] == [];
      assert Compare(scorer, gt, pred, prefix, acc) == CompareLeaf(scorer, gt, pred, prefix, acc);
      var c := CompareLeaf(scorer, gt, pred, prefix, acc);
      if c.Ok? {
        assert ScoreLeaves(scorer, ls[1..], c.value) == Ok(c.value);
      }
  }

  lemma {:induction false} EntriesAreFlat(scorer: Scorer, gt: Value, i: nat, pred: Value, prefix: string, acc: Results)
    requires gt.Dict? && i <= |gt.entries|
    ensures SameOutcome(CompareEntries(scorer, gt, i, pred, prefix, acc),
      match AlignEntries(gt, i, pred, prefix)
      case Err(e) => Err(e)
      case Ok(ls) => ScoreLeaves(scorer, ls, acc))
    ensures AlignEntries(gt, i, pred, prefix).Ok? ==>
      CompareEntries(scorer, gt, i, pred, prefix, acc) == ScoreLeaves(scorer, AlignEntries(gt, i, pred, prefix).value, acc)
    decreases gt, 0, |gt.entries| - i
  {
    if i < |gt.entries| {
      var key := gt.entries[i].0;
      var child, childPred, path := gt.entries[i].1, PredChild(pred, key), ChildPath(prefix, key);
      CompareIsFlat(scorer, child, childPred, path, acc);
      var first := Align(child, childPred, path);
      var rest := AlignEntries(gt, i + 1, pred, prefix);
      if first.Ok? {
        ScoreLeavesAppend(scorer, first.value, if rest.Ok? then rest.value else [], acc);
        var c := Compare(scorer, child, childPred, path, acc);
        if c.Ok? {
          EntriesAreFlat(scorer, gt, i + 1, pred, prefix, c.value);
        }
      }
    }
  }

  lemma {:induction false} ItemsAreFlat(scorer: Scorer, gt: Value, i: nat, pred: Value, prefix: string, acc: Results)
    requires gt.List? && i <= |gt.items|
    ensures SameOutcome(CompareItems(scorer, gt, i, pred, prefix, acc),
      match AlignItems(gt, i, pred, prefix)
      case Err(e) => Err(e)
      case Ok(ls) => ScoreLeaves(scorer, ls, acc))
    ensures AlignItems(gt, i, pred, prefix).Ok? ==>
      CompareItems(scorer, gt, i, pred, prefix, acc) == ScoreLeaves(scorer, AlignItems(gt, i, pred, prefix).value, acc)
    decreases gt, 0, |gt.items| - i
  {
    if i < |gt.items| {
      var child, childPred, path := gt.items[i], PredItem(pred, i), IndexPath(prefix, i);
      CompareIsFlat(scorer, child, childPred, path, acc);
      var first := Align(child, childPred, path);
      var rest := AlignItems(gt, i + 1, pred, prefix);
      if first.Ok? {
        ScoreLeavesAppend(scorer, first.value, if rest.Ok? then rest.value else [], acc);
        var c := Compare(scorer, child, childPred, path, acc);
        if c.Ok? {
          ItemsAreFlat(scorer, gt, i + 1, pred, prefix, c.value);
        }
      }
    }
  }

  lemma {:induction false} StrItemsAreFlat(scorer: Scorer, gts: seq<string>, i: nat, pred: Value, prefix: string, acc: Results)
    requires i <= |gts|
    ensures CompareStrItems(scorer, gts, i, pred, prefix, acc) == ScoreLeaves(scorer, AlignStrs(gts, i, pred, prefix), acc)
    decreases |gts| - i
  {
    if i < |gts| {
      var ls := AlignStrs(gts, i, pred, prefix);
      AlignStrsCons(gts, i, pred, prefix);
      var c := CompareLeaf(scorer, Str(gts[i]), PredItem(pred, i), IndexPath(prefix, i), acc);
      ScoreLeavesCons(scorer, ls, acc);
      if c.Ok? {
        StrItemsAreFlat(scorer, gts, i + 1, pred, prefix, c.value);
      }
    }
  }

  lemma AlignStrsCons(gts: seq<string>, i: nat, pred: Value, prefix: string)
    requires i < |gts|
    ensures |AlignStrs(gts, i, pred, prefix)| > 0
    ensures AlignStrs(gts, i, pred, prefix)[0] == Leaf(IndexPath(prefix, i), Str(gts[i]), PredItem(pred, i))
    ensures AlignStrs(gts, i, pred, prefix)[1..] == AlignStrs(gts, i + 1, pred, prefix)
  {
    var ls := AlignStrs(gts, i, pred, prefix);
    assert ls == [Leaf(IndexPath(prefix, i), Str(gts[i]), PredItem(pred, i))] + AlignStrs(gts, i + 1, pred, prefix);
  }

  /** One scoring step: the first leaf's comparison, then the rest. */
  lemma ScoreLeavesCons(scorer: Scorer, ls: seq<Leaf>, acc: Results)
    requires |ls| > 0
    ensures CompareLeaf(scorer, ls[0].gt, ls[0].pred, ls[0].path, acc).Err? ==>
      ScoreLeaves(scorer, ls, acc) == Err(CompareLeaf(scorer, ls[0].gt, ls[0].pred, ls[0].path, acc).error)
    ensures CompareLeaf(scorer, ls[0].gt, ls[0].pred, ls[0].path, acc).Ok? ==>
      ScoreLeaves(scorer, ls, acc) == ScoreLeaves(scorer, ls[1..], CompareLeaf(scorer, ls[0].gt, ls[0].pred, ls[0].path, acc).value)
  {
  }

  // ---------------------------------------------------------------
  // Consequences
  // ---------------------------------------------------------------

  function Paths(ls: seq<Leaf>): (ps: seq<string>)
    ensures |ps| == |ls| && forall i :: 0 <= i < |ls| ==> ps[i] == ls[i].path
  {
    seq(|ls|, i requires 0 <= i < |ls| => ls[i].path)
  }

  /** The score an aligned leaf gets; defined when scoring it succeeds. */
  predicate Scores(scorer: Scorer, l: Leaf) {
    scorer(l.gt, l.pred).Ok?
  }

  function RecordOf(scorer: Scorer, l: Leaf): Value
    requires Scores(scorer, l)
  {
    Record(l.gt, l.pred, scorer(l.gt, l.pred).value)
  }

  lemma ScoreLeavesStep(scorer: Scorer, ls: seq<Leaf>, acc: Results)
    requires |ls| > 0 && Scores(scorer, ls[0])
    ensures ScoreLeaves(scorer, ls, acc) == ScoreLeaves(scorer, ls[1..], Put(acc, ls[0].path, RecordOf(scorer, ls[0])))
  {
  }

  lemma RecordOfShape(l: Leaf)
    requires Scores(ComputeScore, l)
    ensures IsScoreRecord(RecordOf(ComputeScore, l))
  {
    var r := RecordOf(ComputeScore, l);
    assert Keys(r.entries) == ["llm_text", "gt_text", "score"];
  }

  /** Scoring the leaves fails exactly when one of them cannot be scored. */
  lemma {:induction false} ScoreLeavesFails(scorer: Scorer, ls: seq<Leaf>, acc: Results)
    ensures ScoreLeaves(scorer, ls, acc).Err? <==> exists i :: 0 <= i < |ls| && !Scores(scorer, ls[i])
    decreases |ls|
  {
    if |ls| > 0 {
      var c := CompareLeaf(scorer, ls[0].gt, ls[0].pred, ls[0].path, acc);
      ScoreLeavesCons(scorer, ls, acc);
      if c.Ok? {
        ScoreLeavesFails(scorer, ls[1..], c.value);
        Seqs.ExistsInTail(ls, l => !Scores(scorer, l));
      }
    }
  }

  /** Scoring this leaf calls `.lower()` on a truthy non-string. */
  predicate LeafRaises(l: Leaf) {
    Truthy(l.pred) && ((Truthy(l.gt) && !l.gt.Str?) || !l.pred.Str?)
  }

  /** The exception scoring a raising leaf reports: `.lower()` is first
      called on the ground truth, so a truthy non-string ground truth is
      named, and otherwise the prediction. */
  function LeafError(l: Leaf): PyError {
    if Truthy(l.gt) && !l.gt.Str? then AttributeError(TypeName(l.gt), "lower")
    else AttributeError(TypeName(l.pred), "lower")
  }

  /** The position of the first raising leaf. */
  function FirstRaising(ls: seq<Leaf>): (k: nat)
    requires exists i :: 0 <= i < |ls| && LeafRaises(ls[i])
    ensures k < |ls| && LeafRaises(ls[k])
    ensures forall j :: 0 <= j < k ==> !LeafRaises(ls[j])
    decreases |ls|
  {
    if LeafRaises(ls[0]) then 0
    else
      Seqs.ExistsInTail(ls, LeafRaises);
      var k := FirstRaising(ls[1..]);
      assert forall j :: 1 <= j <= k ==> ls[j] == ls[1..][j - 1];
      k + 1
  }

  /** Scoring stops at the first leaf whose score cannot be computed, with
      that leaf's exception. */
  lemma {:induction false} ScoreLeavesFirstError(scorer: Scorer, ls: seq<Leaf>, acc: Results, k: nat)
    requires k < |ls| && !Scores(scorer, ls[k])
    requires forall j :: 0 <= j < k ==> Scores(scorer, ls[j])
    ensures ScoreLeaves(scorer, ls, acc) == Err(scorer(ls[k].gt, ls[k].pred).error)
    decreases k
  {
    if k == 0 {
      ScoreLeavesCons(scorer, ls, acc);
      assert CompareLeaf(scorer, ls[0].gt, ls[0].pred, ls[0].path, acc) == Err(scorer(ls[0].gt, ls[0].pred).error);
    } else {
      assert Scores(scorer, ls[0]);
      ScoreLeavesStep(scorer, ls, acc);
      var rest := ls[1..];
      forall j | 0 <= j < k - 1
        ensures Scores(scorer, rest[j])
      {
        assert rest[j] == ls[j + 1];
      }
      assert rest[k - 1] == ls[k];
      ScoreLeavesFirstError(scorer, rest, Put(acc, ls[0].path, RecordOf(scorer, ls[0])), k - 1);
    }
  }

  /** The walk raises: the set branch cannot iterate the prediction, or some
      aligned leaf raises. */
  predicate WalkRaises(gt: Value, pred: Value) {
    || Align(gt, pred, "").Err?
    || exists i :: 0 <= i < |Align(gt, pred, "").value| && LeafRaises(Align(gt, pred, "").value[i])
  }

  /** `evaluate` reports an error exactly when the set branch is handed a
      truthy number, or some aligned leaf meets a truthy prediction while the
      leaf or the prediction is a truthy non-string (which `.lower()`
      rejects). */
  lemma EvaluateFails(gt: Value, pred: Value)
    ensures Compare(ComputeScore, gt, pred, "", []).Err? <==> WalkRaises(gt, pred)
  {
    CompareIsFlat(ComputeScore, gt, pred, "", []);
    var a := Align(gt, pred, "");
    var c := Compare(ComputeScore, gt, pred, "", []);
    if a.Ok? {
      var ls := a.value;
      assert c == ScoreLeaves(ComputeScore, ls, []);
      ScoreLeavesFails(ComputeScore, ls, []);
      forall i | 0 <= i < |ls| ensures !Scores(ComputeScore, ls[i]) <==> LeafRaises(ls[i])
      {
        ScoreError(ls[i].gt, ls[i].pred);
      }
      assert c.Err? <==> exists i :: 0 <= i < |ls| && LeafRaises(ls[i]);
    } else {
      assert Flat(ComputeScore, gt, pred, "", []).Err?;
    }
  }

  /** Scoring leaves that avoid path `p` leaves `p` as it was. */
  lemma {:induction false} ScoreLeavesOther(scorer: Scorer, ls: seq<Leaf>, acc: Results, p: string)
    requires ScoreLeaves(scorer, ls, acc).Ok? && p !in Paths(ls)
    ensures Get(ScoreLeaves(scorer, ls, acc).value, p) == Get(acc, p)
    decreases |ls|
  {
    if |ls| > 0 {
      ScoreLeavesFails(scorer, ls, acc);
      assert Scores(scorer, ls[0]);
      var acc' := Put(acc, ls[0].path, RecordOf(scorer, ls[0]));
      ScoreLeavesStep(scorer, ls, acc);
      assert ls[0].path == Paths(ls)[0];
      PutOther(acc, ls[0].path, RecordOf(scorer, ls[0]), p);
      assert Paths(ls[1..]) == Paths(ls)[1..];
      ScoreLeavesOther(scorer, ls[1..], acc', p);
    }
  }

  /** Colliding paths: the record stored under a path is the one of the LAST
      leaf with that path. */
  lemma {:induction false} ScoreLeavesLastWins(scorer: Scorer, ls: seq<Leaf>, acc: Results, i: nat)
    requires ScoreLeaves(scorer, ls, acc).Ok? && i < |ls|
    requires forall j :: i < j < |ls| ==> ls[j].path != ls[i].path
    ensures Scores(scorer, ls[i]) && Get(ScoreLeaves(scorer, ls, acc).value, ls[i].path) == Some(RecordOf(scorer, ls[i]))
    decreases |ls|
  {
    if i == 0 {
      ScoreLeavesFirstWins(scorer, ls, acc);
    } else {
      ScoreLeavesHead(scorer, ls, acc);
      var acc' := Put(acc, ls[0].path, RecordOf(scorer, ls[0]));
      LaterPathsShift(ls, i);
      ScoreLeavesLastWins(scorer, ls[1..], acc', i - 1);
    }
  }

  /** A successful run scored its first leaf and went on from there. */
  lemma ScoreLeavesHead(scorer: Scorer, ls: seq<Leaf>, acc: Results)
    requires ScoreLeaves(scorer, ls, acc).Ok? && |ls| > 0
    ensures Scores(scorer, ls[0])
    ensures ScoreLeaves(scorer, ls, acc) == ScoreLeaves(scorer, ls[1..], Put(acc, ls[0].path, RecordOf(scorer, ls[0])))
  {
  }

  /** The first leaf's record survives when no later leaf has its path. */
  lemma ScoreLeavesFirstWins(scorer: Scorer, ls: seq<Leaf>, acc: Results)
    requires ScoreLeaves(scorer, ls, acc).Ok? && |ls| > 0
    requires forall j :: 0 < j < |ls| ==> ls[j].path != ls[0].path
    ensures Scores(scorer, ls[0]) && Get(ScoreLeaves(scorer, ls, acc).value, ls[0].path) == Some(RecordOf(scorer, ls[0]))
  {
    ScoreLeavesHead(scorer, ls, acc);
    var acc' := Put(acc, ls[0].path, RecordOf(scorer, ls[0]));
    FirstPathAbsent(ls);
    ScoreLeavesOther(scorer, ls[1..], acc', ls[0].path);
  }

  lemma FirstPathAbsent(ls: seq<Leaf>)
    requires |ls| > 0
    requires forall j :: 0 < j < |ls| ==> ls[j].path != ls[0].path
    ensures ls[0].path !in Paths(ls[1..])
  {
    forall j | 0 <= j < |ls[1..]| ensures Paths(ls[1..])[j] != ls[0].path {
      assert ls[1..][j] == ls[j + 1];
    }
  }

  lemma LaterPathsShift(ls: seq<Leaf>, i: nat)
    requires 0 < i < |ls|
    requires forall j :: i < j < |ls| ==> ls[j].path != ls[i].path
    ensures ls[1..][i - 1] == ls[i]
    ensures forall j :: i - 1 < j < |ls[1..]| ==> ls[1..][j].path != ls[1..][i - 1].path
  {
    forall j | i - 1 < j < |ls[1..]| ensures ls[1..][j].path != ls[1..][i - 1].path {
      assert ls[1..][j] == ls[j + 1];
    }
  }

  /** Every entry `evaluate` adds is the record of an aligned leaf, stored at
      that leaf's path: `llm_text` is the prediction, `gt_text` the ground
      truth, `score` the rounded score. */
  lemma {:induction false} ScoreLeavesRecords(scorer: Scorer, ls: seq<Leaf>, acc: Results)
    requires ScoreLeaves(scorer, ls, acc).Ok?
    ensures forall e :: e in ScoreLeaves(scorer, ls, acc).value ==>
      e in acc || exists i :: 0 <= i < |ls| && Scores(scorer, ls[i]) && e == (ls[i].path, RecordOf(scorer, ls[i]))
    decreases |ls|
  {
    if |ls| > 0 {
      ScoreLeavesFails(scorer, ls, acc);
      assert Scores(scorer, ls[0]);
      var acc' := Put(acc, ls[0].path, RecordOf(scorer, ls[0]));
      ScoreLeavesStep(scorer, ls, acc);
      PutEntries(acc, ls[0].path, RecordOf(scorer, ls[0]));
      ScoreLeavesRecords(scorer, ls[1..], acc');
      forall e | e in ScoreLeaves(scorer, ls, acc).value
        ensures e in acc || exists i :: 0 <= i < |ls| && Scores(scorer, ls[i]) && e == (ls[i].path, RecordOf(scorer, ls[i]))
      {
        if e !in acc' {
          var i :| 0 <= i < |ls[1..]| && Scores(scorer, ls[1..][i]) && e == (ls[1..][i].path, RecordOf(scorer, ls[1..][i]));
          assert ls[1..][i] == ls[i + 1];
        } else if e !in acc {
          assert e == (ls[0].path, RecordOf(scorer, ls[0]));
        }
      }
    }
  }

  /** A record as `evaluate` writes it: the three keys in order and a score
      in [0, 1] with at most four decimals. */
  predicate IsScoreRecord(v: Value) {
    && v.Dict? && Keys(v.entries) == ["llm_text", "gt_text", "score"]
    && v.entries[2].1.Float?
    && 0.0 <= v.entries[2].1.r <= 1.0
    && FourDecimals(v.entries[2].1.r)
  }

  /** On success `evaluate` returns a dict with distinct keys, each mapped to
      a score record of a leaf aligned at that path. */
  lemma EvaluateRecords(gt: Value, pred: Value)
    requires Compare(ComputeScore, gt, pred, "", []).Ok?
    ensures var r := Evaluate(gt, pred).entries;
      && DistinctKeys(r)
      && forall e :: e in r ==> IsScoreRecord(e.1)
  {
    EvaluateIsFlat(gt, pred);
    var ls := Align(gt, pred, "").value;
    var r := ScoreLeaves(ComputeScore, ls, []).value;
    ScoreLeavesRecords(ComputeScore, ls, []);
    ScoreLeavesDistinct(ComputeScore, ls, []);
    forall e | e in r ensures IsScoreRecord(e.1) {
      var i :| 0 <= i < |ls| && Scores(ComputeScore, ls[i]) && e == (ls[i].path, RecordOf(ComputeScore, ls[i]));
      RecordOfShape(ls[i]);
    }
  }

  lemma EvaluateIsFlat(gt: Value, pred: Value)
    requires Compare(ComputeScore, gt, pred, "", []).Ok?
    ensures Align(gt, pred, "").Ok? && ScoreLeaves(ComputeScore, Align(gt, pred, "").value, []).Ok?
    ensures Evaluate(gt, pred).entries == ScoreLeaves(ComputeScore, Align(gt, pred, "").value, []).value
  {
    CompareIsFlat(ComputeScore, gt, pred, "", []);
  }

  /** The error dict `{"evaluate error": <message>}` of `evaluate`. */
  predicate IsErrorDict(r: Value) {
    r.Dict? && |r.entries| == 1 && r.entries[0].0 == ErrorKey && r.entries[0].1.Str?
  }

  /** What `evaluate` returns, in terms of the aligned leaves: the one-entry
      error dict exactly when the walk raises; when every set branch could
      iterate its prediction, its text is the message of the first raising
      leaf's `.lower()` error; otherwise the dict built by scoring the
      aligned leaves in order. A ground truth with its own `"evaluate error"`
      key is no exception: on success that key maps to a score record, not
      to text. */
  lemma EvaluateOutcome(gt: Value, pred: Value)
    ensures IsErrorDict(Evaluate(gt, pred)) <==> WalkRaises(gt, pred)
    ensures Align(gt, pred, "").Ok? && WalkRaises(gt, pred) ==>
      Evaluate(gt, pred) == Dict([(ErrorKey, Str(Message(LeafError(
        Align(gt, pred, "").value[FirstRaising(Align(gt, pred, "").value)]))))])
    ensures !IsErrorDict(Evaluate(gt, pred)) ==>
      && Align(gt, pred, "").Ok?
      && ScoreLeaves(ComputeScore, Align(gt, pred, "").value, []).Ok?
      && Evaluate(gt, pred) == Dict(ScoreLeaves(ComputeScore, Align(gt, pred, "").value, []).value)
  {
    EvaluateFails(gt, pred);
    var c := Compare(ComputeScore, gt, pred, "", []);
    if c.Ok? {
      EvaluateRecords(gt, pred);
      EvaluateIsFlat(gt, pred);
      var r := Evaluate(gt, pred).entries;
      if |r| == 1 {
        assert r[0] in r;
      }
    } else {
      assert Evaluate(gt, pred) == Dict([(ErrorKey, Str(Message(c.error)))]);
      if Align(gt, pred, "").Ok? {
        AlignedError(gt, pred);
      }
    }
  }

  /** When alignment succeeds, the walk raises the exception of the first
      raising leaf. */
  lemma AlignedError(gt: Value, pred: Value)
    requires Align(gt, pred, "").Ok? && WalkRaises(gt, pred)
    ensures Compare(ComputeScore, gt, pred, "", []) ==
      Err(LeafError(Align(gt, pred, "").value[FirstRaising(Align(gt, pred, "").value)]))
  {
    var ls := Align(gt, pred, "").value;
    var k := FirstRaising(ls);
    CompareIsFlat(ComputeScore, gt, pred, "", []);
    forall j | 0 <= j <= k ensures Scores(ComputeScore, ls[j]) <==> !LeafRaises(ls[j]) {
      ScoreError(ls[j].gt, ls[j].pred);
    }
    ScoreError(ls[k].gt, ls[k].pred);
    ScoreLeavesFirstError(ComputeScore, ls, [], k);
  }

  lemma {:induction false} ScoreLeavesDistinct(scorer: Scorer, ls: seq<Leaf>, acc: Results)
    requires ScoreLeaves(scorer, ls, acc).Ok? && DistinctKeys(acc)
    ensures DistinctKeys(ScoreLeaves(scorer, ls, acc).value)
    decreases |ls|
  {
    if |ls| > 0 {
      ScoreLeavesFails(scorer, ls, acc);
      assert Scores(scorer, ls[0]);
      var acc' := Put(acc, ls[0].path, RecordOf(scorer, ls[0]));
      ScoreLeavesStep(scorer, ls, acc);
      PutDistinct(acc, ls[0].path, RecordOf(scorer, ls[0]));
      ScoreLeavesDistinct(scorer, ls[1..], acc');
    }
  }

  // ---------------------------------------------------------------
  // A missing prediction
  // ---------------------------------------------------------------

  predicate AllMissing(ls: seq<Leaf>) {
    forall i :: 0 <= i < |ls| ==> ls[i].pred == Null
  }

  /** Against `None`, every leaf is aligned with `None`: a non-dict parent
      gives `None` for each key, a non-list parent `None` for each index. */
  lemma {:induction false} AlignMissing(gt: Value, prefix: string)
    ensures Align(gt, Null, prefix).Ok? && AllMissing(Align(gt, Null, prefix).value)
    decreases gt, 1
  {
    match gt
    case Dict(_) => AlignEntriesMissing(gt, 0, prefix);
    case List(_) => AlignItemsMissing(gt, 0, prefix);
    case StrSet(elems) => AlignStrsMissing(StringOrder.Sort(elems), 0, prefix);
    case _ =>
  }

  lemma {:induction false} AlignEntriesMissing(gt: Value, i: nat, prefix: string)
    requires gt.Dict? && i <= |gt.entries|
    ensures AlignEntries(gt, i, Null, prefix).Ok? && AllMissing(AlignEntries(gt, i, Null, prefix).value)
    decreases gt, 0, |gt.entries| - i
  {
    if i < |gt.entries| {
      var key := gt.entries[i].0;
      AlignMissing(gt.entries[i].1, ChildPath(prefix, key));
      AlignEntriesMissing(gt, i + 1, prefix);
      var first := Align(gt.entries[i].1, Null, ChildPath(prefix, key)).value;
      var rest := AlignEntries(gt, i + 1, Null, prefix).value;
      assert AlignEntries(gt, i, Null, prefix).value == first + rest;
    }
  }

  lemma {:induction false} AlignItemsMissing(gt: Value, i: nat, prefix: string)
    requires gt.List? && i <= |gt.items|
    ensures AlignItems(gt, i, Null, prefix).Ok? && AllMissing(AlignItems(gt, i, Null, prefix).value)
    decreases gt, 0, |gt.items| - i
  {
    if i < |gt.items| {
      AlignMissing(gt.items[i], IndexPath(prefix, i));
      AlignItemsMissing(gt, i + 1, prefix);
      var first := Align(gt.items[i], Null, IndexPath(prefix, i)).value;
      var rest := AlignItems(gt, i + 1, Null, prefix).value;
      assert AlignItems(gt, i, Null, prefix).value == first + rest;
    }
  }

  lemma {:induction false} AlignStrsMissing(gts: seq<string>, i: nat, prefix: string)
    requires i <= |gts|
    ensures AllMissing(AlignStrs(gts, i, List([]), prefix))
    decreases |gts| - i
  {
    if i < |gts| {
      AlignStrsMissing(gts, i + 1, prefix);
    }
  }

  lemma {:induction false} ScoreLeavesMissing(ls: seq<Leaf>, acc: Results)
    requires AllMissing(ls)
    ensures ScoreLeaves(ComputeScore, ls, acc).Ok?
    decreases |ls|
  {
    if |ls| > 0 {
      assert Scores(ComputeScore, ls[0]);
      ScoreLeavesStep(ComputeScore, ls, acc);
      ScoreLeavesMissing(ls[1..], Put(acc, ls[0].path, RecordOf(ComputeScore, ls[0])));
    }
  }

  /** `evaluate(gt, None)` never fails, and every record it returns holds
      `llm_text = None` and score 0. */
  lemma EvaluateMissing(gt: Value)
    ensures Compare(ComputeScore, gt, Null, "", []).Ok?
    ensures forall e :: e in Evaluate(gt, Null).entries ==>
      IsScoreRecord(e.1) && e.1.entries[0].1 == Null && e.1.entries[2].1 == Float(0.0)
  {
    AlignMissing(gt, "");
    var ls := Align(gt, Null, "").value;
    ScoreLeavesMissing(ls, []);
    CompareIsFlat(ComputeScore, gt, Null, "", []);
    ScoreLeavesRecords(ComputeScore, ls, []);
    Round4Ends();
    forall e | e in Evaluate(gt, Null).entries
      ensures IsScoreRecord(e.1) && e.1.entries[0].1 == Null && e.1.entries[2].1 == Float(0.0)
    {
      var i :| 0 <= i < |ls| && Scores(ComputeScore, ls[i]) && e == (ls[i].path, RecordOf(ComputeScore, ls[i]));
      assert ls[i].pred == Null;
      RecordOfShape(ls[i]);
    }
  }
}

=== FILE: evaluation_paths.dfy ===
/** Which keys `evaluate` produces: they are fixed by the ground truth's
    shape alone, whatever the prediction. */
module EvaluationPaths {
  import opened Wrappers
  import opened Values
  import opened Evaluation
  import StringOrder

  /** The path of every leaf of `gt`, in the order `_compare_recursive`
      visits them (with repeats when two paths spell the same string). */
  function LeafPaths(gt: Value, prefix: string): seq<string>
    decreases gt, 1
  {
    match gt
    case Dict(_) => EntryPaths(gt, 0, prefix)
    case List(_) => ItemPaths(gt, 0, prefix)
    case StrSet(elems) => IndexPaths(prefix, 0, |elems|)
    case _ => [prefix]
  }

  function EntryPaths(gt: Value, i: nat, prefix: string): seq<string>
    requires gt.Dict? && i <= |gt.entries|
    decreases gt, 0, |gt.entries| - i
  {
    if i == |gt.entries| then []
    else LeafPaths(gt.entries[i].1, ChildPath(prefix, gt.entries[i].0)) + EntryPaths(gt, i + 1, prefix)
  }

  function ItemPaths(gt: Value, i: nat, prefix: string): seq<string>
    requires gt.List? && i <= |gt.items|
    decreases gt, 0, |gt.items| - i
  {
    if i == |gt.items| then []
    else LeafPaths(gt.items[i], IndexPath(prefix, i)) + ItemPaths(gt, i + 1, prefix)
  }

  function IndexPaths(prefix: string, i: nat, n: nat): seq<string>
    decreases n - i
  {
    if i >= n then [] else [IndexPath(prefix, i)] + IndexPaths(prefix, i + 1, n)
  }

  /** The key order of a dict after assigning the paths `ps` one by one: a
      new path goes last, a repeated one keeps its first position. */
  function AddAll(ks: seq<string>, ps: seq<string>): (r: seq<string>)
    decreases |ps|
  {
    if |ps| == 0 then ks
    else AddAll(if ps[0] in ks then ks else ks + [ps[0]], ps[1..])
  }

  predicate Distinct(ks: seq<string>) {
    forall i, j :: 0 <= i < j < |ks| ==> ks[i] != ks[j]
  }

  /** Assigning paths yields each old key and each path exactly once, old
      keys first and in place. */
  lemma {:induction false} AddAllContents(ks: seq<string>, ps: seq<string>)
    requires Distinct(ks)
    ensures Distinct(AddAll(ks, ps))
    ensures forall x :: x in AddAll(ks, ps) <==> x in ks || x in ps
    ensures |AddAll(ks, ps)| >= |ks| && AddAll(ks, ps)[..|ks|] == ks
    decreases |ps|
  {
    if |ps| > 0 {
      var ks' := if ps[0] in ks then ks else ks + [ps[0]];
      assert Distinct(ks');
      AddAllContents(ks', ps[1..]);
      assert ps == [ps[0]] + ps[1..];
      assert AddAll(ks', ps[1..])[..|ks|] == ks' [..|ks|];
    }
  }

  lemma {:induction false} AddAllAppend(ks: seq<string>, p1: seq<string>, p2: seq<string>)
    ensures AddAll(ks, p1 + p2) == AddAll(AddAll(ks, p1), p2)
    decreases |p1|
  {
    if |p1| == 0 {
      assert p1 + p2 == p2;
    } else {
      assert (p1 + p2)[0] == p1[0];
      assert (p1 + p2)[1..] == p1[1..] + p2;
      AddAllAppend(if p1[0] in ks then ks else ks + [p1[0]], p1[1..], p2);
    }
  }

  /** The keys `_compare_recursive` leaves in `results` are the old keys
      followed by the ground truth's leaf paths, however the prediction looks. */
  lemma {:induction false} CompareKeys(scorer: Scorer, gt: Value, pred: Value, prefix: string, acc: Results)
    requires Compare(scorer, gt, pred, prefix, acc).Ok?
    ensures Keys(Compare(scorer, gt, pred, prefix, acc).value) == AddAll(Keys(acc), LeafPaths(gt, prefix))
    decreases gt, 1
  {
    match gt
    case Dict(_) => EntriesKeys(scorer, gt, 0, pred, prefix, acc);
    case List(_) => ItemsKeys(scorer, gt, 0, pred, prefix, acc);
    case StrSet(elems) =>
      var predList := SetPredList(pred).value;
      var gts := StringOrder.Sort(elems);
      assert |gts| == |multiset(gts)| == |elems|;
      StrItemsKeys(scorer, gts, 0, List(predList), prefix, acc);
    case _ =>
      LeafKeys(scorer, gt, pred, prefix, acc);
  }

  lemma LeafKeys(scorer: Scorer, gt: Value, pred: Value, path: string, acc: Results)
    requires CompareLeaf(scorer, gt, pred, path, acc).Ok?
    ensures Keys(CompareLeaf(scorer, gt, pred, path, acc).value) == AddAll(Keys(acc), [path])
  {
  }

  lemma {:induction false} EntriesKeys(scorer: Scorer, gt: Value, i: nat, pred: Value, prefix: string, acc: Results)
    requires gt.Dict? && i <= |gt.entries| && CompareEntries(scorer, gt, i, pred, prefix, acc).Ok?
    ensures Keys(CompareEntries(scorer, gt, i, pred, prefix, acc).value) == AddAll(Keys(acc), EntryPaths(gt, i, prefix))
    decreases gt, 0, |gt.entries| - i
  {
    if i < |gt.entries| {
      var key := gt.entries[i].0;
      var path := ChildPath(prefix, key);
      var child := gt.entries[i].1;
      var acc' := Compare(scorer, child, PredChild(pred, key), path, acc).value;
      CompareKeys(scorer, child, PredChild(pred, key), path, acc);
      EntriesKeys(scorer, gt, i + 1, pred, prefix, acc');
      AddAllAppend(Keys(acc), LeafPaths(child, path), EntryPaths(gt, i + 1, prefix));
    }
  }

  lemma {:induction false} ItemsKeys(scorer: Scorer, gt: Value, i: nat, pred: Value, prefix: string, acc: Results)
    requires gt.List? && i <= |gt.items| && CompareItems(scorer, gt, i, pred, prefix, acc).Ok?
    ensures Keys(CompareItems(scorer, gt, i, pred, prefix, acc).value) == AddAll(Keys(acc), ItemPaths(gt, i, prefix))
    decreases gt, 0, |gt.items| - i
  {
    if i < |gt.items| {
      var path := IndexPath(prefix, i);
      var acc' := Compare(scorer, gt.items[i], PredItem(pred, i), path, acc).value;
      CompareKeys(scorer, gt.items[i], PredItem(pred, i), path, acc);
      ItemsKeys(scorer, gt, i + 1, pred, prefix, acc');
      AddAllAppend(Keys(acc), LeafPaths(gt.items[i], path), ItemPaths(gt, i + 1, prefix));
    }
  }

  lemma {:induction false} StrItemsKeys(scorer: Scorer, gts: seq<string>, i: nat, pred: Value, prefix: string, acc: Results)
    requires i <= |gts| && CompareStrItems(scorer, gts, i, pred, prefix, acc).Ok?
    ensures Keys(CompareStrItems(scorer, gts, i, pred, prefix, acc).value) == AddAll(Keys(acc), IndexPaths(prefix, i, |gts|))
    decreases |gts| - i
  {
    if i < |gts| {
      var path := IndexPath(prefix, i);
      var acc' := CompareLeaf(scorer, Str(gts[i]), PredItem(pred, i), path, acc).value;
      LeafKeys(scorer, Str(gts[i]), PredItem(pred, i), path, acc);
      StrItemsKeys(scorer, gts, i + 1, pred, prefix, acc');
      AddAllAppend(Keys(acc), [path], IndexPaths(prefix, i + 1, |gts|));
    }
  }

  /** `evaluate` either reports an error or returns one entry per distinct
      leaf path of the ground truth, in first-visit order; the prediction only
      decides which of the two. */
  lemma EvaluateKeys(gt: Value, pred: Value)
    ensures var r := Evaluate(gt, pred);
      || (|r.entries| == 1 && r.entries[0].0 == ErrorKey && r.entries[0].1.Str?)
      || (Keys(r.entries) == AddAll([], LeafPaths(gt, "")) && Distinct(Keys(r.entries)))
  {
    var c := Compare(ComputeScore, gt, pred, "", []);
    if c.Ok? {
      CompareKeys(ComputeScore, gt, pred, "", []);
      AddAllContents([], LeafPaths(gt, ""));
    }
  }

  /** Two predictions that both evaluate without error give the same keys. */
  lemma KeysIgnorePrediction(scorer: Scorer, gt: Value, p1: Value, p2: Value, prefix: string, acc: Results)
    requires Compare(scorer, gt, p1, prefix, acc).Ok? && Compare(scorer, gt, p2, prefix, acc).Ok?
    ensures Keys(Compare(scorer, gt, p1, prefix, acc).value) == Keys(Compare(scorer, gt, p2, prefix, acc).value)
  {
    CompareKeys(scorer, gt, p1, prefix, acc);
    CompareKeys(scorer, gt, p2, prefix, acc);
  }
}

=== FILE: file_utils.dfy ===
/** Pairing ground-truth JSON uploads with JPEG uploads by file stem, and
    flattening evaluation results into table rows. */
module FileUtils {
  import opened Wrappers
  import opened Values
  import opened Uploads
  import Seqs
  import Evaluation

  // ---------------------------------------------------------------
  // os.path.splitext(name)[0]
  // ---------------------------------------------------------------

  /** `s.rfind(c)`: the last index of `c`, or -1. */
  function LastIndex(s: string, c: char): (i: int)
    ensures -1 <= i < |s|
    ensures i >= 0 ==> s[i] == c
    ensures forall j :: i < j < |s| ==> s[j] != c
  {
    if |s| == 0 then -1
    else if s[|s| - 1] == c then |s| - 1
    else LastIndex(s[..|s| - 1], c)
  }

  /** Some character of `s[lo..hi]` is not a dot. */
  predicate HasNonDot(s: string, lo: int, hi: int)
    requires 0 <= lo <= hi <= |s|
  {
    exists j :: lo <= j < hi && s[j] != '.'
  }

  /** `os.path.splitext(p)[0]` on POSIX: the path without its last extension.
      The extension starts at the last dot of the final path component, and
      only when something other than dots precedes that dot in the component
      (so `.bashrc` has no extension). */
  function Stem(p: string): (r: string)
    ensures |r| <= |p| && r == p[..|r|]
  {
    var sep := LastIndex(p, '/');
    var dot := LastIndex(p, '.');
    if dot > sep && HasNonDot(p, sep + 1, dot) then p[..dot] else p
  }

  /** Without a dot there is nothing to remove. */
  lemma StemWithoutDot(p: string)
    requires '.' !in p
    ensures Stem(p) == p
  {
  }

  /** Only the last extension is removed: `a.b.json` has stem `a.b`. */
  lemma StemOfAppend(base: string, ext: string)
    requires |base| > 0 && base[|base| - 1] != '.' && base[|base| - 1] != '/'
    requires '.' !in ext && '/' !in ext
    ensures Stem(base + "." + ext) == base
  {
    var p := base + "." + ext;
    var dot := LastIndex(p, '.');
    var sep := LastIndex(p, '/');
    assert p[|base|] == '.';
    forall j | |base| < j < |p| ensures p[j] != '.' && p[j] != '/' {
      assert p[j] == ext[j - |base| - 1];
    }
    assert dot == |base|;
    assert p[|base| - 1] == base[|base| - 1];
    assert sep < |base| - 1;
    assert HasNonDot(p, sep + 1, dot);
    assert p[..dot] == base;
  }

  // ---------------------------------------------------------------
  // sort_gt_files_by_jpg
  // ---------------------------------------------------------------

  /** `{stem(gt["name"]): gt for gt in jsons}`: a later file with the same
      stem replaces the earlier one's value. */
  function JsonDict(jsons: seq<Upload>): (d: seq<(string, Upload)>)
    ensures DistinctKeys(d)
  {
    if |jsons| == 0 then []
    else
      var last := jsons[|jsons| - 1];
      var rest := JsonDict(jsons[..|jsons| - 1]);
      PutDistinct(rest, Stem(last.name), last);
      Put(rest, Stem(last.name), last)
  }

  /** Reference search: the last JSON upload whose stem is `stem`. */
  function LastWithStem(jsons: seq<Upload>, stem: string): (r: Option<Upload>)
    ensures r.Some? ==> r.value in jsons && Stem(r.value.name) == stem
    ensures r.None? <==> forall i :: 0 <= i < |jsons| ==> Stem(jsons[i].name) != stem
  {
    if |jsons| == 0 then None
    else if Stem(jsons[|jsons| - 1].name) == stem then Some(jsons[|jsons| - 1])
    else
      var r := LastWithStem(jsons[..|jsons| - 1], stem);
      assert forall i :: 0 <= i < |jsons| - 1 ==> jsons[..|jsons| - 1][i] == jsons[i];
      r
  }

  /** Looking a stem up in the dict finds the last upload with that stem. */
  lemma {:induction false} JsonDictFindsLast(jsons: seq<Upload>, stem: string)
    ensures Get(JsonDict(jsons), stem) == LastWithStem(jsons, stem)
  {
    if |jsons| > 0 {
      var last := jsons[|jsons| - 1];
      var rest := JsonDict(jsons[..|jsons| - 1]);
      JsonDictFindsLast(jsons[..|jsons| - 1], stem);
      if Stem(last.name) != stem {
        PutOther(rest, Stem(last.name), last, stem);
      }
    }
  }

  /** The loop over the JPEGs: each one's stem is looked up in the dict of
      JSONs. A JPEG whose stem is missing reaches the error message, which
      reads `jpg_file.name` on a dict and so raises AttributeError rather
      than the ValueError it was building. */
  function Pair(jpgs: seq<Upload>, dict: seq<(string, Upload)>): (r: Result<seq<Upload>, PyError>)
    ensures r.Err? ==> r.error == AttributeError("dict", "name")
    ensures r.Ok? ==> |r.value| == |jpgs|
    ensures r.Ok? ==> forall j :: 0 <= j < |jpgs| ==> Get(dict, Stem(jpgs[j].name)) == Some(r.value[j])
    ensures r.Err? <==> exists j :: 0 <= j < |jpgs| && Stem(jpgs[j].name) !in Keys(dict)
  {
    if |jpgs| == 0 then Ok([])
    else
      match Get(dict, Stem(jpgs[0].name))
      case None => Err(AttributeError("dict", "name"))
      case Some(gt) =>
        var rest := Pair(jpgs[1..], dict);
        Seqs.ExistsInTail(jpgs, (u: Upload) => Stem(u.name) !in Keys(dict));
        if rest.Err? then rest
        else
          PairTail(jpgs, dict, gt, rest.value);
          Ok([gt] + rest.value)
  }

  /** The loop's later turns: what they find for `jpgs[1..]`, put after the
      first JPEG's match `gt`. */
  lemma PairTail(jpgs: seq<Upload>, dict: seq<(string, Upload)>, gt: Upload, rest: seq<Upload>)
    requires |jpgs| > 0 && Get(dict, Stem(jpgs[0].name)) == Some(gt)
    requires |rest| == |jpgs| - 1
    requires forall j :: 0 <= j < |jpgs| - 1 ==> Get(dict, Stem(jpgs[1..][j].name)) == Some(rest[j])
    ensures forall j :: 0 <= j < |jpgs| ==> Get(dict, Stem(jpgs[j].name)) == Some(([gt] + rest)[j])
  {
    var found := (u: Upload, g: Upload) => Get(dict, Stem(u.name)) == Some(g);
    Seqs.ConsPointwise(jpgs, gt, rest, found);
  }





  /** `sort_gt_files_by_jpg(uploaded_jpgs, uploaded_jsons)` */
  function SortGtFilesByJpg(jpgs: seq<Upload>, jsons: seq<Upload>): (r: Result<seq<Upload>, PyError>)
  {
    Pair(jpgs, JsonDict(jsons))
  }

  /** On success there is one JSON per JPEG, in JPEG order: the last uploaded
      JSON with the same stem. The call fails exactly when some JPEG has no
      JSON with its stem, and then with AttributeError. */
  lemma SortGtFilesSpec(jpgs: seq<Upload>, jsons: seq<Upload>)
    ensures SortGtFilesByJpg(jpgs, jsons).Err? <==>
      exists j :: 0 <= j < |jpgs| && LastWithStem(jsons, Stem(jpgs[j].name)).None?
    ensures SortGtFilesByJpg(jpgs, jsons).Err? ==>
      SortGtFilesByJpg(jpgs, jsons).error == AttributeError("dict", "name")
    ensures SortGtFilesByJpg(jpgs, jsons).Ok? ==>
      |SortGtFilesByJpg(jpgs, jsons).value| == |jpgs|
    ensures SortGtFilesByJpg(jpgs, jsons).Ok? ==>
      forall j :: 0 <= j < |jpgs| ==>
        var gt := SortGtFilesByJpg(jpgs, jsons).value[j];
        LastWithStem(jsons, Stem(jpgs[j].name)) == Some(gt) && Stem(gt.name) == Stem(jpgs[j].name) && gt in jsons
  {
    var d := JsonDict(jsons);
    forall j | 0 <= j < |jpgs| ensures Get(d, Stem(jpgs[j].name)) == LastWithStem(jsons, Stem(jpgs[j].name)) {
      JsonDictFindsLast(jsons, Stem(jpgs[j].name));
    }
  }

  // ---------------------------------------------------------------
  // The row-building loop of convert_json_list_to_dataframes
  // ---------------------------------------------------------------

  /** One table row: field name, ground truth, model text and score. */
  datatype Row = Row(field: string, gtText: Value, llmText: Value, score: Value)

  /** `x or ""` */
  function OrEmpty(x: Value): (r: Value)
    ensures Truthy(x) ==> r == x
    ensures !Truthy(x) ==> r == Str("")
  {
    if Truthy(x) then x else Str("")
  }

  /** The row for one `(field, data)` pair of a result. */
  function RowOf(field: string, data: Value): (r: Row)
    ensures r.field == field
    ensures !data.Dict? ==> r == Row(field, Str(""), Str(""), Str(""))
    ensures data.Dict? ==> !Truthy(GetOr(data.entries, "gt_text", Null)) ==> r.gtText == Str("")
    ensures data.Dict? ==> !Truthy(GetOr(data.entries, "llm_text", Null)) ==> r.llmText == Str("")
    ensures data.Dict? ==>
      && r.gtText == OrEmpty(GetOr(data.entries, "gt_text", Str("")))
      && r.llmText == OrEmpty(GetOr(data.entries, "llm_text", Str("")))
      && r.score == GetOr(data.entries, "score", Str(""))
  {
    if data.Dict? then
      Row(field,
          OrEmpty(GetOr(data.entries, "gt_text", Str(""))),
          OrEmpty(GetOr(data.entries, "llm_text", Str(""))),
          GetOr(data.entries, "score", Str("")))
    else Row(field, Str(""), Str(""), Str(""))
  }

  /** The rows of one item: `item.get("result", {})`, then one row per entry. */
  function RowsOf(item: Value): (r: Result<seq<Row>, PyError>)
    ensures !item.Dict? ==> r == Err(AttributeError(TypeName(item), "get"))
    ensures item.Dict? && "result" !in Keys(item.entries) ==> r == Ok([])
    ensures r.Ok? && item.Dict? && "result" in Keys(item.entries) ==>
      var res := GetOr(item.entries, "result", Null);
      res.Dict? && |r.value| == |res.entries|
      && forall j :: 0 <= j < |r.value| ==> r.value[j] == RowOf(res.entries[j].0, res.entries[j].1)
  {
    if !item.Dict? then Err(AttributeError(TypeName(item), "get"))
    else
      var result := GetOr(item.entries, "result", Dict([]));
      if !result.Dict? then Err(AttributeError(TypeName(result), "items"))
      else Ok(seq(|result.entries|, j requires 0 <= j < |result.entries| => RowOf(result.entries[j].0, result.entries[j].1)))
  }

  /** The loop over `json_list`: one list of rows per item, or the first
      exception. */
  function ConvertRows(items: seq<Value>): (r: Result<seq<seq<Row>>, PyError>)
    ensures r.Ok? <==> forall i :: 0 <= i < |items| ==> RowsOf(items[i]).Ok?
    ensures r.Ok? ==> |r.value| == |items| && forall i :: 0 <= i < |items| ==> r.value[i] == RowsOf(items[i]).value
  {
    if |items| == 0 then Ok([])
    else
      var first := RowsOf(items[0]);
      if first.Err? then Err(first.error)
      else
        var rest := ConvertRows(items[1..]);
        if rest.Err? then
          var i :| 0 <= i < |items[1..]| && RowsOf(items[1..][i]).Err?;
          assert RowsOf(items[i + 1]).Err?;
          Err(rest.error)
        else
          assert forall i :: 1 <= i < |items| ==> items[i] == items[1..][i - 1];
          Ok([first.value] + rest.value)
  }

  /** An evaluator record comes back as a row with the same texts (falsy ones
      shown as "") and the same rounded score. */
  lemma RowOfRecord(field: string, gt: Value, pred: Value, score: real)
    ensures RowOf(field, Evaluation.Record(gt, pred, score)) ==
      Row(field, OrEmpty(gt), OrEmpty(pred), Float(Evaluation.Round4(score)))
  {
    var sc := Float(Evaluation.Round4(score));
    var es := Evaluation.Record(gt, pred, score).entries;
    assert es == [("llm_text", pred), ("gt_text", gt), ("score", sc)];
    assert es[1..][1..] == [("score", sc)];
    assert Get(es, "gt_text") == Some(gt);
    assert Get(es, "llm_text") == Some(pred);
    assert Get(es, "score") == Get(es[1..][1..], "score") == Some(sc);
  }
}

=== FILE: highlight.dfy ===
/** The pure parts of the result views: grouping result paths by their first
    component, and laying compact boxes out in rows. */
module HighlightService {
  import opened Wrappers
  import opened Values
  import opened Text

  // ---------------------------------------------------------------
  // render_results: grouping by dotted keys
  // ---------------------------------------------------------------

  const SelfKey := "_self"

  /** `key.split(".")[0]` */
  function Section(key: string): (r: string)
    ensures '.' !in r && |r| <= |key| && key[..|r|] == r
  {
    BeforeFirst(key, '.')
  }

  /** `".".join(parts[1:]) if len(parts) > 1 else None`, with an empty or
      missing remainder replaced by `_self`. */
  function Subkey(key: string): (r: string)
    ensures |r| > 0
  {
    var s := Section(key);
    if |s| + 1 < |key| then key[|s| + 1..] else SelfKey
  }

  /** A key with a dot and something after it is its section, a dot and its
      subkey; a key without a dot is its own section, under `_self`. */
  lemma SectionSubkeyJoin(key: string)
    ensures '.' !in key ==> Section(key) == key && Subkey(key) == SelfKey
    ensures '.' in key && Subkey(key) != SelfKey ==> Section(key) + "." + Subkey(key) == key
  {
    var s := Section(key);
    if '.' in key && Subkey(key) != SelfKey {
      assert key[|s|] == '.';
      assert key == key[..|s|] + [key[|s|]] + key[|s| + 1..];
    }
  }

  type Group = seq<(string, Value)>
  type Grouped = seq<(string, Group)>

  /** `grouped[section][subkey] = val`, creating the section first. */
  function Place(g: Grouped, key: string, val: Value): (r: Grouped)
    ensures Keys(r) == if Section(key) in Keys(g) then Keys(g) else Keys(g) + [Section(key)]
  {
    var inner := match Get(g, Section(key)) case Some(d) => d case None => [];
    Put(g, Section(key), Put(inner, Subkey(key), val))
  }

  /** The grouping loop over a result dict's entries. */
  function GroupEntries(es: seq<(string, Value)>): (r: Grouped)
    ensures DistinctKeys(r)
  {
    if |es| == 0 then []
    else
      var rest := GroupEntries(es[..|es| - 1]);
      var key := es[|es| - 1].0;
      var inner := match Get(rest, Section(key)) case Some(d) => d case None => [];
      PutDistinct(rest, Section(key), Put(inner, Subkey(key), es[|es| - 1].1));
      Place(rest, key, es[|es| - 1].1)
  }

  /** `render_results(result_dict)`: nothing is grouped for a non-dict. */
  function RenderResults(result: Value): (r: Option<Grouped>)
    ensures r.Some? <==> result.Dict?
  {
    if result.Dict? then Some(GroupEntries(result.entries)) else None
  }

  /** Reference search: the value of the last entry whose key falls under
      `section` and `subkey`. */
  function LastUnder(es: seq<(string, Value)>, section: string, subkey: string): (r: Option<Value>)
    ensures r.None? <==> forall i :: 0 <= i < |es| ==> Section(es[i].0) != section || Subkey(es[i].0) != subkey
  {
    if |es| == 0 then None
    else if Section(es[|es| - 1].0) == section && Subkey(es[|es| - 1].0) == subkey then Some(es[|es| - 1].1)
    else
      assert forall i :: 0 <= i < |es| - 1 ==> es[..|es| - 1][i] == es[i];
      LastUnder(es[..|es| - 1], section, subkey)
  }

  /** Some entry's key has the given section. */
  predicate HasSection(es: seq<(string, Value)>, section: string) {
    exists i :: 0 <= i < |es| && Section(es[i].0) == section
  }

  lemma HasSectionInit(es: seq<(string, Value)>, section: string)
    requires |es| > 0
    ensures HasSection(es, section) <==> HasSection(es[..|es| - 1], section) || Section(es[|es| - 1].0) == section
  {
    var init := es[..|es| - 1];
    if HasSection(es, section) && Section(es[|es| - 1].0) != section {
      var i :| 0 <= i < |es| && Section(es[i].0) == section;
      assert init[i] == es[i];
    }
    if HasSection(init, section) {
      var i :| 0 <= i < |init| && Section(init[i].0) == section;
      assert init[i] == es[i];
    }
  }

  /** There is a group for `section` exactly when some key has that section. */
  lemma {:induction false} GroupSections(es: seq<(string, Value)>, section: string)
    ensures section in Keys(GroupEntries(es)) <==> HasSection(es, section)
  {
    if |es| > 0 {
      GroupSections(es[..|es| - 1], section);
      HasSectionInit(es, section);
    }
  }

  /** Every string key lands in its section's group under its subkey, and when
      several keys land in the same place the last one wins. */
  lemma {:induction false} GroupFindsLast(es: seq<(string, Value)>, section: string, subkey: string)
    requires section in Keys(GroupEntries(es))
    ensures Get(Get(GroupEntries(es), section).value, subkey) == LastUnder(es, section, subkey)
  {
    var init := es[..|es| - 1];
    var rest := GroupEntries(init);
    var key := es[|es| - 1].0;
    var val := es[|es| - 1].1;
    var inner := match Get(rest, Section(key)) case Some(d) => d case None => [];
    if Section(key) == section {
      if Subkey(key) != subkey {
        PutOther(inner, Subkey(key), val, subkey);
        if section in Keys(rest) {
          GroupFindsLast(init, section, subkey);
        } else {
          GroupSections(init, section);
          assert LastUnder(init, section, subkey).None? by {
            forall i | 0 <= i < |init| ensures Section(init[i].0) != section {
            }
          }
        }
      }
    } else {
      PutOther(rest, Section(key), Put(inner, Subkey(key), val), section);
      GroupFindsLast(init, section, subkey);
    }
  }

  // ---------------------------------------------------------------
  // render_compact_boxes: entries and widths
  // ---------------------------------------------------------------

  const NoExtraction := "❌ No extraction"
  const MinWidth := 80
  const MaxWidth := 400
  const Gap := 6

  /** `max(80, min(len(text) * 7 + 20, 400))` */
  function BoxWidth(len: nat): (w: int)
    ensures MinWidth <= w <= MaxWidth
    ensures MinWidth < w < MaxWidth ==> w == 7 * len + 20
    ensures 7 * len + 20 >= MaxWidth ==> w == MaxWidth
    ensures 7 * len + 20 <= MinWidth ==> w == MinWidth
  {
    if 7 * len + 20 > MaxWidth then MaxWidth
    else if 7 * len + 20 < MinWidth then MinWidth
    else 7 * len + 20
  }

  /** Longer text never gives a narrower box. */
  lemma BoxWidthMonotone(a: nat, b: nat)
    requires a <= b
    ensures BoxWidth(a) <= BoxWidth(b)
  {
  }

  /** A box: the text shown and its width in pixels. The colour, computed
      from the score, is not modelled. */
  datatype Box = Box(text: Value, width: int)

  /** `float(x)` succeeds: numbers always, strings when Python's float parser
      accepts them (given as `parses`), nothing else. */
  predicate FloatAccepts(x: Value, parses: string -> bool) {
    IsNumber(x) || (x.Str? && parses(x.s))
  }

  /** The body of the entry loop for one `info`; `None` when it is skipped,
      either because `info` is not a dict or because `float(score)` or
      `len(text)` raised. */
  function BoxOf(info: Value, parses: string -> bool): (r: Option<Box>)
    ensures r.Some? ==> info.Dict? && MinWidth <= r.value.width <= MaxWidth
    ensures r.Some? ==> (Truthy(GetOr(info.entries, "llm_text", Null)) ==> r.value.text == GetOr(info.entries, "llm_text", Null))
    ensures r.Some? ==> (!Truthy(GetOr(info.entries, "llm_text", Null)) ==> r.value.text == Str(NoExtraction))
    ensures r.Some? ==> Len(r.value.text).Ok? && r.value.width == BoxWidth(Len(r.value.text).value)
    ensures info.Dict? ==> (r.Some? <==>
      && FloatAccepts(GetOr(info.entries, "score", Int(0)), parses)
      && (Truthy(GetOr(info.entries, "llm_text", Null)) ==> Len(GetOr(info.entries, "llm_text", Null)).Ok?))
  {
    if !info.Dict? then None
    else
      var t := GetOr(info.entries, "llm_text", Null);
      var text := if Truthy(t) then t else Str(NoExtraction);
      if !FloatAccepts(GetOr(info.entries, "score", Int(0)), parses) then None
      else
        match Len(text)
        case Err(_) => None
        case Ok(n) => Some(Box(text, BoxWidth(n)))
  }

  /** A dict record with string text and a numeric score always yields a box. */
  lemma RecordGivesBox(info: Value, parses: string -> bool)
    requires info.Dict?
    requires GetOr(info.entries, "llm_text", Null).Str? || GetOr(info.entries, "llm_text", Null).Null?
    requires IsNumber(GetOr(info.entries, "score", Int(0)))
    ensures BoxOf(info, parses).Some?
  {
  }

  /** The entry loop over the result's values, in order. */
  function Boxes(es: seq<(string, Value)>, parses: string -> bool): (r: seq<Box>)
    ensures |r| <= |es|
    ensures forall b :: b in r ==> MinWidth <= b.width <= MaxWidth
  {
    if |es| == 0 then []
    else
      var rest := Boxes(es[1..], parses);
      match BoxOf(es[0].1, parses)
      case Some(b) => [b] + rest
      case None => rest
  }

  /** Entries whose value is not a dict never produce a box. */
  lemma {:induction false} NonDictsGiveNoBoxes(es: seq<(string, Value)>, parses: string -> bool)
    requires forall i :: 0 <= i < |es| ==> !es[i].1.Dict?
    ensures Boxes(es, parses) == []
  {
    if |es| > 0 {
      NonDictsGiveNoBoxes(es[1..], parses);
    }
  }

  // ---------------------------------------------------------------
  // render_compact_boxes: greedy row packing
  // ---------------------------------------------------------------

  function Widths(row: seq<Box>): int {
    if |row| == 0 then 0 else Widths(row[..|row| - 1]) + row[|row| - 1].width
  }

  /** A row fits the container when its widths plus a 6px gap between
      neighbours do not exceed it. */
  predicate Fits(row: seq<Box>, container: int) {
    Widths(row) + Gap * (|row| - 1) <= container
  }

  function Flatten(rows: seq<seq<Box>>): seq<Box> {
    if |rows| == 0 then [] else Flatten(rows[..|rows| - 1]) + rows[|rows| - 1]
  }

  lemma FlattenAppend(rows: seq<seq<Box>>, row: seq<Box>)
    ensures Flatten(rows + [row]) == Flatten(rows) + row
  {
    assert (rows + [row])[..|rows|] == rows;
  }

  /** Adding a box to a row: the running width `sum + 6 * n` plus the new
      box decides whether the longer row still fits. */
  lemma FitsStep(row: seq<Box>, b: Box, container: int)
    ensures Widths(row + [b]) == Widths(row) + b.width
    ensures Fits(row + [b], container) <==> Widths(row) + Gap * |row| + b.width <= container
  {
    assert (row + [b])[..|row|] == row;
  }

  /** Every row is non-empty and fits, stated row by row from the front. */
  predicate AllFit(rows: seq<seq<Box>>, container: int) {
    |rows| == 0 || (AllFit(rows[..|rows| - 1], container) && |rows[|rows| - 1]| > 0 && Fits(rows[|rows| - 1], container))
  }

  lemma {:induction false} AllFitMeans(rows: seq<seq<Box>>, container: int)
    requires AllFit(rows, container)
    ensures forall r :: r in rows ==> |r| > 0 && Fits(r, container)
  {
    if |rows| > 0 {
      AllFitMeans(rows[..|rows| - 1], container);
      assert rows == rows[..|rows| - 1] + [rows[|rows| - 1]];
    }
  }

  /** Every closed row is full: every row after the first is non-empty, and
      its first box would not have fitted on the row before. */
  predicate Greedy(rows: seq<seq<Box>>, container: int) {
    forall j :: 0 < j < |rows| ==> |rows[j]| > 0 && !Fits(rows[j - 1] + [rows[j][0]], container)
  }

  lemma GreedyClose(rows: seq<seq<Box>>, row: seq<Box>, container: int)
    requires Greedy(rows, container)
    requires |rows| > 0 ==> |row| > 0 && !Fits(rows[|rows| - 1] + [row[0]], container)
    ensures Greedy(rows + [row], container)
  {
    var rows' := rows + [row];
    forall j | 0 < j < |rows'| ensures |rows'[j]| > 0 && !Fits(rows'[j - 1] + [rows'[j][0]], container) {
      if j < |rows| {
        assert rows'[j - 1] == rows[j - 1] && rows'[j] == rows[j];
      }
    }
  }

  /** What holds after the first `i` boxes: the closed rows and the open row
      hold those boxes in order, `current` is the open row's width plus one gap
      per box, the rows are full, and with a wide enough container they fit. */
  predicate Packing(boxes: seq<Box>, i: int, rows: seq<seq<Box>>, row: seq<Box>, current: int, container: int) {
    && 0 <= i <= |boxes|
    && Flatten(rows) + row == boxes[..i]
    && current == Widths(row) + Gap * |row|
    && Greedy(rows, container)
    && (|rows| > 0 ==> |row| > 0 && !Fits(rows[|rows| - 1] + [row[0]], container))
    && (container >= MaxWidth ==> AllFit(rows, container) && Fits(row, container))
  }

  /** Closing the open row before a box that overflows keeps the packing. */
  lemma PackingClose(boxes: seq<Box>, i: int, rows: seq<seq<Box>>, row: seq<Box>, current: int, container: int)
    requires Packing(boxes, i, rows, row, current, container)
    requires i < |boxes| && MinWidth <= boxes[i].width <= MaxWidth
    requires current + boxes[i].width > container
    ensures Packing(boxes, i + 1, rows + [row], [boxes[i]], boxes[i].width + Gap, container)
  {
    var b := boxes[i];
    var rows' := rows + [row];
    FitsStep(row, b, container);
    assert Widths([b]) == b.width by {
      assert [b][..0] == [];
    }
    assert Flatten(rows') + [b] == boxes[..i + 1] by {
      FlattenAppend(rows, row);
      assert boxes[..i + 1] == boxes[..i] + [b];
    }
    GreedyClose(rows, row, container);
    assert !Fits(rows'[|rows'| - 1] + [[b][0]], container);
    if container >= MaxWidth {
      assert |row| > 0;
      assert rows'[..|rows|] == rows;
      assert AllFit(rows', container);
    }
  }

  /** Adding a box that fits to the open row keeps the packing. */
  lemma PackingAdd(boxes: seq<Box>, i: int, rows: seq<seq<Box>>, row: seq<Box>, current: int, container: int)
    requires Packing(boxes, i, rows, row, current, container)
    requires i < |boxes|
    requires current + boxes[i].width <= container
    ensures Packing(boxes, i + 1, rows, row + [boxes[i]], current + boxes[i].width + Gap, container)
  {
    var b := boxes[i];
    FitsStep(row, b, container);
    if |row| > 0 {
      assert (row + [b])[0] == row[0];
    }
    assert boxes[..i + 1] == boxes[..i] + [b];
  }

  /** Emitting the last open row, if any, finishes the layout. */
  lemma PackingDone(boxes: seq<Box>, rows: seq<seq<Box>>, row: seq<Box>, current: int, container: int, out: seq<seq<Box>>)
    requires Packing(boxes, |boxes|, rows, row, current, container)
    requires out == if |row| > 0 then rows + [row] else rows
    ensures Flatten(out) == boxes
    ensures Greedy(out, container)
    ensures container >= MaxWidth ==> forall r :: r in out ==> |r| > 0 && Fits(r, container)
  {
    assert boxes[..|boxes|] == boxes;
    FlattenAppend(rows, row);
    if |row| > 0 {
      GreedyClose(rows, row, container);
    }
    if container >= MaxWidth {
      if |row| > 0 {
        assert (rows + [row])[..|rows|] == rows;
      }
      AllFitMeans(out, container);
    }
  }

  /** Only the first row can come out empty (`Greedy` keeps the others
      non-empty), and it does exactly when the first box alone is wider than
      the container: that box closes the still-empty open row. */
  predicate FirstRow(boxes: seq<Box>, i: int, rows: seq<seq<Box>>, row: seq<Box>, container: int) {
    if i <= 0 then rows == [] && row == []
    else
      && 0 < |boxes| && |row| > 0
      && (if |rows| == 0 then boxes[0].width <= container else (rows[0] == [] <==> boxes[0].width > container))
  }

  lemma FirstRowClose(boxes: seq<Box>, i: int, rows: seq<seq<Box>>, row: seq<Box>, current: int, container: int)
    requires FirstRow(boxes, i, rows, row, container) && 0 <= i < |boxes|
    requires current == Widths(row) + Gap * |row|
    requires current + boxes[i].width > container
    ensures FirstRow(boxes, i + 1, rows + [row], [boxes[i]], container)
  {
    assert (rows + [row])[0] == if |rows| > 0 then rows[0] else row;
  }

  lemma FirstRowAdd(boxes: seq<Box>, i: int, rows: seq<seq<Box>>, row: seq<Box>, current: int, container: int)
    requires FirstRow(boxes, i, rows, row, container) && 0 <= i < |boxes|
    requires current == Widths(row) + Gap * |row|
    requires current + boxes[i].width <= container
    ensures FirstRow(boxes, i + 1, rows, row + [boxes[i]], container)
  {
  }

  lemma FirstRowDone(boxes: seq<Box>, rows: seq<seq<Box>>, row: seq<Box>, container: int, out: seq<seq<Box>>)
    requires FirstRow(boxes, |boxes|, rows, row, container) && Greedy(out, container)
    requires out == if |row| > 0 then rows + [row] else rows
    ensures (exists k :: 0 <= k < |out| && out[k] == []) <==> |boxes| > 0 && boxes[0].width > container
    ensures |boxes| > 0 && boxes[0].width > container ==> out[0] == []
  {
    if |boxes| > 0 {
      assert out[0] == if |rows| > 0 then rows[0] else row;
    }
  }

  /** The layout loop of `render_compact_boxes`: a box that would overflow the
      running width closes the current row first, and the last row is emitted
      if it is non-empty. Concatenating the rows gives back the boxes in
      order; with a container of at least 400px every row is non-empty and
      fits, and each closed row is full in the sense that the next box would
      not have fitted on it. A row is empty exactly when the first box is
      wider than the container; that row is then the first one. */
  method PackRows(boxes: seq<Box>, container: int) returns (rows: seq<seq<Box>>)
    requires forall b :: b in boxes ==> MinWidth <= b.width <= MaxWidth
    ensures Flatten(rows) == boxes
    ensures container >= MaxWidth ==> forall r :: r in rows ==> |r| > 0 && Fits(r, container)
    ensures Greedy(rows, container)
    ensures (exists k :: 0 <= k < |rows| && rows[k] == []) <==> |boxes| > 0 && boxes[0].width > container
    ensures |boxes| > 0 && boxes[0].width > container ==> rows[0] == []
  {
    rows := [];
    var row: seq<Box> := [];
    var current := 0;
    var i := 0;
    while i < |boxes|
      invariant i <= |boxes|
      invariant Layout(boxes, i, rows, row, current, container)
    {
      var b := boxes[i];
      assert b in boxes;
      if current + b.width > container {
        LayoutClose(boxes, i, rows, row, current, container);
        rows := rows + [row];
        row := [b];
        current := b.width + Gap;
      } else {
        LayoutAdd(boxes, i, rows, row, current, container);
        row := row + [b];
        current := current + b.width + Gap;
      }
      i := i + 1;
    }
    assert i == |boxes|;
    var out := if |row| > 0 then rows + [row] else rows;
    LayoutDone(boxes, rows, row, current, container, out);
    rows := out;
  }

  /** The loop invariant of `PackRows`. */
  predicate Layout(boxes: seq<Box>, i: int, rows: seq<seq<Box>>, row: seq<Box>, current: int, container: int) {
    Packing(boxes, i, rows, row, current, container) && FirstRow(boxes, i, rows, row, container)
  }

  lemma LayoutClose(boxes: seq<Box>, i: int, rows: seq<seq<Box>>, row: seq<Box>, current: int, container: int)
    requires Layout(boxes, i, rows, row, current, container)
    requires i < |boxes| && MinWidth <= boxes[i].width <= MaxWidth
    requires current + boxes[i].width > container
    ensures Layout(boxes, i + 1, rows + [row], [boxes[i]], boxes[i].width + Gap, container)
  {
    PackingClose(boxes, i, rows, row, current, container);
    FirstRowClose(boxes, i, rows, row, current, container);
  }

  lemma LayoutAdd(boxes: seq<Box>, i: int, rows: seq<seq<Box>>, row: seq<Box>, current: int, container: int)
    requires Layout(boxes, i, rows, row, current, container)
    requires i < |boxes|
    requires current + boxes[i].width <= container
    ensures Layout(boxes, i + 1, rows, row + [boxes[i]], current + boxes[i].width + Gap, container)
  {
    PackingAdd(boxes, i, rows, row, current, container);
    FirstRowAdd(boxes, i, rows, row, current, container);
  }

  lemma LayoutDone(boxes: seq<Box>, rows: seq<seq<Box>>, row: seq<Box>, current: int, container: int, out: seq<seq<Box>>)
    requires Layout(boxes, |boxes|, rows, row, current, container)
    requires out == if |row| > 0 then rows + [row] else rows
    ensures Flatten(out) == boxes
    ensures container >= MaxWidth ==> forall r :: r in out ==> |r| > 0 && Fits(r, container)
    ensures Greedy(out, container)
    ensures (exists k :: 0 <= k < |out| && out[k] == []) <==> |boxes| > 0 && boxes[0].width > container
    ensures |boxes| > 0 && boxes[0].width > container ==> out[0] == []
  {
    PackingDone(boxes, rows, row, current, container, out);
    FirstRowDone(boxes, rows, row, container, out);
  }

  /** How `render_compact_boxes` ends: a non-dict result is rejected with
      `st.error`; an empty first row makes `st.columns(0)` raise, and the
      exception leaves the function; otherwise the rows are laid out. */
  datatype Rendering =
    | Rejected
    | ColumnsRaised
    | Rendered(rows: seq<seq<Box>>)

  /** `render_compact_boxes(result_dict, container_width)`. */
  method RenderCompactBoxes(result: Value, parses: string -> bool, container: int) returns (r: Rendering)
    ensures r.Rejected? <==> !result.Dict?
    ensures r.ColumnsRaised? <==>
      result.Dict? && |Boxes(result.entries, parses)| > 0 && Boxes(result.entries, parses)[0].width > container
    ensures r.Rendered? ==> Flatten(r.rows) == Boxes(result.entries, parses)
    ensures r.Rendered? ==> forall row :: row in r.rows ==> |row| > 0
    ensures r.Rendered? ==> Greedy(r.rows, container)
    ensures r.Rendered? && container >= MaxWidth ==> forall row :: row in r.rows ==> Fits(row, container)
  {
    if !result.Dict? {
      return Rejected;
    }
    var packed := PackRows(Boxes(result.entries, parses), container);
    if exists k :: 0 <= k < |packed| && packed[k] == [] {
      return ColumnsRaised;
    }
    r := Rendered(packed);
  }
}

=== FILE: llm.dfy ===
/** The two pure pieces of the model client: picking the provider from the
    model name, and stripping Markdown code fences from a reply before it is
    parsed as JSON. */
module LlmService {
  import opened Wrappers
  import opened Values
  import opened Text

  // ---------------------------------------------------------------
  // _detect_provider
  // ---------------------------------------------------------------

  /** `PROVIDER_MAP`, in its declaration order. */
  const ProviderMap: seq<(string, string)> :=
    [("gpt", "openai"), ("o1", "openai"), ("o3", "openai"), ("gemini", "gemini")]

  /** `MODEL_OPTIONS`, the names offered in the model picker. */
  const ModelOptions: seq<string> :=
    ["gemini-2.0-flash", "gpt-3.5-turbo", "gpt-4o-mini", "gpt-4o", "groq-0"]

  /** `model.split("-")[0].lower()` */
  function ModelPrefix(model: string): (p: string)
    ensures '-' !in p && |p| <= |model|
  {
    Lower(BeforeFirst(model, '-'))
  }

  /** The provider of the first map entry whose key starts the prefix. */
  function FirstProvider(prefix: string, entries: seq<(string, string)>): (r: Option<string>)
    ensures r.Some? <==> exists i :: 0 <= i < |entries| && StartsWith(prefix, entries[i].0)
    ensures r.Some? ==> exists i ::
      && 0 <= i < |entries| && StartsWith(prefix, entries[i].0) && r.value == entries[i].1
      && forall j :: 0 <= j < i ==> !StartsWith(prefix, entries[j].0)
  {
    if |entries| == 0 then None
    else if StartsWith(prefix, entries[0].0) then Some(entries[0].1)
    else
      var r := FirstProvider(prefix, entries[1..]);
      assert forall i :: 1 <= i < |entries| ==> entries[i] == entries[1..][i - 1];
      r
  }

  /** `_detect_provider(model)`: OpenAI for a prefix starting with `gpt`,
      `o1` or `o3`, Gemini for one starting with `gemini`, and ValueError
      naming the model otherwise. */
  function DetectProvider(model: string): (r: Result<string, PyError>)
    ensures r.Ok? ==> r.value == "openai" || r.value == "gemini"
    ensures r.Err? ==> r.error == ValueError("Unknown model provider for: " + model)
    ensures r == Ok("openai") <==>
      StartsWith(ModelPrefix(model), "gpt") || StartsWith(ModelPrefix(model), "o1") || StartsWith(ModelPrefix(model), "o3")
    ensures r == Ok("gemini") <==> StartsWith(ModelPrefix(model), "gemini")
  {
    var p := ModelPrefix(model);
    assert ProviderMap[0] == ("gpt", "openai") && ProviderMap[1] == ("o1", "openai");
    assert ProviderMap[2] == ("o3", "openai") && ProviderMap[3] == ("gemini", "gemini");
    GeminiExcludesOthers(p);
    match FirstProvider(p, ProviderMap)
    case Some(provider) => Ok(provider)
    case None => Err(ValueError("Unknown model provider for: " + model))
  }

  /** The keys do not overlap: a prefix starting with `gemini` starts with
      no other key. */
  lemma GeminiExcludesOthers(p: string)
    ensures StartsWith(p, "gemini") ==> !StartsWith(p, "gpt") && !StartsWith(p, "o1") && !StartsWith(p, "o3")
  {
    if StartsWith(p, "gemini") {
      assert p[..6][0] == 'g' && p[..6][1] == 'e';
      assert p[..3][1] == p[1];
      assert p[..2][0] == p[0];
    }
  }

  /** Splitting at the first dash commutes with ASCII lower-casing, since
      the dash itself is not a letter. */
  lemma {:induction false} BeforeFirstLower(s: string)
    ensures BeforeFirst(Lower(s), '-') == Lower(BeforeFirst(s, '-'))
  {
    if |s| > 0 && s[0] != '-' {
      assert Lower(s)[1..] == Lower(s[1..]);
      BeforeFirstLower(s[1..]);
      assert Lower([s[0]] + BeforeFirst(s[1..], '-')) == [LowerChar(s[0])] + Lower(BeforeFirst(s[1..], '-'));
    }
  }

  /** Detection ignores letter case: a name and its lower-case form pick the
      same provider, or are both refused. */
  lemma DetectIgnoresCase(model: string)
    ensures DetectProvider(Lower(model)).Ok? <==> DetectProvider(model).Ok?
    ensures DetectProvider(model).Ok? ==> DetectProvider(Lower(model)) == DetectProvider(model)
  {
    BeforeFirstLower(model);
    var b := BeforeFirst(model, '-');
    assert Lower(Lower(b)) == Lower(b);
    assert ModelPrefix(Lower(model)) == ModelPrefix(model);
  }

  /** The prefix of a name written as `family-rest`, with no dash and no
      upper-case letter in `family`, is `family` itself. */
  lemma {:induction false} PrefixOfFamily(family: string, rest: string)
    requires '-' !in family
    requires forall i :: 0 <= i < |family| ==> !('A' <= family[i] <= 'Z')
    ensures ModelPrefix(family + "-" + rest) == family
  {
    BeforeDash(family, rest);
    assert Lower(family) == family;
  }

  lemma {:induction false} BeforeDash(family: string, rest: string)
    requires '-' !in family
    ensures BeforeFirst(family + "-" + rest, '-') == family
  {
    var s := family + "-" + rest;
    if |family| == 0 {
      assert s[0] == '-';
    } else {
      assert s[0] == family[0] && s[1..] == family[1..] + "-" + rest;
      BeforeDash(family[1..], rest);
      assert family == [family[0]] + family[1..];
    }
  }

  /** Any name of the `gpt` family goes to OpenAI. */
  lemma GptFamily(rest: string)
    ensures DetectProvider("gpt-" + rest) == Ok("openai")
  {
    assert "gpt-" + rest == "gpt" + "-" + rest;
    PrefixOfFamily("gpt", rest);
  }

  /** Any name of the `gemini` family goes to Gemini. */
  lemma GeminiFamily(rest: string)
    ensures DetectProvider("gemini-" + rest) == Ok("gemini")
  {
    assert "gemini-" + rest == "gemini" + "-" + rest;
    PrefixOfFamily("gemini", rest);
  }

  /** `groq-0` is offered by the model picker but has no provider. */
  lemma GroqRefused()
    ensures "groq-0" in ModelOptions
    ensures DetectProvider("groq-0") == Err(ValueError("Unknown model provider for: " + "groq-0"))
  {
    assert ModelOptions[4] == "groq-0";
    GroqPrefix();
    assert !StartsWith("groq", "gpt") && !StartsWith("groq", "gemini");
    assert !StartsWith("groq", "o1") && !StartsWith("groq", "o3");
  }

  lemma GroqPrefix()
    ensures ModelPrefix("groq-0") == "groq"
  {
    assert "groq-0" == "groq" + "-" + "0";
    PrefixOfFamily("groq", "0");
  }

  /** Upper-case names are detected as well. */
  lemma UpperCaseDetected()
    ensures DetectProvider("GPT-4o") == Ok("openai")
  {
    assert "GPT-4o" == "GPT" + "-" + "4o";
    BeforeDash("GPT", "4o");
    var p := Lower("GPT");
    assert p[0] == 'g' && p[1] == 'p' && p[2] == 't';
    assert StartsWith(p, "gpt");
  }

  // ---------------------------------------------------------------
  // _safe_json_load: fence stripping
  // ---------------------------------------------------------------

  const Fence := "```"
  const JsonFence := "```json"

  /** A string not starting with two backticks keeps that property when the
      fences are removed from it. */
  lemma {:induction false} NoLeadingPair(s: string)
    requires !StartsWith(s, "``")
    ensures !StartsWith(Replace(s, Fence, ""), "``")
  {
    if |s| > 0 {
      assert !StartsWith(s, Fence);
      var rest := Replace(s[1..], Fence, "");
      assert Replace(s, Fence, "") == [s[0]] + rest;
      if s[0] == '`' && |s| > 1 {
        assert s[1] != '`';
        assert !StartsWith(s[1..], Fence);
        assert Replace(s[1..], Fence, "") == [s[1]] + Replace(s[2..], Fence, "");
      }
    }
  }

  /** No three consecutive backticks. */
  predicate NoTriple(r: string) {
    forall i :: 0 <= i < |r| - 2 ==> !(r[i] == '`' && r[i + 1] == '`' && r[i + 2] == '`')
  }

  lemma NoTripleNoFence(r: string)
    requires NoTriple(r)
    ensures !Contains(r, Fence)
  {
    forall i | 0 <= i <= |r| - |Fence| ensures !OccursAt(r, Fence, i) {
      assert !(r[i] == '`' && r[i + 1] == '`' && r[i + 2] == '`');
    }
  }

  /** Removing every fence leaves no three backticks in a row: a run of
      backticks shrinks by threes to fewer than three, and runs are never
      joined. */
  lemma {:induction false} NoTripleLeft(s: string)
    ensures NoTriple(Replace(s, Fence, ""))
    decreases |s|
  {
    if |s| > 0 {
      if StartsWith(s, Fence) {
        NoTripleLeft(s[|Fence|..]);
        assert Replace(s, Fence, "") == Replace(s[|Fence|..], Fence, "");
      } else {
        var rest := Replace(s[1..], Fence, "");
        var r := [s[0]] + rest;
        NoTripleLeft(s[1..]);
        assert Replace(s, Fence, "") == r;
        forall i | 0 <= i < |r| - 2 ensures !(r[i] == '`' && r[i + 1] == '`' && r[i + 2] == '`') {
          if i > 0 {
            assert r[i] == rest[i - 1] && r[i + 1] == rest[i] && r[i + 2] == rest[i + 1];
          } else if s[0] == '`' {
            assert !StartsWith(s[1..], "``") by {
              if |s| >= 3 {
                assert s[..3] != Fence;
                assert s[..3] == [s[0]] + s[1..][..2];
              }
            }
            NoLeadingPair(s[1..]);
            assert rest[..2] != "``";
          }
        }
      }
    }
  }

  lemma NoFenceLeft(s: string)
    ensures !Contains(Replace(s, Fence, ""), Fence)
  {
    NoTripleLeft(s);
    NoTripleNoFence(Replace(s, Fence, ""));
  }

  /** `text.replace("```json", "").replace("```", "").strip()`: the text left
      for `json.loads`, with no fence and no surrounding whitespace. */
  function StripFences(text: string): (r: string)
    ensures !Contains(r, Fence)
    ensures |r| > 0 ==> !IsSpace(r[0]) && !IsSpace(r[|r| - 1])
  {
    var unfenced := Replace(Replace(text, JsonFence, ""), Fence, "");
    NoFenceLeft(Replace(text, JsonFence, ""));
    StripKeepsAbsent(unfenced, Fence);
    Strip(unfenced)
  }

  /** Stripping an already stripped reply changes nothing. */
  lemma StripFencesIdempotent(text: string)
    ensures StripFences(StripFences(text)) == StripFences(text)
  {
    var r := StripFences(text);
    NoJsonFenceWithoutFence(r);
    ReplaceAbsent(r, JsonFence, "");
    ReplaceAbsent(r, Fence, "");
    StripStripped(r);
  }

  /** `"```json"` starts with `"```"`, so a text without the one has neither. */
  lemma NoJsonFenceWithoutFence(r: string)
    requires !Contains(r, Fence)
    ensures !Contains(r, JsonFence)
  {
    if Contains(r, JsonFence) {
      var i :| 0 <= i <= |r| - |JsonFence| && OccursAt(r, JsonFence, i);
      assert r[i..i + 3] == r[i..i + 7][..3];
      assert OccursAt(r, Fence, i);
    }
  }

  /** Text before the first backtick passes through the removal untouched. */
  lemma {:induction false} ReplacePastPlain(x: string, y: string, p: string)
    requires |p| > 0 && p[0] == '`' && '`' !in x
    ensures Replace(x + y, p, "") == x + Replace(y, p, "")
    decreases |x|
  {
    if |x| == 0 {
      assert x + y == y;
    } else {
      assert (x + y)[0] == x[0];
      assert !StartsWith(x + y, p);
      assert (x + y)[1..] == x[1..] + y;
      ReplacePastPlain(x[1..], y, p);
      assert x == [x[0]] + x[1..];
    }
  }

  /** A reply fenced as a JSON code block gives back its body, stripped,
      as long as the body holds no backtick. */
  lemma FencedReply(body: string)
    requires '`' !in body
    ensures StripFences(JsonFence + body + Fence) == Strip(body)
  {
    var s := JsonFence + body + Fence;
    assert StartsWith(s, JsonFence) && s[|JsonFence|..] == body + Fence;
    assert !Contains(Fence, JsonFence);
    ReplaceAbsent(Fence, JsonFence, "");
    ReplacePastPlain(body, Fence, JsonFence);
    assert Replace(s, JsonFence, "") == body + Fence;
    assert StartsWith(Fence, Fence) && Fence[|Fence|..] == "";
    assert Replace(Fence, Fence, "") == "";
    ReplacePastPlain(body, Fence, Fence);
    assert body + "" == body;
  }

  /** A reply without any backtick is only stripped. */
  lemma PlainReply(text: string)
    requires '`' !in text
    ensures StripFences(text) == Strip(text)
  {
    assert text + "" == text;
    assert Replace("", JsonFence, "") == "" && Replace("", Fence, "") == "";
    ReplacePastPlain(text, "", JsonFence);
    ReplacePastPlain(text, "", Fence);
  }
}

=== FILE: matcher.dfy ===
/** difflib's `SequenceMatcher(None, a, b).ratio()` over token sequences:
    the Ratcliff/Obershelp measure `2*M/T`, where `M` counts the tokens in
    the matching blocks found by repeatedly taking the longest matching
    block and recursing on what lies to its left and to its right, and `T`
    is `|a| + |b|`.

    With no junk function the only junk-like behaviour left is difflib's
    "autojunk" heuristic: when `b` has at least 200 tokens, tokens that occur
    in `b` more than `|b| / 100 + 1` times are "popular" and cannot seed a
    match, though they can extend one. */
module SequenceMatcher {

  type Tokens = seq<string>

  /** A block `a[i..i+size] == b[j..j+size]` (difflib's `Match` triple). */
  datatype Match = Match(i: nat, j: nat, size: nat)

  /** The ranges `a[alo..ahi]` and `b[blo..bhi]` being searched. */
  datatype Window = Window(alo: nat, ahi: nat, blo: nat, bhi: nat)

  const AutojunkMin: nat := 200

  /** Purged from `b2j` by the autojunk heuristic. */
  predicate IsPopular(b: Tokens, x: string) {
    |b| >= AutojunkMin && multiset(b)[x] > |b| / 100 + 1
  }

  predicate NoPopular(b: Tokens) {
    forall k :: 0 <= k < |b| ==> !IsPopular(b, b[k])
  }

  predicate ValidWindow(a: Tokens, b: Tokens, w: Window) {
    w.alo <= w.ahi <= |a| && w.blo <= w.bhi <= |b|
  }

  /** `a[i..i+k] == b[j..j+k]` with both ranges inside the window. */
  predicate IsBlock(a: Tokens, b: Tokens, w: Window, i: int, j: int, k: int) {
    && ValidWindow(a, b, w)
    && w.alo <= i && 0 <= k && i + k <= w.ahi && w.blo <= j && j + k <= w.bhi
    && a[i..i + k] == b[j..j + k]
  }

  predicate AllUnpopular(b: Tokens, s: Tokens) {
    forall t :: 0 <= t < |s| ==> !IsPopular(b, s[t])
  }

  /** A block made only of tokens that are not popular: what the `b2j`
      dynamic programme of `find_longest_match` can see. */
  predicate IsCoreBlock(a: Tokens, b: Tokens, w: Window, i: int, j: int, k: int) {
    && IsBlock(a, b, w, i, j, k)
    && AllUnpopular(b, b[j..j + k])
  }

  /** `(i', j')` is visited before `(i, j)` in row-major order. */
  predicate Before(i': int, j': int, i: int, j: int) {
    i' < i || (i' == i && j' < j)
  }

  /** What `find_longest_match` computes before its extension loops: a
      longest core block, the earliest in `a` and then in `b` among the
      longest ones, and `(alo, blo, 0)` when there is none. */
  ghost predicate IsLongestCore(a: Tokens, b: Tokens, w: Window, m: Match) {
    && IsCoreBlock(a, b, w, m.i, m.j, m.size)
    && (m.size == 0 ==> m.i == w.alo && m.j == w.blo)
    && (forall i, j, k :: IsCoreBlock(a, b, w, i, j, k) ==> k <= m.size)
    && (forall i, j, k :: IsCoreBlock(a, b, w, i, j, k) && Before(i, j, m.i, m.j) ==> k < m.size)
  }

  /** The longest core block starting exactly at `(i, j)`. */
  function CoreRun(a: Tokens, b: Tokens, w: Window, i: nat, j: nat): (k: nat)
    requires ValidWindow(a, b, w)
    requires w.alo <= i <= w.ahi && w.blo <= j <= w.bhi
    ensures IsCoreBlock(a, b, w, i, j, k)
    decreases w.ahi - i
  {
    if i < w.ahi && j < w.bhi && a[i] == b[j] && !IsPopular(b, b[j]) then
      var k := CoreRun(a, b, w, i + 1, j + 1);
      CoreBlockCons(a, b, w, i, j, k);
      1 + k
    else 0
  }

  /** A core block preceded by an equal unpopular token pair grows by one. */
  lemma CoreBlockCons(a: Tokens, b: Tokens, w: Window, i: nat, j: nat, k: nat)
    requires ValidWindow(a, b, w) && w.alo <= i < w.ahi && w.blo <= j < w.bhi
    requires a[i] == b[j] && !IsPopular(b, b[j])
    requires IsCoreBlock(a, b, w, i + 1, j + 1, k)
    ensures IsCoreBlock(a, b, w, i, j, k + 1)
  {
    assert a[i..i + k + 1] == [a[i]] + a[i + 1..i + 1 + k];
    assert b[j..j + k + 1] == [b[j]] + b[j + 1..j + 1 + k];
    var s := b[j..j + k + 1];
    forall t | 0 <= t < |s| ensures !IsPopular(b, s[t]) {
      if t > 0 {
        assert s[t] == b[j + 1..j + 1 + k][t - 1];
      }
    }
  }

  lemma {:induction false} CoreRunIsLongest(a: Tokens, b: Tokens, w: Window, i: nat, j: nat, k: int)
    requires IsCoreBlock(a, b, w, i, j, k)
    ensures k <= CoreRun(a, b, w, i, j)
    decreases k
  {
    if k > 0 {
      assert a[i..i + k][0] == a[i] && b[j..j + k][0] == b[j];
      assert a[i + 1..i + k] == a[i..i + k][1..] && b[j + 1..j + k] == b[j..j + k][1..];
      CoreRunIsLongest(a, b, w, i + 1, j + 1, k - 1);
    }
  }

  /** The scan invariant: `best` is a core block, the longest among those
      starting before the cursor `(i, j)`, and the earliest of that length. */
  ghost predicate ScanInvariant(a: Tokens, b: Tokens, w: Window, i: nat, j: nat, best: Match) {
    && ValidWindow(a, b, w)
    && w.alo <= i <= w.ahi && w.blo <= j <= w.bhi
    && IsCoreBlock(a, b, w, best.i, best.j, best.size)
    && (best.size == 0 ==> best.i == w.alo && best.j == w.blo)
    && (best.size > 0 ==> Before(best.i, best.j, i, j))
    && (forall i', j', k' :: IsCoreBlock(a, b, w, i', j', k') && Before(i', j', i, j) ==> k' <= best.size)
    && (forall i', j', k' :: IsCoreBlock(a, b, w, i', j', k') && Before(i', j', best.i, best.j) ==> k' < best.size)
  }

  /** Visits every start `(i, j)` of the window in row-major order and keeps
      the first strictly longer core block, as `find_longest_match` does. */
  function Scan(a: Tokens, b: Tokens, w: Window, i: nat, j: nat, best: Match): (m: Match)
    requires ScanInvariant(a, b, w, i, j, best)
    ensures IsLongestCore(a, b, w, m)
    decreases w.ahi - i, w.bhi - j
  {
    if i == w.ahi then
      ScanDone(a, b, w, j, best);
      best
    else if j == w.bhi then
      ScanNextRow(a, b, w, i, best);
      Scan(a, b, w, i + 1, w.blo, best)
    else
      var k := CoreRun(a, b, w, i, j);
      var best' := if k > best.size then Match(i, j, k) else best;
      ScanStep(a, b, w, i, j, best);
      Scan(a, b, w, i, j + 1, best')
  }

  lemma ScanDone(a: Tokens, b: Tokens, w: Window, j: nat, best: Match)
    requires ScanInvariant(a, b, w, w.ahi, j, best)
    ensures IsLongestCore(a, b, w, best)
  {
    forall i', j', k' | IsCoreBlock(a, b, w, i', j', k') ensures k' <= best.size {
      if !Before(i', j', w.ahi, j) {
        assert i' == w.ahi && k' == 0;
      }
    }
  }

  lemma ScanNextRow(a: Tokens, b: Tokens, w: Window, i: nat, best: Match)
    requires i < w.ahi
    requires ScanInvariant(a, b, w, i, w.bhi, best)
    ensures ScanInvariant(a, b, w, i + 1, w.blo, best)
  {
    forall i', j', k' | IsCoreBlock(a, b, w, i', j', k') && Before(i', j', i + 1, w.blo)
      ensures k' <= best.size
    {
      if !Before(i', j', i, w.bhi) {
        assert i' == i && j' == w.bhi && k' == 0;
      }
    }
  }

  lemma ScanStep(a: Tokens, b: Tokens, w: Window, i: nat, j: nat, best: Match)
    requires i < w.ahi && j < w.bhi
    requires ScanInvariant(a, b, w, i, j, best)
    ensures var k := CoreRun(a, b, w, i, j);
            ScanInvariant(a, b, w, i, j + 1, if k > best.size then Match(i, j, k) else best)
  {
    var k := CoreRun(a, b, w, i, j);
    var best' := if k > best.size then Match(i, j, k) else best;
    forall i', j', k' | IsCoreBlock(a, b, w, i', j', k') && Before(i', j', i, j + 1)
      ensures k' <= best'.size
    {
      if i' == i && j' == j {
        CoreRunIsLongest(a, b, w, i, j, k');
      }
    }
  }

  // ---------------------------------------------------------------
  // find_longest_match
  // ---------------------------------------------------------------

  /** The first extension loop: grow the block to the left while the tokens
      before it are equal (no token is junk, so the junk test never stops it). */
  function ExtendLeft(a: Tokens, b: Tokens, w: Window, m: Match): (r: Match)
    requires IsBlock(a, b, w, m.i, m.j, m.size)
    ensures IsBlock(a, b, w, r.i, r.j, r.size)
    ensures r.i + r.size == m.i + m.size && r.j + r.size == m.j + m.size && r.i <= m.i
    decreases m.i
  {
    if m.i > w.alo && m.j > w.blo && a[m.i - 1] == b[m.j - 1] then
      GrowLeft(a, b, w, m);
      ExtendLeft(a, b, w, Match(m.i - 1, m.j - 1, m.size + 1))
    else m
  }

  /** A block preceded by an equal token pair inside the window grows by one
      to the left. */
  lemma GrowLeft(a: Tokens, b: Tokens, w: Window, m: Match)
    requires IsBlock(a, b, w, m.i, m.j, m.size)
    ensures m.i > w.alo && m.j > w.blo && a[m.i - 1] == b[m.j - 1] ==>
      IsBlock(a, b, w, m.i - 1, m.j - 1, m.size + 1)
  {
    if m.i > w.alo && m.j > w.blo && a[m.i - 1] == b[m.j - 1] {
      assert a[m.i - 1..m.i + m.size] == [a[m.i - 1]] + a[m.i..m.i + m.size];
      assert b[m.j - 1..m.j + m.size] == [b[m.j - 1]] + b[m.j..m.j + m.size];
    }
  }

  /** A block followed by an equal token pair inside the window grows by one
      to the right. */
  lemma GrowRight(a: Tokens, b: Tokens, w: Window, m: Match)
    requires IsBlock(a, b, w, m.i, m.j, m.size)
    ensures m.i + m.size < w.ahi && m.j + m.size < w.bhi && a[m.i + m.size] == b[m.j + m.size] ==>
      IsBlock(a, b, w, m.i, m.j, m.size + 1)
  {
    if m.i + m.size < w.ahi && m.j + m.size < w.bhi && a[m.i + m.size] == b[m.j + m.size] {
      assert a[m.i..m.i + m.size + 1] == a[m.i..m.i + m.size] + [a[m.i + m.size]];
      assert b[m.j..m.j + m.size + 1] == b[m.j..m.j + m.size] + [b[m.j + m.size]];
    }
  }

  /** The second extension loop: grow the block to the right. */
  function ExtendRight(a: Tokens, b: Tokens, w: Window, m: Match): (r: Match)
    requires IsBlock(a, b, w, m.i, m.j, m.size)
    ensures IsBlock(a, b, w, r.i, r.j, r.size)
    ensures r.i == m.i && r.j == m.j && r.size >= m.size
    decreases w.ahi - m.i - m.size
  {
    if m.i + m.size < w.ahi && m.j + m.size < w.bhi && a[m.i + m.size] == b[m.j + m.size] then
      GrowRight(a, b, w, m);
      ExtendRight(a, b, w, Match(m.i, m.j, m.size + 1))
    else m
  }

  /** `find_longest_match(alo, ahi, blo, bhi)`. The two loops that extend by
      junk tokens never run, since the matcher is built without a junk test. */
  function LongestMatch(a: Tokens, b: Tokens, w: Window): (m: Match)
    requires ValidWindow(a, b, w)
    ensures IsBlock(a, b, w, m.i, m.j, m.size)
  {
    var core := Scan(a, b, w, w.alo, w.blo, Match(w.alo, w.blo, 0));
    ExtendRight(a, b, w, ExtendLeft(a, b, w, core))
  }

  /** The block `find_longest_match` reports when there is no junk and no
      popular token: a longest common block of the window, the earliest in
      `a` and then in `b`, and `(alo, blo, 0)` when the window shares no token. */
  ghost predicate IsLongest(a: Tokens, b: Tokens, w: Window, m: Match) {
    && IsBlock(a, b, w, m.i, m.j, m.size)
    && (m.size == 0 ==> m.i == w.alo && m.j == w.blo)
    && (forall i, j, k :: IsBlock(a, b, w, i, j, k) ==> k <= m.size)
    && (forall i, j, k :: IsBlock(a, b, w, i, j, k) && Before(i, j, m.i, m.j) ==> k < m.size)
  }

  lemma NoPopularCore(a: Tokens, b: Tokens, w: Window, i: int, j: int, k: int)
    requires NoPopular(b) && IsBlock(a, b, w, i, j, k)
    ensures IsCoreBlock(a, b, w, i, j, k)
  {
    var s := b[j..j + k];
    forall t | 0 <= t < |s| ensures !IsPopular(b, s[t]) {
      assert s[t] == b[j + t];
    }
  }

  lemma CoreIsLongest(a: Tokens, b: Tokens, w: Window, m: Match)
    requires NoPopular(b) && IsLongestCore(a, b, w, m)
    ensures IsLongest(a, b, w, m)
  {
    forall i, j, k | IsBlock(a, b, w, i, j, k) ensures IsCoreBlock(a, b, w, i, j, k) {
      NoPopularCore(a, b, w, i, j, k);
    }
  }

  lemma ExtendLeftIdle(a: Tokens, b: Tokens, w: Window, m: Match)
    requires IsLongest(a, b, w, m)
    ensures ExtendLeft(a, b, w, m) == m
  {
    GrowLeft(a, b, w, m);
  }

  lemma ExtendRightIdle(a: Tokens, b: Tokens, w: Window, m: Match)
    requires IsLongest(a, b, w, m)
    ensures ExtendRight(a, b, w, m) == m
  {
    GrowRight(a, b, w, m);
  }

  /** Without popular tokens the extension loops never fire, and
      `find_longest_match` returns the longest, earliest common block. */
  lemma LongestMatchNoPopular(a: Tokens, b: Tokens, w: Window)
    requires ValidWindow(a, b, w) && NoPopular(b)
    ensures IsLongest(a, b, w, LongestMatch(a, b, w))
  {
    var core := Scan(a, b, w, w.alo, w.blo, Match(w.alo, w.blo, 0));
    CoreIsLongest(a, b, w, core);
    ExtendLeftIdle(a, b, w, core);
    ExtendRightIdle(a, b, w, core);
  }

  // ---------------------------------------------------------------
  // get_matching_blocks / ratio
  // ---------------------------------------------------------------

  /** The number of tokens covered by the matching blocks of the window:
      the sum of the sizes `get_matching_blocks` reports (sorting the blocks
      and merging adjacent ones does not change the sum). */
  function Matched(a: Tokens, b: Tokens, w: Window): (n: nat)
    requires ValidWindow(a, b, w)
    ensures n <= w.ahi - w.alo && n <= w.bhi - w.blo
    decreases (w.ahi - w.alo) + (w.bhi - w.blo)
  {
    var m := LongestMatch(a, b, w);
    if m.size == 0 then 0
    else
      var left := if w.alo < m.i && w.blo < m.j then Matched(a, b, Window(w.alo, m.i, w.blo, m.j)) else 0;
      var right :=
        if m.i + m.size < w.ahi && m.j + m.size < w.bhi
        then Matched(a, b, Window(m.i + m.size, w.ahi, m.j + m.size, w.bhi))
        else 0;
      left + m.size + right
  }

  function Whole(a: Tokens, b: Tokens): Window {
    Window(0, |a|, 0, |b|)
  }

  /** `SequenceMatcher(None, a, b).ratio()`, exactly, as a real. */
  function Ratio(a: Tokens, b: Tokens): (r: real)
    ensures 0.0 <= r <= 1.0
    ensures |a| + |b| == 0 ==> r == 1.0
  {
    if |a| + |b| == 0 then 1.0
    else
      var m := Matched(a, b, Whole(a, b));
      FractionBounds(2 * m, |a| + |b|);
      (2 * m) as real / (|a| + |b|) as real
  }

  lemma FractionBounds(n: nat, d: nat)
    requires 0 < d && n <= d
    ensures 0.0 <= n as real / d as real <= 1.0
  {
  }

  /** One unfolding of `Matched`: nothing matches exactly when the longest
      block is empty, and the longest block always counts. */
  lemma MatchedUnfold(a: Tokens, b: Tokens, w: Window)
    requires ValidWindow(a, b, w)
    ensures var m := LongestMatch(a, b, w);
            m.size <= Matched(a, b, w) && (Matched(a, b, w) == 0 <==> m.size == 0)
  {
  }

  /** A core block of `(a, a)` is mirrored on the diagonal at both of its
      starts. */
  lemma DiagonalCopies(a: Tokens, i: nat, j: nat, k: nat)
    requires IsCoreBlock(a, a, Whole(a, a), i, j, k)
    ensures IsCoreBlock(a, a, Whole(a, a), i, i, k) && IsCoreBlock(a, a, Whole(a, a), j, j, k)
  {
    assert a[i..i + k] == a[j..j + k];
  }

  /** Matching a sequence against itself, the earliest longest core block
      lies on the diagonal: an off-diagonal one has a diagonal copy of the
      same length that is visited earlier. */
  lemma CoreDiagonal(a: Tokens, m: Match)
    requires IsLongestCore(a, a, Whole(a, a), m)
    ensures m.i == m.j
  {
    DiagonalCopies(a, m.i, m.j, m.size);
    assert !Before(m.j, m.j, m.i, m.j);
    assert !Before(m.i, m.i, m.i, m.j);
  }

  /** On the diagonal, the first extension loop runs back to the start. */
  lemma {:induction false} LeftToStart(a: Tokens, m: Match)
    requires IsBlock(a, a, Whole(a, a), m.i, m.j, m.size) && m.i == m.j
    ensures ExtendLeft(a, a, Whole(a, a), m) == Match(0, 0, m.i + m.size)
    decreases m.i
  {
    if m.i > 0 {
      GrowLeft(a, a, Whole(a, a), m);
      LeftToStart(a, Match(m.i - 1, m.j - 1, m.size + 1));
    }
  }

  /** On the diagonal, the second extension loop runs on to the end, popular
      tokens included. */
  lemma {:induction false} RightToEnd(a: Tokens, m: Match)
    requires IsBlock(a, a, Whole(a, a), m.i, m.j, m.size) && m.i == m.j
    ensures ExtendRight(a, a, Whole(a, a), m) == Match(m.i, m.i, |a| - m.i)
    decreases |a| - m.i - m.size
  {
    if m.i + m.size < |a| {
      GrowRight(a, a, Whole(a, a), m);
      RightToEnd(a, Match(m.i, m.j, m.size + 1));
    }
  }

  /** A non-empty sequence matched against itself is one block covering all
      of it, whatever its popular tokens. */
  lemma MatchedOfEqual(a: Tokens)
    requires |a| > 0
    ensures LongestMatch(a, a, Whole(a, a)) == Match(0, 0, |a|)
    ensures Matched(a, a, Whole(a, a)) == |a|
  {
    var w := Whole(a, a);
    var core := Scan(a, a, w, w.alo, w.blo, Match(w.alo, w.blo, 0));
    CoreDiagonal(a, core);
    LeftToStart(a, core);
    RightToEnd(a, Match(0, 0, core.i + core.size));
  }

  /** A sequence matches itself completely. */
  lemma RatioOfEqual(a: Tokens)
    ensures Ratio(a, a) == 1.0
  {
    if |a| > 0 {
      MatchedOfEqual(a);
      RatioOfFullMatch(a, a);
    }
  }

  lemma RatioOfFullMatch(a: Tokens, b: Tokens)
    requires |a| + |b| > 0 && 2 * Matched(a, b, Whole(a, b)) == |a| + |b|
    ensures Ratio(a, b) == 1.0
  {
    FractionOne(|a| + |b|);
  }

  lemma FractionOne(n: nat)
    requires 0 < n
    ensures n as real / n as real == 1.0
  {
  }

  lemma SharedTokenMatches(a: Tokens, b: Tokens, i: nat, j: nat)
    requires NoPopular(b) && i < |a| && j < |b| && a[i] == b[j]
    ensures Matched(a, b, Whole(a, b)) > 0
  {
    var w := Whole(a, b);
    OneTokenBlock(a, b, w, i, j);
    LongestMatchNoPopular(a, b, w);
    MatchedUnfold(a, b, w);
  }

  lemma OneTokenBlock(a: Tokens, b: Tokens, w: Window, i: nat, j: nat)
    requires ValidWindow(a, b, w) && w.alo <= i < w.ahi && w.blo <= j < w.bhi && a[i] == b[j]
    ensures IsBlock(a, b, w, i, j, 1)
  {
    assert a[i..i + 1] == [a[i]] && b[j..j + 1] == [b[j]];
  }

  lemma MatchedShares(a: Tokens, b: Tokens)
    requires Matched(a, b, Whole(a, b)) > 0
    ensures exists i, j :: 0 <= i < |a| && 0 <= j < |b| && a[i] == b[j]
  {
    var w := Whole(a, b);
    var m := LongestMatch(a, b, w);
    MatchedUnfold(a, b, w);
    assert a[m.i..m.i + m.size][0] == b[m.j..m.j + m.size][0];
    assert a[m.i] == b[m.j];
  }

  /** Without popular tokens, nothing matches exactly when the two
      sequences share no token. */
  lemma MatchedZeroIffDisjoint(a: Tokens, b: Tokens)
    requires NoPopular(b)
    ensures Matched(a, b, Whole(a, b)) == 0 <==>
            forall i, j :: 0 <= i < |a| && 0 <= j < |b| ==> a[i] != b[j]
  {
    if Matched(a, b, Whole(a, b)) > 0 {
      MatchedShares(a, b);
    } else {
      forall i, j | 0 <= i < |a| && 0 <= j < |b| ensures a[i] != b[j] {
        if a[i] == b[j] {
          SharedTokenMatches(a, b, i, j);
        }
      }
    }
  }

  /** The ratio is 0 exactly when the sequences share no token. */
  lemma RatioZeroIffDisjoint(a: Tokens, b: Tokens)
    requires |a| + |b| > 0 && NoPopular(b)
    ensures Ratio(a, b) == 0.0 <==>
            forall i, j :: 0 <= i < |a| && 0 <= j < |b| ==> a[i] != b[j]
  {
    MatchedZeroIffDisjoint(a, b);
    var m := Matched(a, b, Whole(a, b));
    FractionZero(2 * m, |a| + |b|);
  }

  lemma FractionZero(n: nat, d: nat)
    requires 0 < d
    ensures n as real / d as real == 0.0 <==> n == 0
  {
    if n > 0 {
      assert n as real / d as real > 0.0;
    }
  }
}

=== FILE: metrics.dfy ===
/** `Metrics` (src/services/metrics_service.py): per-session counters and
    series, as an immutable record that every operation maps to a new
    record. */
module MetricsService {
  import opened Wrappers
  import opened Values
  import opened Seqs

  datatype Metrics = Metrics(
    totalDocs: nat,
    correctClassification: nat,
    incorrectClassification: nat,
    correctPredictions: nat,
    incorrectPredictions: nat,
    llmFailures: nat,
    accuracy: seq<real>,
    processingTimes: seq<real>)

  /** The six counters, named so that a contract can say "only this one
      moved". */
  datatype Counter =
    | TotalDocs
    | CorrectClassification
    | IncorrectClassification
    | CorrectPredictions
    | IncorrectPredictions
    | LlmFailures

  function Count(m: Metrics, c: Counter): nat {
    match c
    case TotalDocs => m.totalDocs
    case CorrectClassification => m.correctClassification
    case IncorrectClassification => m.incorrectClassification
    case CorrectPredictions => m.correctPredictions
    case IncorrectPredictions => m.incorrectPredictions
    case LlmFailures => m.llmFailures
  }

  /** `m2` is `m1` with counter `c` raised by `n` and both series as they were. */
  predicate Bumped(m1: Metrics, m2: Metrics, c: Counter, n: nat) {
    && (forall d :: Count(m2, d) == Count(m1, d) + (if d == c then n else 0))
    && m2.accuracy == m1.accuracy
    && m2.processingTimes == m1.processingTimes
  }

  // ---------------------------------------------------------------
  // reset, record_processing, add_document, mark_*, record_accuracy
  // ---------------------------------------------------------------

  /** `reset()` (also what `__init__` does). */
  function Reset(): (m: Metrics)
    ensures forall c :: Count(m, c) == 0
    ensures m.accuracy == [] && m.processingTimes == []
  {
    Metrics(0, 0, 0, 0, 0, 0, [], [])
  }

  function RecordProcessing(m: Metrics, elapsed: real): (r: Metrics)
    ensures forall c :: Count(r, c) == Count(m, c)
    ensures r.accuracy == m.accuracy
    ensures r.processingTimes == m.processingTimes + [elapsed]
  {
    m.(processingTimes := m.processingTimes + [elapsed])
  }

  function AddDocument(m: Metrics): (r: Metrics)
    ensures Bumped(m, r, TotalDocs, 1)
  {
    m.(totalDocs := m.totalDocs + 1)
  }

  function MarkCorrect(m: Metrics): (r: Metrics)
    ensures Bumped(m, r, CorrectPredictions, 1)
  {
    m.(correctPredictions := m.correctPredictions + 1)
  }

  function MarkIncorrect(m: Metrics): (r: Metrics)
    ensures Bumped(m, r, IncorrectPredictions, 1)
  {
    m.(incorrectPredictions := m.incorrectPredictions + 1)
  }

  function MarkClassificationCorrect(m: Metrics): (r: Metrics)
    ensures Bumped(m, r, CorrectClassification, 1)
  {
    m.(correctClassification := m.correctClassification + 1)
  }

  function MarkClassificationIncorrect(m: Metrics): (r: Metrics)
    ensures Bumped(m, r, IncorrectClassification, 1)
  {
    m.(incorrectClassification := m.incorrectClassification + 1)
  }

  function MarkLlmFailure(m: Metrics): (r: Metrics)
    ensures Bumped(m, r, LlmFailures, 1)
  {
    m.(llmFailures := m.llmFailures + 1)
  }

  function RecordAccuracy(m: Metrics, a: real): (r: Metrics)
    ensures forall c :: Count(r, c) == Count(m, c)
    ensures r.accuracy == m.accuracy + [a] && r.processingTimes == m.processingTimes
  {
    m.(accuracy := m.accuracy + [a])
  }

  // ---------------------------------------------------------------
  // to_dict
  // ---------------------------------------------------------------

  function CounterKey(c: Counter): string {
    match c
    case TotalDocs => "total_docs"
    case CorrectClassification => "correct_classification"
    case IncorrectClassification => "incorrect_classification"
    case CorrectPredictions => "correct_predictions"
    case IncorrectPredictions => "incorrect_predictions"
    case LlmFailures => "llm_failures"
  }

  function Floats(xs: seq<real>): (vs: seq<Value>)
    ensures |vs| == |xs| && forall i :: 0 <= i < |xs| ==> vs[i] == Float(xs[i])
  {
    seq(|xs|, i requires 0 <= i < |xs| => Float(xs[i]))
  }

  const DictKeys: seq<string> := [
    "total_docs", "correct_classification", "incorrect_classification",
    "correct_predictions", "incorrect_predictions", "llm_failures",
    "accuracy", "processing_times"]

  /** `to_dict()`: the eight fields under their dashboard names, in this
      order. */
  function ToDict(m: Metrics): (d: Value)
    ensures d.Dict? && Keys(d.entries) == DictKeys
  {
    Dict([
      ("total_docs", Int(m.totalDocs)),
      ("correct_classification", Int(m.correctClassification)),
      ("incorrect_classification", Int(m.incorrectClassification)),
      ("correct_predictions", Int(m.correctPredictions)),
      ("incorrect_predictions", Int(m.incorrectPredictions)),
      ("llm_failures", Int(m.llmFailures)),
      ("accuracy", List(Floats(m.accuracy))),
      ("processing_times", List(Floats(m.processingTimes)))])
  }

  /** Reads a `to_dict()` snapshot back. */
  function FromDict(d: Value): Option<Metrics> {
    if !d.Dict? then None
    else
      Assemble(NatAt(d, "total_docs"), NatAt(d, "correct_classification"),
               NatAt(d, "incorrect_classification"), NatAt(d, "correct_predictions"),
               NatAt(d, "incorrect_predictions"), NatAt(d, "llm_failures"),
               RealsAt(d, "accuracy"), RealsAt(d, "processing_times"))
  }

  function Assemble(a: Option<nat>, b: Option<nat>, c: Option<nat>, e: Option<nat>, f: Option<nat>,
                    g: Option<nat>, xs: Option<seq<real>>, ys: Option<seq<real>>): Option<Metrics>
  {
    if a.Some? && b.Some? && c.Some? && e.Some? && f.Some? && g.Some? && xs.Some? && ys.Some? then
      Some(Metrics(a.value, b.value, c.value, e.value, f.value, g.value, xs.value, ys.value))
    else None
  }

  function NatAt(d: Value, key: string): Option<nat>
    requires d.Dict?
  {
    match Get(d.entries, key)
    case Some(v) => if v.Int? && v.i >= 0 then Some(v.i) else None
    case None => None
  }

  function RealsAt(d: Value, key: string): Option<seq<real>>
    requires d.Dict?
  {
    match Get(d.entries, key)
    case Some(v) => if v.List? then Reals(v.items) else None
    case None => None
  }

  function Reals(vs: seq<Value>): Option<seq<real>> {
    if |vs| == 0 then Some([])
    else if !vs[0].Float? then None
    else
      match Reals(vs[1..])
      case Some(rest) => Some([vs[0].r] + rest)
      case None => None
  }

  lemma {:induction false} RealsOfFloats(xs: seq<real>)
    ensures Reals(Floats(xs)) == Some(xs)
  {
    if |xs| > 0 {
      RealsOfFloats(xs[1..]);
      assert Floats(xs)[1..] == Floats(xs[1..]);
      assert xs == [xs[0]] + xs[1..];
    }
  }

  /** A snapshot loses nothing: the record can be read back from it. */
  lemma ToDictRoundTrip(m: Metrics)
    ensures FromDict(ToDict(m)) == Some(m)
  {
    var d := ToDict(m);
    ToDictGets(m);
    RealsOfFloats(m.accuracy);
    RealsOfFloats(m.processingTimes);
    FromDictOf(d, m);
  }

  lemma FromDictOf(d: Value, m: Metrics)
    requires d.Dict?
    requires Get(d.entries, "total_docs") == Some(Int(m.totalDocs))
    requires Get(d.entries, "correct_classification") == Some(Int(m.correctClassification))
    requires Get(d.entries, "incorrect_classification") == Some(Int(m.incorrectClassification))
    requires Get(d.entries, "correct_predictions") == Some(Int(m.correctPredictions))
    requires Get(d.entries, "incorrect_predictions") == Some(Int(m.incorrectPredictions))
    requires Get(d.entries, "llm_failures") == Some(Int(m.llmFailures))
    requires Get(d.entries, "accuracy") == Some(List(Floats(m.accuracy)))
    requires Get(d.entries, "processing_times") == Some(List(Floats(m.processingTimes)))
    requires Reals(Floats(m.accuracy)) == Some(m.accuracy)
    requires Reals(Floats(m.processingTimes)) == Some(m.processingTimes)
    ensures FromDict(d) == Some(m)
  {
    NatAtOf(d, "total_docs", m.totalDocs);
    NatAtOf(d, "correct_classification", m.correctClassification);
    NatAtOf(d, "incorrect_classification", m.incorrectClassification);
    NatAtOf(d, "correct_predictions", m.correctPredictions);
    NatAtOf(d, "incorrect_predictions", m.incorrectPredictions);
    NatAtOf(d, "llm_failures", m.llmFailures);
    assert RealsAt(d, "accuracy") == Some(m.accuracy);
    assert RealsAt(d, "processing_times") == Some(m.processingTimes);
  }

  lemma NatAtOf(d: Value, key: string, n: nat)
    requires d.Dict? && Get(d.entries, key) == Some(Int(n))
    ensures NatAt(d, key) == Some(n)
  {
  }

  /** Each field sits under its own key of the snapshot. */
  lemma ToDictGets(m: Metrics)
    ensures var es := ToDict(m).entries;
      Get(es, "total_docs") == Some(Int(m.totalDocs))
      && Get(es, "correct_classification") == Some(Int(m.correctClassification))
      && Get(es, "incorrect_classification") == Some(Int(m.incorrectClassification))
      && Get(es, "correct_predictions") == Some(Int(m.correctPredictions))
      && Get(es, "incorrect_predictions") == Some(Int(m.incorrectPredictions))
      && Get(es, "llm_failures") == Some(Int(m.llmFailures))
      && Get(es, "accuracy") == Some(List(Floats(m.accuracy)))
      && Get(es, "processing_times") == Some(List(Floats(m.processingTimes)))
  {
    var es := ToDict(m).entries;
    ToDictDistinct(m);
    GetAt(es, 0);
    GetAt(es, 1);
    GetAt(es, 2);
    GetAt(es, 3);
    GetAt(es, 4);
    GetAt(es, 5);
    GetAt(es, 6);
    GetAt(es, 7);
  }

  lemma ToDictDistinct(m: Metrics)
    ensures DistinctKeys(ToDict(m).entries)
  {
    var es := ToDict(m).entries;
    DictKeysDistinct();
    forall i, j | 0 <= i < j < |es| ensures es[i].0 != es[j].0 {
      assert es[i].0 == DictKeys[i] && es[j].0 == DictKeys[j];
    }
  }

  lemma DictKeysDistinct()
    ensures forall i, j :: 0 <= i < j < |DictKeys| ==> DictKeys[i] != DictKeys[j]
  {
  }

  /** With distinct keys, the entry at position `i` is what `get` finds. */
  lemma {:induction false} GetAt(es: seq<(string, Value)>, i: nat)
    requires DistinctKeys(es) && i < |es|
    ensures Get(es, es[i].0) == Some(es[i].1)
  {
    if i > 0 {
      assert es[0].0 != es[i].0;
      GetAt(es[1..], i - 1);
    }
  }

  // ---------------------------------------------------------------
  // mark_by_score
  // ---------------------------------------------------------------

  const Threshold: real := 0.75

  /** `obj.get("score")` when `obj` is a dict, as long as it is an int, float
      or bool. */
  predicate HasScore(obj: Value) {
    obj.Dict? && Get(obj.entries, "score").Some? && IsNumber(Get(obj.entries, "score").value)
  }

  function ScoreOf(obj: Value): real
    requires HasScore(obj)
  {
    NumberOf(Get(obj.entries, "score").value)
  }

  predicate Passes(obj: Value) {
    HasScore(obj) && ScoreOf(obj) >= Threshold
  }

  /** The number of fields that have a numeric score. */
  function Scored(es: seq<(string, Value)>): (n: nat)
    ensures n <= |es|
  {
    if |es| == 0 then 0 else (if HasScore(es[0].1) then 1 else 0) + Scored(es[1..])
  }

  /** The number of those whose score is at least 0.75. */
  function Passed(es: seq<(string, Value)>): (n: nat)
    ensures n <= Scored(es)
  {
    if |es| == 0 then 0 else (if Passes(es[0].1) then 1 else 0) + Passed(es[1..])
  }

  /** `mark_by_score(res)`. A non-dict `res` fails at `.items()`; a dict with
      no scored field fails at `correct / total`. In both cases nothing was
      marked yet, so the record is unchanged. */
  function MarkByScore(m: Metrics, res: Value): (r: Result<Metrics, PyError>)
    ensures r.Err? <==> !res.Dict? || Scored(res.entries) == 0
    ensures r.Err? && res.Dict? ==> r.error == ZeroDivisionError
    ensures r.Ok? ==>
      && r.value.correctPredictions + r.value.incorrectPredictions
         == m.correctPredictions + m.incorrectPredictions + Scored(res.entries)
      && r.value.correctPredictions == m.correctPredictions + Passed(res.entries)
      && |r.value.accuracy| == |m.accuracy| + 1
      && r.value.accuracy[..|m.accuracy|] == m.accuracy
      && 0.0 <= r.value.accuracy[|m.accuracy|] <= 1.0
      && r.value.accuracy[|m.accuracy|] == Passed(res.entries) as real / Scored(res.entries) as real
      && r.value.totalDocs == m.totalDocs
      && r.value.correctClassification == m.correctClassification
      && r.value.incorrectClassification == m.incorrectClassification
      && r.value.llmFailures == m.llmFailures
      && r.value.processingTimes == m.processingTimes
  {
    if !res.Dict? then Err(AttributeError(TypeName(res), "items"))
    else
      var marked := MarkFields(m, res.entries);
      var total := Scored(res.entries);
      var correct := Passed(res.entries);
      if total == 0 then Err(ZeroDivisionError)
      else
        Fraction(correct, total);
        Ok(RecordAccuracy(marked, correct as real / total as real))
  }

  lemma Fraction(n: nat, d: nat)
    requires 0 < d && n <= d
    ensures 0.0 <= n as real / d as real <= 1.0
  {
  }

  /** The loop of `mark_by_score`: `mark_correct` or `mark_incorrect` once per
      scored field, in order. */
  function MarkFields(m: Metrics, es: seq<(string, Value)>): (r: Metrics)
    ensures r.correctPredictions == m.correctPredictions + Passed(es)
    ensures r.incorrectPredictions == m.incorrectPredictions + Scored(es) - Passed(es)
    ensures r == m.(correctPredictions := r.correctPredictions, incorrectPredictions := r.incorrectPredictions)
    decreases |es|
  {
    if |es| == 0 then m
    else
      var obj := es[0].1;
      var m' := if !HasScore(obj) then m
                else if ScoreOf(obj) >= Threshold then MarkCorrect(m)
                else MarkIncorrect(m);
      MarkFields(m', es[1..])
  }

  lemma {:induction false} ScoredAppend(a: seq<(string, Value)>, b: seq<(string, Value)>)
    ensures Scored(a + b) == Scored(a) + Scored(b)
    ensures Passed(a + b) == Passed(a) + Passed(b)
  {
    if |a| == 0 {
      assert a + b == b;
    } else {
      assert (a + b)[0] == a[0];
      assert (a + b)[1..] == a[1..] + b;
      ScoredAppend(a[1..], b);
    }
  }

  /** The tally does not depend on the order of the fields. */
  lemma {:induction false} ScoredOrderFree(a: seq<(string, Value)>, b: seq<(string, Value)>)
    requires multiset(a) == multiset(b)
    ensures Scored(a) == Scored(b) && Passed(a) == Passed(b)
    decreases |a|
  {
    if |a| > 0 {
      assert a[0] in multiset(b);
      var k :| 0 <= k < |b| && b[k] == a[0];
      var b' := b[..k] + b[k + 1..];
      ScoredRemove(b, k);
      MultisetRemove(a, b, k);
      ScoredOrderFree(a[1..], b');
      assert a == [a[0]] + a[1..];
      ScoredAppend([a[0]], a[1..]);
    }
  }

  /** Taking field `k` out of the tally takes its own count out. */
  lemma ScoredRemove(b: seq<(string, Value)>, k: nat)
    requires k < |b|
    ensures Scored(b) == Scored([b[k]]) + Scored(b[..k] + b[k + 1..])
    ensures Passed(b) == Passed([b[k]]) + Passed(b[..k] + b[k + 1..])
  {
    SplitAround(b, k);
    SplitThree(b[..k], [b[k]], b[k + 1..]);
  }

  /** The tally of three consecutive parts, counted with the middle part
      moved to the front. */
  lemma SplitThree(p: seq<(string, Value)>, m: seq<(string, Value)>, q: seq<(string, Value)>)
    ensures Scored((p + m) + q) == Scored(m) + Scored(p + q)
    ensures Passed((p + m) + q) == Passed(m) + Passed(p + q)
  {
    ScoredAppend(p + m, q);
    ScoredAppend(p, m);
    ScoredAppend(p, q);
  }

  // ---------------------------------------------------------------
  // update_metrics
  // ---------------------------------------------------------------

  const ClassificationThreshold: real := 0.8

  /** What `update_metrics` leaves behind: the record, and the exception if
      one escaped. */
  datatype Update = Update(metrics: Metrics, raised: Option<PyError>)

  /** The classification score `res["document_type"]["score"]`, if it can be
      compared with 0.8. */
  function ClassificationScore(res: Value): Result<real, PyError> {
    var docType :- GetItem(res, "document_type");
    var score :- GetItem(docType, "score");
    if IsNumber(score) then Ok(NumberOf(score))
    else Err(TypeError("'>' not supported between instances of '" + TypeName(score) + "' and 'float'"))
  }

  /** `update_metrics(pred, res)`. The `is_json(pred)` branch only mentions
      `self.mark_llm_failure` without calling it, so `pred` has no effect. */
  function UpdateMetrics(m: Metrics, pred: Value, res: Value): (u: Update)
    ensures u.raised.Some? <==> ClassificationScore(res).Err?
    ensures u.raised.Some? ==> u.metrics == m
    ensures u.raised.None? ==>
      && u.metrics.totalDocs == m.totalDocs + 1
      && u.metrics.llmFailures == m.llmFailures
      && (ClassificationScore(res).value > ClassificationThreshold ==>
            u.metrics.correctClassification == m.correctClassification + 1
            && u.metrics.incorrectClassification == m.incorrectClassification)
      && (ClassificationScore(res).value <= ClassificationThreshold ==>
            u.metrics.incorrectClassification == m.incorrectClassification + 1
            && u.metrics.correctClassification == m.correctClassification)
      && res.Dict? && Scored(res.entries) > 0
      && u.metrics.correctPredictions == m.correctPredictions + Passed(res.entries)
      && u.metrics.incorrectPredictions
         == m.incorrectPredictions + Scored(res.entries) - Passed(res.entries)
      && |u.metrics.accuracy| == |m.accuracy| + 1
      && u.metrics.accuracy[..|m.accuracy|] == m.accuracy
      && u.metrics.accuracy[|m.accuracy|] == Passed(res.entries) as real / Scored(res.entries) as real
      && u.metrics.processingTimes == m.processingTimes
  {
    match ClassificationScore(res)
    case Err(e) => Update(m, Some(e))
    case Ok(score) =>
      var m1 := if score > ClassificationThreshold then MarkClassificationCorrect(m)
                else MarkClassificationIncorrect(m);
      var m2 := AddDocument(m1);
      ClassifiedHasScoredField(res);
      match MarkByScore(m2, res)
      case Ok(m3) => Update(m3, None)
      case Err(e) => Update(m2, Some(e))
  }

  /** A document whose every scored field reaches 0.75 adds exactly 1.0 to
      the accuracy list and counts each scored field as a correct
      prediction. */
  lemma AllPassingDocument(m: Metrics, pred: Value, res: Value)
    requires ClassificationScore(res).Ok? && res.Dict?
    requires forall i :: 0 <= i < |res.entries| && HasScore(res.entries[i].1) ==> Passes(res.entries[i].1)
    ensures UpdateMetrics(m, pred, res).raised.None?
    ensures UpdateMetrics(m, pred, res).metrics.accuracy == m.accuracy + [1.0]
    ensures UpdateMetrics(m, pred, res).metrics.correctPredictions
            == m.correctPredictions + Scored(res.entries)
    ensures UpdateMetrics(m, pred, res).metrics.incorrectPredictions == m.incorrectPredictions
  {
    var u := UpdateMetrics(m, pred, res);
    var n := Scored(res.entries);
    AllPassed(res.entries);
    WholeFraction(n);
    assert u.metrics.accuracy[|m.accuracy|] == 1.0;
    assert u.metrics.accuracy == u.metrics.accuracy[..|m.accuracy|] + [u.metrics.accuracy[|m.accuracy|]];
  }

  lemma WholeFraction(n: nat)
    requires n > 0
    ensures n as real / n as real == 1.0
  {
  }

  /** When no scored field falls below 0.75, all of them pass. */
  lemma {:induction false} AllPassed(es: seq<(string, Value)>)
    requires forall i :: 0 <= i < |es| && HasScore(es[i].1) ==> Passes(es[i].1)
    ensures Passed(es) == Scored(es)
  {
    if |es| > 0 {
      AllPassed(es[1..]);
    }
  }

  /** Once the classification score compared with 0.8, `res` is a dict with
      at least one scored field (`document_type` itself), so `mark_by_score`
      cannot divide by zero: the update never stops half-way. */
  lemma ClassifiedHasScoredField(res: Value)
    requires ClassificationScore(res).Ok?
    ensures res.Dict? && Scored(res.entries) > 0
  {
    var docType := GetItem(res, "document_type").value;
    assert HasScore(docType);
    GetFound(res.entries, "document_type");
    var i :| 0 <= i < |res.entries| && res.entries[i].0 == "document_type"
      && Get(res.entries, "document_type") == Some(res.entries[i].1);
    ScoredPositive(res.entries, i);
  }

  lemma {:induction false} ScoredPositive(es: seq<(string, Value)>, i: nat)
    requires i < |es| && HasScore(es[i].1)
    ensures Scored(es) > 0
  {
    if i > 0 {
      ScoredPositive(es[1..], i - 1);
    }
  }

  /** A key that is present is found at the first position holding it. */
  lemma {:induction false} GetFound(es: seq<(string, Value)>, k: string)
    requires k in Keys(es)
    ensures exists i :: 0 <= i < |es| && es[i].0 == k && Get(es, k) == Some(es[i].1)
  {
    if es[0].0 != k {
      KeysCons(es[0], es[1..]);
      assert es == [es[0]] + es[1..];
      GetFound(es[1..], k);
      var i :| 0 <= i < |es[1..]| && es[1..][i].0 == k && Get(es[1..], k) == Some(es[1..][i].1);
      assert es[i + 1] == es[1..][i];
    }
  }

  /** The prediction text passed to `update_metrics` changes nothing. */
  lemma UpdateIgnoresPrediction(m: Metrics, p1: Value, p2: Value, res: Value)
    ensures UpdateMetrics(m, p1, res) == UpdateMetrics(m, p2, res)
  {
  }

  // ---------------------------------------------------------------
  // The counting invariant
  // ---------------------------------------------------------------

  /** Every processed document was classified once and contributed one
      accuracy value. */
  predicate Consistent(m: Metrics) {
    m.totalDocs == m.correctClassification + m.incorrectClassification == |m.accuracy|
  }

  /** Apply `update_metrics` to each `(pred, res)` pair in turn; an exception
      stops the run (the caller's loop would be left). */
  function RunUpdates(m: Metrics, docs: seq<(Value, Value)>): (r: Metrics)
    decreases |docs|
  {
    if |docs| == 0 then m
    else
      var u := UpdateMetrics(m, docs[0].0, docs[0].1);
      if u.raised.Some? then u.metrics else RunUpdates(u.metrics, docs[1..])
  }

  /** Starting from `reset()` and using only `update_metrics`,
      `total_docs == correct_classification + incorrect_classification == len(accuracy_)`
      and `llm_failures` stays 0. */
  lemma {:induction false} UpdatesKeepConsistent(m: Metrics, docs: seq<(Value, Value)>)
    requires Consistent(m)
    ensures Consistent(RunUpdates(m, docs))
    ensures RunUpdates(m, docs).llmFailures == m.llmFailures
    decreases |docs|
  {
    if |docs| > 0 {
      var u := UpdateMetrics(m, docs[0].0, docs[0].1);
      if u.raised.None? {
        UpdatesKeepConsistent(u.metrics, docs[1..]);
      }
    }
  }

  lemma SessionConsistent(docs: seq<(Value, Value)>)
    ensures Consistent(RunUpdates(Reset(), docs))
    ensures RunUpdates(Reset(), docs).llmFailures == 0
  {
    UpdatesKeepConsistent(Reset(), docs);
  }

  // ---------------------------------------------------------------
  // update_metrics with the LLM failure counted
  // ---------------------------------------------------------------

  /** `update_metrics` as its `is_json` branch evidently intends: when the
      prediction is not JSON, `mark_llm_failure()` is called, after
      `add_document` and before `mark_by_score`. `isJson` stands for
      `is_json`. */
  function UpdateMetricsCounted(m: Metrics, pred: Value, res: Value, isJson: Value -> bool): (u: Update)
    ensures u.raised.Some? <==> ClassificationScore(res).Err?
    ensures u.raised.Some? ==> u.metrics == m
    ensures u.raised.None? ==>
      && u.metrics.llmFailures == m.llmFailures + (if isJson(pred) then 0 else 1)
      && u.metrics.totalDocs == m.totalDocs + 1
      && u.metrics.correctClassification + u.metrics.incorrectClassification
         == m.correctClassification + m.incorrectClassification + 1
      && |u.metrics.accuracy| == |m.accuracy| + 1
  {
    match ClassificationScore(res)
    case Err(e) => Update(m, Some(e))
    case Ok(score) =>
      var m1 := if score > ClassificationThreshold then MarkClassificationCorrect(m)
                else MarkClassificationIncorrect(m);
      var m2 := AddDocument(m1);
      var m3 := if isJson(pred) then m2 else MarkLlmFailure(m2);
      ClassifiedHasScoredField(res);
      match MarkByScore(m3, res)
      case Ok(m4) => Update(m4, None)
      case Err(e) => Update(m3, Some(e))
  }

  /** The code as written and the counted update differ only in
      `llm_failures`, and only for a prediction that is not JSON. */
  lemma CountedDiffersOnlyInFailures(m: Metrics, pred: Value, res: Value, isJson: Value -> bool)
    ensures UpdateMetricsCounted(m, pred, res, isJson).raised == UpdateMetrics(m, pred, res).raised
    ensures UpdateMetricsCounted(m, pred, res, isJson).metrics
         == UpdateMetrics(m, pred, res).metrics.(llmFailures := UpdateMetricsCounted(m, pred, res, isJson).metrics.llmFailures)
  {
  }

  /** The discrepancy: a classifiable result with a prediction that is not
      JSON leaves `llm_failures` where it was in the code as written, while
      the counted update raises it by one. */
  lemma UncountedFailure(m: Metrics, pred: Value, res: Value, isJson: Value -> bool)
    requires ClassificationScore(res).Ok? && !isJson(pred)
    ensures UpdateMetrics(m, pred, res).metrics.llmFailures == m.llmFailures
    ensures UpdateMetricsCounted(m, pred, res, isJson).metrics.llmFailures == m.llmFailures + 1
  {
  }

  /** The number of predictions among `docs` that are not JSON. */
  function NonJson(docs: seq<(Value, Value)>, isJson: Value -> bool): (n: nat)
    ensures n <= |docs|
  {
    if |docs| == 0 then 0 else (if isJson(docs[0].0) then 0 else 1) + NonJson(docs[1..], isJson)
  }

  /** `RunUpdates` with the counted update. */
  function RunCounted(m: Metrics, docs: seq<(Value, Value)>, isJson: Value -> bool): Metrics
    decreases |docs|
  {
    if |docs| == 0 then m
    else
      var u := UpdateMetricsCounted(m, docs[0].0, docs[0].1, isJson);
      if u.raised.Some? then u.metrics else RunCounted(u.metrics, docs[1..], isJson)
  }

  /** With the failure counted, a run over classifiable results keeps the
      counting invariant and `llm_failures` grows by exactly the number of
      predictions that are not JSON. */
  lemma {:induction false} CountedFailures(m: Metrics, docs: seq<(Value, Value)>, isJson: Value -> bool)
    requires forall i :: 0 <= i < |docs| ==> ClassificationScore(docs[i].1).Ok?
    ensures RunCounted(m, docs, isJson).llmFailures == m.llmFailures + NonJson(docs, isJson)
    ensures Consistent(m) ==> Consistent(RunCounted(m, docs, isJson))
    decreases |docs|
  {
    if |docs| > 0 {
      var u := UpdateMetricsCounted(m, docs[0].0, docs[0].1, isJson);
      assert ClassificationScore(docs[0].1).Ok?;
      assert forall i :: 0 <= i < |docs[1..]| ==> docs[1..][i] == docs[i + 1];
      CountedFailures(u.metrics, docs[1..], isJson);
    }
  }
}

=== FILE: normalization.dfy ===
/** `Evaluator.normalize_text` (src/services/evaluation_service.py): the
    canonical form both sides of a leaf comparison are reduced to. */
module Normalization {
  import opened Text

  // ---------------------------------------------------------------
  // normalize_text
  // ---------------------------------------------------------------

  /** The characters of `[\/,;|]`, which become spaces. */
  predicate IsSeparator(c: char) {
    c == '/' || c == ',' || c == ';' || c == '|'
  }

  /** `re.sub(r"[\/,;|]", " ", t)` */
  function SeparatorsToSpaces(t: string): (r: string)
    ensures |r| == |t|
    ensures forall i :: 0 <= i < |t| ==> r[i] == if IsSeparator(t[i]) then ' ' else t[i]
  {
    seq(|t|, i requires 0 <= i < |t| => if IsSeparator(t[i]) then ' ' else t[i])
  }

  /** `re.sub(r"[^a-z0-9\s]", "", t)` */
  function KeepWordChars(t: string): (r: string)
    ensures forall i :: 0 <= i < |r| ==> IsLowerAlnum(r[i]) || IsSpace(r[i])
    ensures forall c :: c in r <==> c in t && (IsLowerAlnum(c) || IsSpace(c))
    ensures |r| <= |t|
  {
    if |t| == 0 then []
    else if IsLowerAlnum(t[0]) || IsSpace(t[0]) then [t[0]] + KeepWordChars(t[1..])
    else KeepWordChars(t[1..])
  }

  /** `re.sub(r"\s+", " ", t)`: every whitespace run becomes one space. */
  function CollapseSpaces(t: string): (r: string)
    ensures forall i :: 0 <= i < |r| ==> r[i] == ' ' || (r[i] in t && !IsSpace(r[i]))
    ensures forall i :: 0 < i < |r| ==> r[i - 1] != ' ' || !IsSpace(r[i])
    ensures |r| == 0 <==> |t| == 0
    ensures |r| > 0 && |t| > 0 ==> (r[0] == ' ' <==> IsSpace(t[0]))
    decreases |t|
  {
    if |t| == 0 then []
    else if IsSpace(t[0]) then
      var rest := StripLeft(t[1..]);
      var r := CollapseSpaces(rest);
      CollapseCons(' ', r, rest, t);
      [' '] + r
    else
      var r := CollapseSpaces(t[1..]);
      CollapseCons(t[0], r, t[1..], t);
      [t[0]] + r
  }

  /** The filter distributes over concatenation, so with the one-character
      cases below it is determined: each character is kept exactly when it
      is `[a-z0-9]` or whitespace, in its original order. */
  lemma {:induction false} KeepWordCharsAppend(a: string, b: string)
    ensures KeepWordChars(a + b) == KeepWordChars(a) + KeepWordChars(b)
    decreases |a|
  {
    if |a| == 0 {
      assert a + b == b;
    } else {
      assert (a + b)[0] == a[0];
      assert (a + b)[1..] == a[1..] + b;
      KeepWordCharsAppend(a[1..], b);
    }
  }

  lemma KeepWordCharsOne(c: char)
    ensures KeepWordChars([c]) == if IsLowerAlnum(c) || IsSpace(c) then [c] else []
  {
    assert [c][1..] == [];
  }

  /** Collapsing whitespace runs keeps the words: `t.split()` is unchanged. */
  lemma {:induction false} CollapseWords(t: string)
    ensures Words(CollapseSpaces(t)) == Words(t)
    decreases |t|
  {
    if |t| > 0 {
      assert t == [t[0]] + t[1..];
      if IsSpace(t[0]) {
        var rest := StripLeft(t[1..]);
        CollapseWords(rest);
        WordsSpaceCons(' ', CollapseSpaces(rest));
        WordsStripLeft(t[1..]);
        WordsSpaceCons(t[0], t[1..]);
      } else {
        var c := CollapseSpaces(t[1..]);
        CollapseWords(t[1..]);
        assert StartsWord(c) <==> StartsWord(t[1..]);
        WordsWordCons(t[0], c);
        WordsWordCons(t[0], t[1..]);
      }
    }
  }

  /** A collapsed suffix `r` of `t`, with `x` put in front: a space is never
      followed by whitespace, and `x` itself comes from `t` unless it is the
      space standing for a run. */
  lemma CollapseCons(x: char, r: string, src: string, t: string)
    requires |src| < |t| && src == t[|t| - |src|..]
    requires forall i :: 0 <= i < |r| ==> r[i] == ' ' || (r[i] in src && !IsSpace(r[i]))
    requires forall i :: 0 < i < |r| ==> r[i - 1] != ' ' || !IsSpace(r[i])
    requires x == ' ' || (x == t[0] && !IsSpace(x))
    requires x == ' ' && |r| > 0 ==> !IsSpace(r[0])
    ensures forall i :: 0 <= i < |[x] + r| ==> ([x] + r)[i] == ' ' || (([x] + r)[i] in t && !IsSpace(([x] + r)[i]))
    ensures forall i :: 0 < i < |[x] + r| ==> ([x] + r)[i - 1] != ' ' || !IsSpace(([x] + r)[i])
  {
    assert forall c :: c in src ==> c in t;
  }

  /** A normalised text: only `[a-z0-9 ]`, and no leading, trailing or
      doubled space. */
  predicate IsNormal(s: string) {
    && (forall i :: 0 <= i < |s| ==> IsLowerAlnum(s[i]) || s[i] == ' ')
    && (|s| > 0 ==> s[0] != ' ' && s[|s| - 1] != ' ')
    && (forall i :: 0 < i < |s| ==> s[i - 1] != ' ' || s[i] != ' ')
  }

  /** `normalize_text`: lower-case, separators to spaces, drop everything
      but `[a-z0-9\s]`, collapse whitespace runs, strip. */
  function NormalizeText(text: string): (r: string)
    ensures IsNormal(r)
  {
    if |text| == 0 then ""
    else
      var kept := KeepWordChars(SeparatorsToSpaces(Lower(text)));
      var collapsed := CollapseSpaces(kept);
      var r := Strip(collapsed);
      NormalizedShape(kept, collapsed, r);
      r
  }

  /** `normalize_text` keeps exactly the words of the lower-cased text with
      separators turned into spaces and every other character outside
      `[a-z0-9\s]` dropped: `normalize_text(t).split()` equals that text's
      `split()`. */
  lemma NormalizeWords(text: string)
    ensures Words(NormalizeText(text)) == Words(KeepWordChars(SeparatorsToSpaces(Lower(text))))
  {
    if |text| > 0 {
      var kept := KeepWordChars(SeparatorsToSpaces(Lower(text)));
      CollapseWords(kept);
      WordsStrip(CollapseSpaces(kept));
    }
  }

  /** The whitespace runs become single spaces; nothing else is added. */
  predicate SpacedWords(s: string) {
    && (forall i :: 0 <= i < |s| ==> IsLowerAlnum(s[i]) || s[i] == ' ')
    && (forall i :: 0 < i < |s| ==> s[i - 1] != ' ' || s[i] != ' ')
  }

  lemma CollapsedSpacedWords(kept: string)
    requires forall i :: 0 <= i < |kept| ==> IsLowerAlnum(kept[i]) || IsSpace(kept[i])
    ensures SpacedWords(CollapseSpaces(kept))
  {
    var c := CollapseSpaces(kept);
    forall i | 0 <= i < |c| ensures IsLowerAlnum(c[i]) || c[i] == ' ' {
      if c[i] != ' ' {
        assert c[i] in kept;
      }
    }
  }

  lemma StripSpacedWords(c: string)
    requires SpacedWords(c)
    ensures IsNormal(Strip(c))
  {
    var r := Strip(c);
    var off := |c| - |StripLeft(c)|;
    SpacedWordsSlice(c, off, r);
  }

  lemma SpacedWordsSlice(c: string, off: nat, r: string)
    requires SpacedWords(c) && off + |r| <= |c| && r == c[off..off + |r|]
    ensures SpacedWords(r)
  {
    assert forall i :: 0 <= i < |r| ==> r[i] == c[off + i];
  }

  lemma NormalizedShape(kept: string, collapsed: string, r: string)
    requires forall i :: 0 <= i < |kept| ==> IsLowerAlnum(kept[i]) || IsSpace(kept[i])
    requires collapsed == CollapseSpaces(kept) && r == Strip(collapsed)
    ensures IsNormal(r)
  {
    CollapsedSpacedWords(kept);
    StripSpacedWords(collapsed);
  }

  lemma {:induction false} KeepWordCharsFixes(s: string)
    requires forall i :: 0 <= i < |s| ==> IsLowerAlnum(s[i]) || s[i] == ' '
    ensures KeepWordChars(s) == s
  {
    if |s| > 0 {
      KeepWordCharsFixes(s[1..]);
      assert s == [s[0]] + s[1..];
    }
  }

  lemma {:induction false} CollapseSpacesFixes(s: string)
    requires SpacedWords(s)
    ensures CollapseSpaces(s) == s
    decreases |s|
  {
    if |s| > 0 {
      assert s == [s[0]] + s[1..];
      CollapseSpacesFixes(s[1..]);
      if s[0] == ' ' {
        assert StripLeft(s[1..]) == s[1..];
      }
    }
  }

  lemma StripFixes(s: string)
    requires |s| > 0 && !IsSpace(s[0]) && !IsSpace(s[|s| - 1])
    ensures Strip(s) == s
  {
    assert StripLeft(s) == s;
    assert StripRight(s) == s;
  }

  /** A normalised text is a fixed point of `normalize_text`. */
  lemma NormalFixed(s: string)
    requires IsNormal(s)
    ensures NormalizeText(s) == s
  {
    if |s| > 0 {
      assert Lower(s) == s by {
        assert forall i :: 0 <= i < |s| ==> Lower(s)[i] == s[i];
      }
      assert SeparatorsToSpaces(s) == s by {
        assert forall i :: 0 <= i < |s| ==> SeparatorsToSpaces(s)[i] == s[i];
      }
      KeepWordCharsFixes(s);
      CollapseSpacesFixes(s);
      StripFixes(s);
    }
  }

  /** `normalize_text` is idempotent. */
  lemma NormalizeIdempotent(t: string)
    ensures NormalizeText(NormalizeText(t)) == NormalizeText(t)
  {
    NormalFixed(NormalizeText(t));
  }
}

=== FILE: pipeline.dfy ===
/** The two pure steps of the document pipeline: turning a ground-truth JSON
    document into the schema handed to the model, and checking that an
    upload is a JPEG. */
module Pipeline {
  import opened Wrappers
  import opened Values
  import opened Text

  // ---------------------------------------------------------------
  // extract_schema_from_gt
  // ---------------------------------------------------------------

  /** The placeholder every leaf becomes. */
  const Placeholder: Value := Str("string")

  /** `_extract(obj)`: dicts keep their keys, a non-empty list keeps only the
      schema of its first element, everything else becomes `"string"`. */
  function Schema(v: Value): (r: Value)
    ensures v.Dict? ==> r.Dict? && Keys(r.entries) == Keys(v.entries)
    ensures v.List? ==> r.List? && |r.items| == (if |v.items| == 0 then 0 else 1)
    ensures !v.Dict? && !v.List? ==> r == Placeholder
    decreases v, 1
  {
    match v
    case Dict(es) => Dict(SchemaEntries(v))
    case List(xs) => if |xs| > 0 then List([Schema(xs[0])]) else List([])
    case _ => Placeholder
  }

  /** `{k: _extract(v) for k, v in obj.items()}` */
  function SchemaEntries(v: Value): (r: seq<(string, Value)>)
    requires v.Dict?
    ensures |r| == |v.entries|
    ensures forall i :: 0 <= i < |r| ==> r[i].0 == v.entries[i].0
    decreases v, 0
  {
    seq(|v.entries|, i requires 0 <= i < |v.entries| => (v.entries[i].0, Schema(v.entries[i].1)))
  }

  /** What a schema looks like: `"string"` leaves, lists of at most one
      element, and dicts whose values are schemas. */
  predicate IsSchema(v: Value) {
    match v
    case Str(s) => s == "string"
    case List(xs) => |xs| <= 1 && (|xs| == 1 ==> IsSchema(xs[0]))
    case Dict(es) => forall i :: 0 <= i < |es| ==> IsSchema(es[i].1)
    case _ => false
  }

  /** Every extracted schema has that shape. */
  lemma {:induction false} SchemaIsSchema(v: Value)
    ensures IsSchema(Schema(v))
    decreases v
  {
    match v
    case Dict(es) =>
      var r := SchemaEntries(v);
      forall i | 0 <= i < |r| ensures IsSchema(r[i].1) {
        SchemaIsSchema(es[i].1);
      }
    case List(xs) =>
      if |xs| > 0 {
        SchemaIsSchema(xs[0]);
      }
    case _ =>
  }

  /** A schema is left as it is. */
  lemma {:induction false} SchemaFixesSchemas(v: Value)
    requires IsSchema(v)
    ensures Schema(v) == v
    decreases v
  {
    match v
    case Dict(es) =>
      var r := SchemaEntries(v);
      forall i | 0 <= i < |r| ensures r[i] == es[i] {
        SchemaFixesSchemas(es[i].1);
      }
      assert r == es;
    case List(xs) =>
      if |xs| > 0 {
        SchemaFixesSchemas(xs[0]);
        assert [xs[0]] == xs;
      }
    case _ =>
  }

  /** Extracting the schema of a schema changes nothing. */
  lemma SchemaIdempotent(v: Value)
    ensures Schema(Schema(v)) == Schema(v)
  {
    SchemaIsSchema(v);
    SchemaFixesSchemas(Schema(v));
  }

  /** Only a list's first element contributes to its schema. */
  lemma SchemaIgnoresTail(xs: seq<Value>)
    requires |xs| > 0
    ensures Schema(List(xs)) == Schema(List(xs[..1]))
  {
  }

  /** Dict values are replaced by their own schemas, key by key. */
  lemma SchemaOfEntry(v: Value, k: string)
    requires v.Dict? && k in Keys(v.entries)
    ensures Get(Schema(v).entries, k) == Some(Schema(Get(v.entries, k).value))
  {
    SchemaGet(v.entries, SchemaEntries(v), k);
  }

  lemma {:induction false} SchemaGet(es: seq<(string, Value)>, rs: seq<(string, Value)>, k: string)
    requires |rs| == |es|
    requires forall i :: 0 <= i < |rs| ==> rs[i] == (es[i].0, Schema(es[i].1))
    requires k in Keys(es)
    ensures Get(rs, k) == Some(Schema(Get(es, k).value))
  {
    if es[0].0 != k {
      assert k == Keys(es)[0] || k in Keys(es[1..]) by {
        KeysCons(es[0], es[1..]);
        assert es == [es[0]] + es[1..];
      }
      SchemaGet(es[1..], rs[1..], k);
    }
  }

  // ---------------------------------------------------------------
  // validate_input
  // ---------------------------------------------------------------

  /** Why `validate_input` refused a file: its own `PipelineError`, or an
      exception raised while reading the file's name. */
  datatype Failure = PipelineError(msg: string) | Raised(error: PyError)

  const NoFileMessage := "No file uploaded."

  function NotJpegMessage(name: string): string {
    name + " is not a JPG/JPEG file."
  }

  /** The name test on its own: the lower-cased name ends in `.jpg` or
      `.jpeg`. */
  predicate HasJpegExtension(name: string) {
    EndsWith(Lower(name), ".jpg") || EndsWith(Lower(name), ".jpeg")
  }

  /** `validate_input(file)` for an upload given as a dict with a `name`. */
  function ValidateInput(file: Value): (r: Result<bool, Failure>)
    ensures r.Ok? ==> r.value
    ensures file.Null? ==> r == Err(PipelineError(NoFileMessage))
    ensures r.Ok? <==> file.Dict? && (exists name :: Get(file.entries, "name") == Some(Str(name)) && HasJpegExtension(name))
  {
    if file.Null? then Err(PipelineError(NoFileMessage))
    else
      match GetItem(file, "name")
      case Err(e) => Err(Raised(e))
      case Ok(name) =>
        if !name.Str? then Err(Raised(AttributeError(TypeName(name), "lower")))
        else if HasJpegExtension(name.s) then Ok(true)
        else Err(PipelineError(NotJpegMessage(name.s)))
  }

  /** Lower-casing an ASCII string twice is lower-casing it once. */
  lemma LowerIdempotent(s: string)
    ensures Lower(Lower(s)) == Lower(s)
  {
  }

  /** The test ignores case: a name is accepted iff its lower-case form is. */
  lemma ExtensionIgnoresCase(name: string)
    ensures HasJpegExtension(name) <==> HasJpegExtension(Lower(name))
  {
    LowerIdempotent(name);
  }

  /** A name is refused with the name in the message exactly when its
      extension is not `.jpg`/`.jpeg` in any letter case. */
  lemma RefusedNames(name: string)
    ensures ValidateInput(Dict([("name", Str(name))])) ==
      if HasJpegExtension(name) then Ok(true) else Err(PipelineError(NotJpegMessage(name)))
  {
  }

  /** Upper-case and mixed-case extensions pass; other image formats, and a
      `.jpg` that is not the last extension, do not. */
  lemma ExtensionExamples()
    ensures HasJpegExtension("SCAN.JPG")
    ensures HasJpegExtension("scan.JpEg")
    ensures !HasJpegExtension("scan.png")
    ensures !HasJpegExtension("scan.jpg.pdf")
  {
    UpperJpgPasses();
    MixedJpegPasses();
    PngRefused();
    PdfRefused();
  }

  lemma UpperJpgPasses()
    ensures HasJpegExtension("SCAN.JPG")
  {
    assert Lower("SCAN.JPG") == "scan.jpg";
  }

  lemma MixedJpegPasses()
    ensures HasJpegExtension("scan.JpEg")
  {
    assert Lower("scan.JpEg") == "scan.jpeg";
  }

  lemma PngRefused()
    ensures !HasJpegExtension("scan.png")
  {
    assert Lower("scan.png")[4..] == ".png";
    assert Lower("scan.png")[3..] == "n.png";
  }

  lemma PdfRefused()
    ensures !HasJpegExtension("scan.jpg.pdf")
  {
    assert Lower("scan.jpg.pdf")[8..] == ".pdf";
    assert Lower("scan.jpg.pdf")[7..] == "g.pdf";
  }

}

=== FILE: schema.dfy ===
/** The schema service's copy of schema extraction, which works on a list of
    ground-truth documents. */
module SchemaService {
  import opened Wrappers
  import opened Values
  import Pipeline

  /** `_extract_schema(obj)`; it tests `len(obj) == 0` where the pipeline's
      copy tests the list's truthiness. */
  function ExtractSchema(v: Value): (r: Value)
    ensures !v.Dict? && !v.List? ==> r == Str("string")
    ensures v.List? && |v.items| == 0 ==> r == List([])
    decreases v, 1
  {
    match v
    case Dict(es) => Dict(ExtractEntries(v))
    case List(xs) =>
      if |xs| == 0 then List([])
      else List([ExtractSchema(xs[0])])
    case _ => Str("string")
  }

  function ExtractEntries(v: Value): (r: seq<(string, Value)>)
    requires v.Dict?
    ensures |r| == |v.entries|
    decreases v, 0
  {
    seq(|v.entries|, i requires 0 <= i < |v.entries| => (v.entries[i].0, ExtractSchema(v.entries[i].1)))
  }

  /** The two copies agree on every document. */
  lemma {:induction false} AgreesWithPipeline(v: Value)
    ensures ExtractSchema(v) == Pipeline.Schema(v)
    decreases v
  {
    match v
    case Dict(es) =>
      var a := ExtractEntries(v);
      var b := Pipeline.SchemaEntries(v);
      forall i | 0 <= i < |a| ensures a[i] == b[i] {
        AgreesWithPipeline(es[i].1);
      }
    case List(xs) =>
      if |xs| > 0 {
        AgreesWithPipeline(xs[0]);
      }
    case _ =>
  }

  /** The service's transform is idempotent too. */
  lemma ExtractIdempotent(v: Value)
    ensures ExtractSchema(ExtractSchema(v)) == ExtractSchema(v)
  {
    AgreesWithPipeline(v);
    AgreesWithPipeline(ExtractSchema(v));
    Pipeline.SchemaIdempotent(v);
  }

  /** The elements `for item in gt_list` visits: a list's items, a dict's
      keys, a string's characters, a set's members (in some order). Anything
      else is not iterable. */
  function Iterate(v: Value): (r: Result<seq<Value>, PyError>)
    ensures r.Ok? <==> !IsLeaf(v) || v.Str?
    ensures v.List? ==> r == Ok(v.items)
  {
    match v
    case List(xs) => Ok(xs)
    case Dict(es) => Ok(seq(|es|, i requires 0 <= i < |es| => Str(es[i].0)))
    case Str(s) => Ok(seq(|s|, i requires 0 <= i < |s| => Str([s[i]])))
    case StrSet(es) => Ok(seq(|es|, i requires 0 <= i < |es| => Str(es[i])))
    case _ => Err(TypeError("'" + TypeName(v) + "' object is not iterable"))
  }

  /** `extract_schema_from_gt(gt_list)`: one schema per visited element, in
      order. */
  function ExtractSchemaFromGt(gtList: Value): (r: Result<seq<Value>, PyError>)
    ensures r.Ok? <==> Iterate(gtList).Ok?
    ensures r.Ok? ==> |r.value| == |Iterate(gtList).value|
    ensures r.Ok? ==> forall i :: 0 <= i < |r.value| ==> r.value[i] == Pipeline.Schema(Iterate(gtList).value[i])
  {
    var items :- Iterate(gtList);
    var out := seq(|items|, i requires 0 <= i < |items| => ExtractSchema(items[i]));
    forall i | 0 <= i < |items| ensures out[i] == Pipeline.Schema(items[i]) {
      AgreesWithPipeline(items[i]);
    }
    Ok(out)
  }

  /** On a list of documents the result has one schema per document, and
      running the service on its own output changes nothing. */
  lemma ListOfDocuments(docs: seq<Value>)
    ensures ExtractSchemaFromGt(List(docs)).Ok?
    ensures |ExtractSchemaFromGt(List(docs)).value| == |docs|
    ensures ExtractSchemaFromGt(List(ExtractSchemaFromGt(List(docs)).value)) == ExtractSchemaFromGt(List(docs))
  {
    var out := ExtractSchemaFromGt(List(docs)).value;
    var again := ExtractSchemaFromGt(List(out)).value;
    forall i | 0 <= i < |out| ensures again[i] == out[i] {
      Pipeline.SchemaIdempotent(docs[i]);
    }
    assert again == out;
  }
}

=== FILE: seqs.dfy ===
/** Facts about sequences that hold whatever their elements are. Stating them
    once for a type parameter keeps the solver away from the element types'
    own definitions when it proves them. */
module Seqs {

  lemma AppendAssoc<T>(a: seq<T>, b: seq<T>, c: seq<T>)
    ensures (a + b) + c == a + (b + c)
  {
  }

  /** A sequence is what lies before position `k`, the element there, and
      what lies after it. */
  lemma SplitAround<T>(b: seq<T>, k: nat)
    requires k < |b|
    ensures b == (b[..k] + [b[k]]) + b[k + 1..]
  {
  }

  /** Removing the same element from two permutations of each other leaves
      permutations of each other. */
  lemma MultisetRemove<T>(a: seq<T>, b: seq<T>, k: nat)
    requires |a| > 0 && k < |b| && b[k] == a[0] && multiset(a) == multiset(b)
    ensures multiset(a[1..]) == multiset(b[..k] + b[k + 1..])
  {
    var p, x, q := b[..k], b[k], b[k + 1..];
    assert b == p + [x] + q;
    assert a == [x] + a[1..];
    calc {
      multiset(a[1..]);
      multiset(a) - multiset{x};
      multiset(b) - multiset{x};
      multiset(p) + multiset(q);
      multiset(p + q);
    }
  }

  /** Two permutations of each other with the same first element stay
      permutations of each other without it. */
  lemma MultisetTail<T>(a: seq<T>, b: seq<T>)
    requires |a| > 0 && |b| > 0 && a[0] == b[0] && multiset(a) == multiset(b)
    ensures multiset(a[1..]) == multiset(b[1..])
  {
    assert a == [a[0]] + a[1..];
    assert b == [b[0]] + b[1..];
    calc {
      multiset(a[1..]);
      multiset(a) - multiset{a[0]};
      multiset(b) - multiset{b[0]};
      multiset(b[1..]);
    }
  }

  /** A relation that holds between `xs[0]` and `y` and between the rest of
      `xs` and `ys` pointwise holds between `xs` and `[y] + ys` pointwise. */
  lemma ConsPointwise<A, B>(xs: seq<A>, y: B, ys: seq<B>, rel: (A, B) -> bool)
    requires |xs| == |ys| + 1 && rel(xs[0], y)
    requires forall j :: 0 <= j < |ys| ==> rel(xs[1..][j], ys[j])
    ensures forall j :: 0 <= j < |xs| ==> rel(xs[j], ([y] + ys)[j])
  {
    forall j | 0 < j < |xs| ensures rel(xs[j], ([y] + ys)[j]) {
      assert xs[j] == xs[1..][j - 1];
    }
  }

  /** When the first element does not satisfy `p`, some element does exactly
      when some element of the rest does. */
  lemma ExistsInTail<T>(xs: seq<T>, p: T -> bool)
    requires |xs| > 0 && !p(xs[0])
    ensures (exists i :: 0 <= i < |xs| - 1 && p(xs[1..][i])) <==> (exists i :: 0 <= i < |xs| && p(xs[i]))
  {
    if exists i :: 0 <= i < |xs| - 1 && p(xs[1..][i]) {
      var i :| 0 <= i < |xs| - 1 && p(xs[1..][i]);
      assert xs[1..][i] == xs[i + 1];
    }
    if exists i :: 0 <= i < |xs| && p(xs[i]) {
      var i :| 0 <= i < |xs| && p(xs[i]);
      assert i > 0 && xs[1..][i - 1] == xs[i];
    }
  }
}

=== FILE: state.dfy ===
/** The application's session store (`AppState` over `st.session_state`).
    The store is an explicit ordered dict from key to value, and every helper
    is a function from the old store to the new one (or to the exception it
    raises). */
module AppState {
  import opened Wrappers
  import opened Values
  import opened Text
  import Seqs

  type Session = seq<(string, Value)>

  // ---------------------------------------------------------------
  // Defaults and init
  // ---------------------------------------------------------------

  const Defaults: Session := [
    ("uploaded_jpg_files", List([])),
    ("uploaded_json_files", List([])),
    ("current_image_index", Int(0)),
    ("groundtruth_json", Null),
    ("llm_results", List([])),
    ("metrics", Dict([])),
    ("processing_times", List([])),
    ("current_page", Str("Upload & Process"))
  ]

  /** `if k not in s: s[k] = v` */
  function AddIfMissing(s: Session, e: (string, Value)): (r: Session)
    ensures |s| <= |r| && r[..|s|] == s
    ensures Keys(r) == if e.0 in Keys(s) then Keys(s) else Keys(s) + [e.0]
    ensures forall k :: k in Keys(s) ==> Get(r, k) == Get(s, k)
    ensures e.0 !in Keys(s) ==> Get(r, e.0) == Some(e.1)
  {
    if e.0 in Keys(s) then s
    else
      AppendNew(s, e);
      s + [e]
  }

  lemma AppendNew(s: Session, e: (string, Value))
    requires e.0 !in Keys(s)
    ensures (s + [e])[..|s|] == s
    ensures Keys(s + [e]) == Keys(s) + [e.0]
    ensures forall k :: k in Keys(s) ==> Get(s + [e], k) == Get(s, k)
    ensures Get(s + [e], e.0) == Some(e.1)
  {
    forall k | k in Keys(s) ensures Get(s + [e], k) == Get(s, k) {
      GetAppend(s, [e], k);
    }
    GetAppend(s, [e], e.0);
    KeysAppendOne(s, e);
  }

  lemma KeysAppendOne(s: Session, e: (string, Value))
    ensures Keys(s + [e]) == Keys(s) + [e.0]
  {
    forall i | 0 <= i <= |s| ensures Keys(s + [e])[i] == (Keys(s) + [e.0])[i] {
      if i < |s| {
        assert (s + [e])[i] == s[i];
      }
    }
  }

  /** Keys of a non-empty dict: the first key, then the rest's. */
  lemma KeysSplit<V>(d: seq<(string, V)>)
    requires |d| > 0
    ensures Keys(d) == [d[0].0] + Keys(d[1..])
    ensures forall k :: k != d[0].0 ==> Get(d, k) == Get(d[1..], k)
  {
    KeysCons(d[0], d[1..]);
    assert d == [d[0]] + d[1..];
  }

  /** The tail of a dict with distinct keys has distinct keys and lacks the
      head's key. */
  lemma DistinctTail<V>(d: seq<(string, V)>)
    requires |d| > 0 && DistinctKeys(d)
    ensures DistinctKeys(d[1..])
    ensures d[0].0 !in Keys(d[1..])
  {
  }

  /** Adds each default whose key is missing, in the defaults' order. */
  function FillDefaults(s: Session, ds: Session): (r: Session)
    ensures |s| <= |r| && r[..|s|] == s
    ensures forall k :: k in Keys(r) <==> k in Keys(s) || k in Keys(ds)
    ensures forall k :: k in Keys(s) ==> Get(r, k) == Get(s, k)
    ensures forall k :: k !in Keys(s) ==> Get(r, k) == Get(ds, k)
    decreases |ds|
  {
    if |ds| == 0 then s
    else
      var s' := AddIfMissing(s, ds[0]);
      var r := FillDefaults(s', ds[1..]);
      assert r[..|s|] == r[..|s'|][..|s|];
      FillMissing(s, ds, r);
      r
  }

  /** The missing keys of one step of `FillDefaults` take the defaults'
      values: the first default's key from `AddIfMissing`, the others from
      the recursive call. */
  lemma FillMissing(s: Session, ds: Session, r: Session)
    requires |ds| > 0
    requires forall k :: k in Keys(AddIfMissing(s, ds[0])) ==> Get(r, k) == Get(AddIfMissing(s, ds[0]), k)
    requires forall k :: k !in Keys(AddIfMissing(s, ds[0])) ==> Get(r, k) == Get(ds[1..], k)
    ensures forall k :: k !in Keys(s) ==> Get(r, k) == Get(ds, k)
  {
    var s' := AddIfMissing(s, ds[0]);
    KeysSplit(ds);
    forall k | k !in Keys(s) ensures Get(r, k) == Get(ds, k) {
      if k == ds[0].0 {
        assert k in Keys(s');
      } else {
        assert k !in Keys(s');
      }
    }
  }

  /** `AppState.init()` */
  function Init(s: Session): (r: Session)
  {
    FillDefaults(s, Defaults)
  }

  /** Init keeps every existing entry (and its position) and adds exactly the
      missing defaults, each with its default value. */
  lemma InitKeepsExisting(s: Session)
    ensures |s| <= |Init(s)| && Init(s)[..|s|] == s
    ensures forall k :: k in Keys(s) ==> Get(Init(s), k) == Get(s, k)
    ensures forall k :: k !in Keys(s) ==> Get(Init(s), k) == Get(Defaults, k)
    ensures forall k :: k in Keys(Init(s)) <==> k in Keys(s) || k in Keys(Defaults)
  {
  }

  lemma {:induction false} FillPresent(s: Session, ds: Session)
    requires forall k :: k in Keys(ds) ==> k in Keys(s)
    ensures FillDefaults(s, ds) == s
    decreases |ds|
  {
    if |ds| > 0 {
      KeysCons(ds[0], ds[1..]);
      assert ds == [ds[0]] + ds[1..];
      FillPresent(s, ds[1..]);
    }
  }

  /** Calling init twice is the same as calling it once. */
  lemma InitIdempotent(s: Session)
    ensures Init(Init(s)) == Init(s)
  {
    FillPresent(Init(s), Defaults);
  }

  // ---------------------------------------------------------------
  // reset
  // ---------------------------------------------------------------

  /** `AppState.reset()`: every key but `metrics` is deleted, and `metrics`
      is set to its old value when that was truthy, else to `{}`. */
  function Reset(s: Session): (r: Session)
    ensures Keys(r) == ["metrics"]
  {
    var current := GetOr(s, "metrics", Null);
    [("metrics", if Truthy(current) then current else Dict([]))]
  }

  /** After a reset only `metrics` is left; a truthy value survives unchanged
      and anything falsy (or a missing key) becomes the empty dict. */
  lemma ResetKeepsMetrics(s: Session)
    ensures Keys(Reset(s)) == ["metrics"]
    ensures forall k :: k != "metrics" ==> Get(Reset(s), k) == None
    ensures (exists v :: Get(s, "metrics") == Some(v) && Truthy(v)) ==> Get(Reset(s), "metrics") == Get(s, "metrics")
    ensures (forall v :: Get(s, "metrics") == Some(v) ==> !Truthy(v)) ==> Get(Reset(s), "metrics") == Some(Dict([]))
  {
  }

  lemma ResetIdempotent(s: Session)
    ensures Reset(Reset(s)) == Reset(s)
  {
  }

  /** Init after reset restores the defaults without touching `metrics`. */
  lemma InitAfterReset(s: Session)
    ensures Get(Init(Reset(s)), "metrics") == Get(Reset(s), "metrics")
    ensures forall k :: k != "metrics" ==> Get(Init(Reset(s)), k) == Get(Defaults, k)
  {
    InitKeepsExisting(Reset(s));
  }

  // ---------------------------------------------------------------
  // Image navigation
  // ---------------------------------------------------------------

  const ImagesKey := "uploaded_images"
  const IndexKey := "current_image_index"

  /** A Python `int` (a `bool` is one). */
  predicate IsInt(v: Value) {
    v.Int? || v.Bool?
  }

  function IntOf(v: Value): int
    requires IsInt(v)
  {
    if v.Int? then v.i else if v.b then 1 else 0
  }

  /** `items[idx]` on a list, with Python's negative indices. */
  function Index(items: seq<Value>, idx: Value): (r: Result<Value, PyError>)
    ensures r.Ok? <==> IsInt(idx) && -|items| <= IntOf(idx) < |items|
    ensures r.Ok? && IntOf(idx) >= 0 ==> r.value == items[IntOf(idx)]
    ensures r.Ok? && IntOf(idx) < 0 ==> r.value == items[|items| + IntOf(idx)]
  {
    if !IsInt(idx) then Err(TypeError("list indices must be integers or slices, not " + TypeName(idx)))
    else
      var i := IntOf(idx);
      if i < -|items| || |items| <= i then Err(IndexError("list index out of range"))
      else if i < 0 then Ok(items[|items| + i])
      else Ok(items[i])
  }

  /** `AppState.get_current_image()`: `None` without images, otherwise the
      image at the stored index. */
  function GetCurrentImage(s: Session): (r: Result<Value, PyError>)
    ensures !Truthy(GetOr(s, ImagesKey, List([]))) ==> r == Ok(Null)
  {
    var images := GetOr(s, ImagesKey, List([]));
    var idx := GetOr(s, IndexKey, Int(0));
    if !Truthy(images) then Ok(Null)
    else Subscript(images, idx)
  }

  /** `container[idx]` for the values a session can hold. A dict's keys are
      strings, so any other index is a missing key. */
  function Subscript(container: Value, idx: Value): (r: Result<Value, PyError>)
    ensures container.List? ==> r == Index(container.items, idx)
    ensures IsLeaf(container) && !container.Str? ==> r.Err? && r.error.TypeError?
  {
    match container
    case List(items) => Index(items, idx)
    case Str(t) =>
      if !IsInt(idx) then Err(TypeError("string indices must be integers, not '" + TypeName(idx) + "'"))
      else
        var i := IntOf(idx);
        if i < -|t| || |t| <= i then Err(IndexError("string index out of range"))
        else if i < 0 then Ok(Str([t[|t| + i]]))
        else Ok(Str([t[i]]))
    case Dict(es) =>
      if idx.Str? then GetItem(container, idx.s)
      else Err(KeyError(TypeName(idx)))
    case StrSet(_) => Err(TypeError("'set' object is not subscriptable"))
    case _ => Err(TypeError("'" + TypeName(container) + "' object is not subscriptable"))
  }

  /** With a list of images and an in-range index, the current image is the
      one at that index; an index out of range raises IndexError. */
  lemma CurrentImageAt(s: Session, images: seq<Value>, i: int)
    requires Get(s, ImagesKey) == Some(List(images)) && |images| > 0
    requires Get(s, IndexKey) == Some(Int(i))
    ensures 0 <= i < |images| ==> GetCurrentImage(s) == Ok(images[i])
    ensures (i < -|images| || |images| <= i) ==> GetCurrentImage(s) == Err(IndexError("list index out of range"))
  {
    assert GetOr(s, ImagesKey, List([])) == List(images);
    assert GetOr(s, IndexKey, Int(0)) == Int(i);
    assert GetCurrentImage(s) == Index(images, Int(i));
  }

  /** `v + 1` (step 1) or `v - 1` (step -1). */
  function Step(v: Value, step: int): (r: Result<Value, PyError>)
    requires step == 1 || step == -1
    ensures r.Ok? <==> IsNumber(v)
    ensures IsInt(v) ==> r == Ok(Int(IntOf(v) + step))
    ensures v.Float? ==> r == Ok(Float(v.r + step as real))
  {
    if IsInt(v) then Ok(Int(IntOf(v) + step))
    else if v.Float? then Ok(Float(v.r + step as real))
    else if step == 1 && (v.Str? || v.List?) then
      Err(TypeError("can only concatenate " + TypeName(v) + " (not \"int\") to " + TypeName(v)))
    else
      Err(TypeError("unsupported operand type(s) for " + (if step == 1 then "+" else "-") + ": '" + TypeName(v) + "' and 'int'"))
  }

  /** `v % n` for a positive `n`: Python's result takes the divisor's sign,
      which for a positive divisor is Dafny's Euclidean remainder. */
  function Mod(v: Value, n: nat): (r: Value)
    requires IsNumber(v) && n > 0
    ensures IsInt(v) ==> r.Int? && 0 <= r.i < n
    ensures v.Float? ==> r.Float? && 0.0 <= r.r < n as real
  {
    if IsInt(v) then Int(IntOf(v) % n)
    else
      var q := (v.r / n as real).Floor;
      FloorBounds(v.r, n as real, q);
      Float(v.r - q as real * n as real)
  }

  lemma FloorBounds(x: real, n: real, q: int)
    requires n > 0.0 && q == (x / n).Floor
    ensures q as real * n <= x < q as real * n + n
  {
    var y := x / n;
    assert y * n == x;
    assert q as real <= y < q as real + 1.0;
    var d := y - q as real;
    assert 0.0 <= d < 1.0;
    assert d * n >= 0.0;
    assert (1.0 - d) * n > 0.0;
    assert d * n == x - q as real * n;
  }

  /** Shared body of `next_image` (step 1) and `prev_image` (step -1). */
  function Move(s: Session, step: int): (r: Result<Session, PyError>)
    requires step == 1 || step == -1
    ensures !Truthy(GetOr(s, ImagesKey, List([]))) ==> r == Ok(s)
    ensures r.Ok? ==> Keys(r.value) == Keys(s)
    ensures r.Ok? ==> forall k :: k != IndexKey ==> Get(r.value, k) == Get(s, k)
  {
    var images := GetOr(s, ImagesKey, List([]));
    if !Truthy(images) then Ok(s)
    else if IndexKey !in Keys(s) then Err(KeyError(IndexKey))
    else MoveIndex(s, step, GetOr(s, IndexKey, Null), images)
  }

  /** `s[IndexKey] = (idx + step) % len(images)` */
  function MoveIndex(s: Session, step: int, idx: Value, images: Value): (r: Result<Session, PyError>)
    requires step == 1 || step == -1
    ensures r.Ok? ==> Keys(r.value) == Keys(s) + (if IndexKey in Keys(s) then [] else [IndexKey])
    ensures r.Ok? ==> forall k :: k != IndexKey ==> Get(r.value, k) == Get(s, k)
  {
    var moved := Step(idx, step);
    var n := Len(images);
    if moved.Err? then Err(moved.error)
    else if n.Err? then Err(n.error)
    else if n.value == 0 then Err(ZeroDivisionError)
    else
      var r := Put(s, IndexKey, Mod(moved.value, n.value));
      forall k | k != IndexKey ensures Get(r, k) == Get(s, k) {
        PutOther(s, IndexKey, Mod(moved.value, n.value), k);
      }
      Ok(r)
  }

  /** `AppState.next_image()` */
  function NextImage(s: Session): (r: Result<Session, PyError>)
    ensures !Truthy(GetOr(s, ImagesKey, List([]))) ==> r == Ok(s)
    ensures r.Ok? ==> Keys(r.value) == Keys(s)
  {
    Move(s, 1)
  }

  /** `AppState.prev_image()` */
  function PrevImage(s: Session): (r: Result<Session, PyError>)
    ensures !Truthy(GetOr(s, ImagesKey, List([]))) ==> r == Ok(s)
    ensures r.Ok? ==> Keys(r.value) == Keys(s)
  {
    Move(s, -1)
  }

  /** With n images and an integer index, a move stores the index one step on,
      taken modulo n, which lies in [0, n); nothing else changes. */
  lemma MoveModulo(s: Session, images: seq<Value>, i: int, step: int)
    requires step == 1 || step == -1
    requires Get(s, ImagesKey) == Some(List(images)) && |images| > 0
    requires Get(s, IndexKey) == Some(Int(i))
    ensures Move(s, step) == Ok(Put(s, IndexKey, Int((i + step) % |images|)))
    ensures Get(Move(s, step).value, IndexKey) == Some(Int((i + step) % |images|))
    ensures 0 <= (i + step) % |images| < |images|
    ensures forall k :: k != IndexKey ==> Get(Move(s, step).value, k) == Get(s, k)
  {
    assert GetOr(s, ImagesKey, List([])) == List(images);
    assert GetOr(s, IndexKey, Null) == Int(i);
    assert Move(s, step) == MoveIndex(s, step, Int(i), List(images));
    MoveIndexInt(s, step, i, images);
  }

  lemma MoveIndexInt(s: Session, step: int, i: int, images: seq<Value>)
    requires step == 1 || step == -1
    requires |images| > 0
    ensures MoveIndex(s, step, Int(i), List(images)) == Ok(Put(s, IndexKey, Int((i + step) % |images|)))
  {
    assert Step(Int(i), step) == Ok(Int(i + step));
    assert Len(List(images)) == Ok(|images|);
    assert Mod(Int(i + step), |images|) == Int((i + step) % |images|);
  }

  /** Any move that succeeds leaves a numeric index in [0, n). */
  lemma MoveInRange(s: Session, step: int)
    requires step == 1 || step == -1
    requires Move(s, step).Ok? && Truthy(GetOr(s, ImagesKey, List([])))
    ensures Len(GetOr(s, ImagesKey, List([]))).Ok?
    ensures var idx := GetOr(Move(s, step).value, IndexKey, Null);
            var n := Len(GetOr(s, ImagesKey, List([]))).value;
            (idx.Int? && 0 <= idx.i < n) || (idx.Float? && 0.0 <= idx.r < n as real)
  {
  }

  lemma {:induction false} PutSame(d: Session, k: string, v: Value)
    requires Get(d, k) == Some(v)
    ensures Put(d, k, v) == d
  {
    if d[0].0 == k {
      assert d[0] == (k, v);
      assert [d[0]] + d[1..] == d;
    } else {
      PutCons(d, k, v);
      PutSame(d[1..], k, v);
      assert [d[0]] + d[1..] == d;
    }
  }

  lemma {:induction false} PutPut(d: Session, k: string, v: Value, w: Value)
    ensures Put(Put(d, k, v), k, w) == Put(d, k, w)
  {
    if |d| > 0 && d[0].0 != k {
      PutPut(d[1..], k, v, w);
    }
  }

  /** Next then previous restores an in-range index, and with it the whole
      session. */
  lemma {:induction false} PrevAfterNext(s: Session, images: seq<Value>, i: int)
    requires Get(s, ImagesKey) == Some(List(images))
    requires Get(s, IndexKey) == Some(Int(i)) && 0 <= i < |images|
    ensures NextImage(s).Ok? && PrevImage(NextImage(s).value) == Ok(s)
  {
    MoveModulo(s, images, i, 1);
    var s1 := NextImage(s).value;
    var j := (i + 1) % |images|;
    assert s1 == Put(s, IndexKey, Int(j));
    PutOther(s, IndexKey, Int(j), ImagesKey);
    MoveModulo(s1, images, j, -1);
    StepBack(i, |images|, j);
    assert Move(s1, -1) == Ok(Put(s1, IndexKey, Int(i)));
    PutPut(s, IndexKey, Int(j), Int(i));
    PutSame(s, IndexKey, Int(i));
  }

  lemma StepBack(i: int, n: int, j: int)
    requires 0 <= i < n && j == (i + 1) % n
    ensures (j + -1) % n == i
  {
    if i + 1 < n {
      assert (i + 1) % n == i + 1;
    } else {
      assert (i + 1) % n == 0;
    }
  }

  // ---------------------------------------------------------------
  // update_metrics: merging a metrics snapshot into the stored one
  // ---------------------------------------------------------------

  /** `a + b` on two numbers: an int when both are ints (bools included),
      otherwise a float. */
  function Add(a: Value, b: Value): (r: Value)
    requires IsNumber(a) && IsNumber(b)
    ensures IsNumber(r) && NumberOf(r) == NumberOf(a) + NumberOf(b)
    ensures r.Int? <==> IsInt(a) && IsInt(b)
  {
    if IsInt(a) && IsInt(b) then Int(IntOf(a) + IntOf(b))
    else Float(NumberOf(a) + NumberOf(b))
  }

  /** What one key of the snapshot does to the stored value under that key. */
  function Combine(stored: Option<Value>, incoming: Value): Value {
    match stored
    case None => incoming
    case Some(o) =>
      if IsNumber(incoming) && IsNumber(o) then Add(o, incoming)
      else if incoming.List? && o.List? then List(o.items + incoming.items)
      else incoming
  }

  /** The loop of `update_metrics`, applied to the stored dict `m`. */
  function MergeInto(m: seq<(string, Value)>, snapshot: seq<(string, Value)>): (r: seq<(string, Value)>)
    decreases |snapshot|
  {
    if |snapshot| == 0 then m
    else
      var k := snapshot[0].0;
      MergeInto(Put(m, k, Combine(Get(m, k), snapshot[0].1)), snapshot[1..])
  }

  /** Key by key, a merge of a dict snapshot combines the stored value with the
      snapshot's value for every snapshot key and leaves every other key as it
      was. */
  lemma {:induction false} MergeGet(m: seq<(string, Value)>, snapshot: seq<(string, Value)>, k: string)
    requires DistinctKeys(snapshot)
    ensures k in Keys(snapshot) ==> Get(MergeInto(m, snapshot), k) == Some(Combine(Get(m, k), Get(snapshot, k).value))
    ensures k !in Keys(snapshot) ==> Get(MergeInto(m, snapshot), k) == Get(m, k)
    decreases |snapshot|
  {
    if |snapshot| > 0 {
      var k0 := snapshot[0].0;
      var v0 := snapshot[0].1;
      var m' := Put(m, k0, Combine(Get(m, k0), v0));
      KeysSplit(snapshot);
      DistinctTail(snapshot);
      MergeGet(m', snapshot[1..], k);
      if k != k0 {
        PutOther(m, k0, Combine(Get(m, k0), v0), k);
      }
    }
  }

  /** The merged dict keeps the stored keys in place and appends the snapshot's
      new keys. */
  lemma MergeKeys(m: seq<(string, Value)>, snapshot: seq<(string, Value)>)
    ensures |Keys(m)| <= |Keys(MergeInto(m, snapshot))|
    ensures Keys(MergeInto(m, snapshot))[..|m|] == Keys(m)
    ensures forall k :: k in Keys(MergeInto(m, snapshot)) <==> k in Keys(m) || k in Keys(snapshot)
  {
    MergeKeysPrefix(m, snapshot);
    forall k ensures k in Keys(MergeInto(m, snapshot)) <==> k in Keys(m) || k in Keys(snapshot) {
      MergeKeysMember(m, snapshot, k);
    }
  }

  /** The stored keys stay in front, in their order. */
  lemma {:induction false} MergeKeysPrefix(m: seq<(string, Value)>, snapshot: seq<(string, Value)>)
    ensures |m| <= |MergeInto(m, snapshot)|
    ensures Keys(MergeInto(m, snapshot))[..|m|] == Keys(m)
    decreases |snapshot|
  {
    if |snapshot| > 0 {
      var k0 := snapshot[0].0;
      var m' := Put(m, k0, Combine(Get(m, k0), snapshot[0].1));
      MergeKeysPrefix(m', snapshot[1..]);
      PrefixOfPrefix(Keys(MergeInto(m', snapshot[1..])), Keys(m'), |m|);
    }
  }

  lemma PrefixOfPrefix(a: seq<string>, b: seq<string>, n: nat)
    requires n <= |b| <= |a| && a[..|b|] == b
    ensures a[..n] == b[..n]
  {
    assert forall i :: 0 <= i < n ==> a[i] == a[..|b|][i];
  }

  /** A key is present after the merge iff it was stored or is in the snapshot. */
  lemma {:induction false} MergeKeysMember(m: seq<(string, Value)>, snapshot: seq<(string, Value)>, k: string)
    ensures k in Keys(MergeInto(m, snapshot)) <==> k in Keys(m) || k in Keys(snapshot)
    decreases |snapshot|
  {
    if |snapshot| > 0 {
      var k0 := snapshot[0].0;
      var m' := Put(m, k0, Combine(Get(m, k0), snapshot[0].1));
      MergeKeysMember(m', snapshot[1..], k);
      KeysSplit(snapshot);
    }
  }

  /** Both numbers: the merged value is the sum. */
  lemma MergeAddsNumbers(m: seq<(string, Value)>, snapshot: seq<(string, Value)>, k: string, a: Value, b: Value)
    requires DistinctKeys(snapshot)
    requires Get(m, k) == Some(a) && Get(snapshot, k) == Some(b)
    requires IsNumber(a) && IsNumber(b)
    ensures Get(MergeInto(m, snapshot), k) == Some(Add(a, b))
  {
    assert k in Keys(snapshot);
    MergeGet(m, snapshot, k);
  }

  /** Both lists: the merged value is the stored list followed by the new one. */
  lemma {:induction false} MergeConcatenatesLists(m: seq<(string, Value)>, snapshot: seq<(string, Value)>, k: string, a: seq<Value>, b: seq<Value>)
    requires DistinctKeys(snapshot)
    requires Get(m, k) == Some(List(a)) && Get(snapshot, k) == Some(List(b))
    ensures Get(MergeInto(m, snapshot), k) == Some(List(a + b))
  {
    assert k in Keys(snapshot);
    MergeGet(m, snapshot, k);
    CombineLists(a, b);
  }

  lemma CombineLists(a: seq<Value>, b: seq<Value>)
    ensures Combine(Some(List(a)), List(b)) == List(a + b)
  {
  }

  /** Anything else, or a key the store lacks: the snapshot's value wins. */
  lemma MergeOverwrites(m: seq<(string, Value)>, snapshot: seq<(string, Value)>, k: string, b: Value)
    requires DistinctKeys(snapshot)
    requires Get(snapshot, k) == Some(b)
    requires forall a :: Get(m, k) == Some(a) ==> !(IsNumber(a) && IsNumber(b)) && !(a.List? && b.List?)
    ensures Get(MergeInto(m, snapshot), k) == Some(b)
  {
    MergeGet(m, snapshot, k);
  }

  /** Keys the snapshot does not mention keep their stored value. */
  lemma MergeLeavesOthers(m: seq<(string, Value)>, snapshot: seq<(string, Value)>, k: string)
    requires DistinctKeys(snapshot)
    requires k !in Keys(snapshot)
    ensures Get(MergeInto(m, snapshot), k) == Get(m, k)
  {
    MergeGet(m, snapshot, k);
  }

  /** Merging into the empty dict yields the snapshot itself. */
  lemma {:induction false} MergeIntoEmpty(snapshot: seq<(string, Value)>)
    requires DistinctKeys(snapshot)
    ensures MergeInto([], snapshot) == snapshot
  {
    MergeFresh([], snapshot);
  }

  lemma {:induction false} MergeFresh(m: seq<(string, Value)>, snapshot: seq<(string, Value)>)
    requires DistinctKeys(snapshot)
    requires forall k :: k in Keys(snapshot) ==> k !in Keys(m)
    ensures MergeInto(m, snapshot) == m + snapshot
    decreases |snapshot|
  {
    if |snapshot| > 0 {
      var rest := snapshot[1..];
      MergeFreshStep(m, snapshot);
      MergeFresh(m + [snapshot[0]], rest);
      Seqs.AppendAssoc(m, [snapshot[0]], rest);
      assert [snapshot[0]] + rest == snapshot;
    }
  }

  /** A snapshot key the store lacks is appended with its own value. */
  lemma MergeFreshStep(m: seq<(string, Value)>, snapshot: seq<(string, Value)>)
    requires |snapshot| > 0 && DistinctKeys(snapshot)
    requires forall k :: k in Keys(snapshot) ==> k !in Keys(m)
    ensures MergeInto(m, snapshot) == MergeInto(m + [snapshot[0]], snapshot[1..])
    ensures DistinctKeys(snapshot[1..])
    ensures forall k :: k in Keys(snapshot[1..]) ==> k !in Keys(m + [snapshot[0]])
  {
    var k0 := snapshot[0].0;
    var v0 := snapshot[0].1;
    KeysSplit(snapshot);
    DistinctTail(snapshot);
    assert k0 in Keys(snapshot);
    PutAppends(m, k0, v0);
    assert (k0, v0) == snapshot[0];
    assert Keys(m + [snapshot[0]]) == Keys(m) + [k0];
  }

  lemma PutAppends(d: seq<(string, Value)>, k: string, v: Value)
    requires k !in Keys(d)
    ensures Put(d, k, v) == d + [(k, v)]
  {
    forall i | 0 <= i < |d| ensures d[i].0 != k {
      assert Keys(d)[i] == d[i].0;
    }
    PutAbsent(d, k, v);
  }

  lemma {:induction false} PutAbsent(d: seq<(string, Value)>, k: string, v: Value)
    requires forall i :: 0 <= i < |d| ==> d[i].0 != k
    ensures Put(d, k, v) == d + [(k, v)]
  {
    if |d| > 0 {
      TailAbsent(d, k);
      PutAbsent(d[1..], k, v);
      PutCons(d, k, v);
      ConsAppend(d, [(k, v)]);
    }
  }

  lemma TailAbsent(d: seq<(string, Value)>, k: string)
    requires forall i :: 0 <= i < |d| ==> d[i].0 != k
    requires |d| > 0
    ensures forall i :: 0 <= i < |d[1..]| ==> d[1..][i].0 != k
  {
    forall i | 0 <= i < |d[1..]| ensures d[1..][i].0 != k {
      assert d[1..][i] == d[i + 1];
    }
  }

  lemma PutCons(d: seq<(string, Value)>, k: string, v: Value)
    requires |d| > 0 && d[0].0 != k
    ensures Put(d, k, v) == [d[0]] + Put(d[1..], k, v)
  {
  }

  lemma ConsAppend(d: seq<(string, Value)>, e: seq<(string, Value)>)
    requires |d| > 0
    ensures [d[0]] + (d[1..] + e) == d + e
  {
    assert [d[0]] + d[1..] == d;
  }

  /** Merging the same snapshot twice counts its lists twice: this is how the
      store double-counts when a snapshot is merged again. */
  lemma {:induction false} MergeTwiceDoubles(m: seq<(string, Value)>, snapshot: seq<(string, Value)>, k: string, a: seq<Value>, b: seq<Value>)
    requires DistinctKeys(snapshot)
    requires Get(m, k) == Some(List(a)) && Get(snapshot, k) == Some(List(b))
    ensures Get(MergeInto(MergeInto(m, snapshot), snapshot), k) == Some(List(a + b + b))
  {
    MergeConcatenatesLists(m, snapshot, k, a, b);
    MergeConcatenatesLists(MergeInto(m, snapshot), snapshot, k, a + b, b);
  }

  /** Why the first snapshot entry `(key, value)` fails on a stored value
      that is not a dict (the loop stops there): `key in metrics` needs an
      iterable; `metrics[key]` is read only when the key is found and the
      new value is a number or a list, because the `isinstance(value, ...)`
      tests short-circuit; every other path ends in `metrics[key] = value`. */
  function NonDictError(m: Value, key: string, value: Value): (e: PyError)
    requires !m.Dict? && !m.Null?
    ensures e.TypeError?
  {
    var readsItem := IsNumber(value) || value.List?;
    match m
    case Str(t) =>
      if Contains(t, key) && readsItem then TypeError("string indices must be integers, not 'str'")
      else TypeError("'str' object does not support item assignment")
    case List(_) => TypeError("list indices must be integers or slices, not str")
    case StrSet(es) =>
      if key in es && readsItem then TypeError("'set' object is not subscriptable")
      else TypeError("'set' object does not support item assignment")
    case _ => TypeError("argument of type '" + TypeName(m) + "' is not iterable")
  }

  /** `AppState.update_metrics(new_data)` for a dict `new_data`. */
  function UpdateMetrics(s: Session, snapshot: seq<(string, Value)>): (r: Result<Session, PyError>)
    ensures r.Err? <==> (exists v :: Get(s, "metrics") == Some(v) && !v.Dict? && !v.Null?) && |snapshot| > 0
    ensures (forall v :: Get(s, "metrics") == Some(v) ==> v.Null? || v.Dict?) ==> GetOr(r.value, "metrics", Null).Dict?
    ensures (exists v :: Get(s, "metrics") == Some(v) && !v.Dict? && !v.Null?) && |snapshot| == 0 ==> r == Ok(s)
    ensures r.Ok? ==> Keys(r.value) == if "metrics" in Keys(s) then Keys(s) else Keys(s) + ["metrics"]
    ensures r.Ok? ==> forall k :: k != "metrics" ==> Get(r.value, k) == Get(s, k)
  {
    var stored := GetOr(s, "metrics", Null);
    if stored.Null? || stored.Dict? then
      var base := if stored.Dict? then stored.entries else [];
      var r := Put(s, "metrics", Dict(MergeInto(base, snapshot)));
      forall k | k != "metrics" ensures Get(r, k) == Get(s, k) {
        PutOther(s, "metrics", Dict(MergeInto(base, snapshot)), k);
      }
      Ok(r)
    else if |snapshot| == 0 then Ok(s)
    else Err(NonDictError(stored, snapshot[0].0, snapshot[0].1))
  }

  /** With no stored metrics (missing or `None`), the store afterwards holds
      exactly the snapshot. */
  lemma UpdateFromNothing(s: Session, snapshot: seq<(string, Value)>)
    requires DistinctKeys(snapshot)
    requires forall v :: Get(s, "metrics") == Some(v) ==> v.Null?
    ensures UpdateMetrics(s, snapshot).Ok?
    ensures Get(UpdateMetrics(s, snapshot).value, "metrics") == Some(Dict(snapshot))
  {
    MergeIntoEmpty(snapshot);
  }

  /** With a stored dict, the store afterwards holds the key-wise merge. */
  lemma UpdateMerges(s: Session, m: seq<(string, Value)>, snapshot: seq<(string, Value)>, k: string)
    requires DistinctKeys(snapshot)
    requires Get(s, "metrics") == Some(Dict(m))
    ensures UpdateMetrics(s, snapshot).Ok?
    ensures var stored := GetOr(UpdateMetrics(s, snapshot).value, "metrics", Null);
            stored.Dict? && Get(stored.entries, k) ==
              match Get(snapshot, k)
              case Some(v) => Some(Combine(Get(m, k), v))
              case None => Get(m, k)
  {
    MergeGet(m, snapshot, k);
  }

  /** The exception for a stored metrics that is not a dict, by the first
      snapshot entry `(k, v)`: a number cannot be searched, a list rejects a
      string index either way, and a string or set is subscripted only when
      it holds `k` and `v` is a number or a list; otherwise the assignment
      fails, whether or not `k` is found. */
  lemma UpdateNonDictError(s: Session, snapshot: seq<(string, Value)>, m: Value)
    requires Get(s, "metrics") == Some(m) && !m.Dict? && !m.Null? && |snapshot| > 0
    ensures IsNumber(m) ==>
      UpdateMetrics(s, snapshot) == Err(TypeError("argument of type '" + TypeName(m) + "' is not iterable"))
    ensures m.List? ==>
      UpdateMetrics(s, snapshot) == Err(TypeError("list indices must be integers or slices, not str"))
    ensures m.Str? && !(IsNumber(snapshot[0].1) || snapshot[0].1.List?) ==>
      UpdateMetrics(s, snapshot) == Err(TypeError("'str' object does not support item assignment"))
    ensures m.Str? && Contains(m.s, snapshot[0].0) && (IsNumber(snapshot[0].1) || snapshot[0].1.List?) ==>
      UpdateMetrics(s, snapshot) == Err(TypeError("string indices must be integers, not 'str'"))
    ensures m.StrSet? && !(IsNumber(snapshot[0].1) || snapshot[0].1.List?) ==>
      UpdateMetrics(s, snapshot) == Err(TypeError("'set' object does not support item assignment"))
    ensures m.StrSet? && snapshot[0].0 in m.elems && (IsNumber(snapshot[0].1) || snapshot[0].1.List?) ==>
      UpdateMetrics(s, snapshot) == Err(TypeError("'set' object is not subscriptable"))
  {
  }

  /** A stored string that holds the key but is handed a string is
      overwritten, not read, so the assignment is what fails. */
  lemma StoredTextOverwritten()
    ensures UpdateMetrics([("metrics", Str("abc"))], [("a", Str("x"))]) ==
      Err(TypeError("'str' object does not support item assignment"))
  {
  }

  /** Likewise for a stored set that holds the key. */
  lemma StoredSetOverwritten()
    ensures UpdateMetrics([("metrics", StrSet(["a"]))], [("a", Null)]) ==
      Err(TypeError("'set' object does not support item assignment"))
  {
  }

  /** Handed a number, a stored string that holds the key is read first. */
  lemma StoredTextRead()
    ensures UpdateMetrics([("metrics", Str("abc"))], [("a", Int(1))]) ==
      Err(TypeError("string indices must be integers, not 'str'"))
  {
    assert OccursAt("abc", "a", 0);
  }
}

=== FILE: string_order.dfy ===
/** Python's ordering on `str` (lexicographic by code point) and `sorted`
    on a collection of strings, which the evaluator uses to put sets into a
    canonical order. */
module StringOrder {
  import Seqs

  /** `a <= b` for Python strings. */
  predicate Le(a: string, b: string)
    decreases |a|
  {
    |a| == 0 || (|b| > 0 && (a[0] < b[0] || (a[0] == b[0] && Le(a[1..], b[1..]))))
  }

  lemma {:induction false} LeTotal(a: string, b: string)
    ensures Le(a, b) || Le(b, a)
    decreases |a|
  {
    if |a| > 0 && |b| > 0 && a[0] == b[0] {
      LeTotal(a[1..], b[1..]);
    }
  }

  lemma {:induction false} LeAntisymmetric(a: string, b: string)
    requires Le(a, b) && Le(b, a)
    ensures a == b
    decreases |a|
  {
    if |a| > 0 {
      LeAntisymmetric(a[1..], b[1..]);
      assert a == [a[0]] + a[1..] && b == [b[0]] + b[1..];
    }
  }

  lemma {:induction false} LeTransitive(a: string, b: string, c: string)
    requires Le(a, b) && Le(b, c)
    ensures Le(a, c)
    decreases |a|
  {
    if |a| > 0 && a[0] == b[0] && b[0] == c[0] {
      LeTransitive(a[1..], b[1..], c[1..]);
    }
  }

  /** Adjacent elements are in order. */
  predicate Sorted(s: seq<string>) {
    forall i :: 0 < i < |s| ==> Le(s[i - 1], s[i])
  }

  /** The first element of a sorted sequence is below every element. */
  lemma {:induction false} SortedFirstIsLeast(s: seq<string>, j: int)
    requires Sorted(s) && 0 <= j < |s|
    ensures Le(s[0], s[j])
    decreases j
  {
    if j == 0 {
      LeTotal(s[0], s[0]);
    } else {
      SortedFirstIsLeast(s, j - 1);
      LeTransitive(s[0], s[j - 1], s[j]);
    }
  }

  /** Inserts `x` into a sorted sequence. */
  function Insert(x: string, s: seq<string>): (r: seq<string>)
    requires Sorted(s)
    ensures Sorted(r)
    ensures multiset(r) == multiset(s) + multiset{x}
    ensures r[0] == x || (|s| > 0 && r[0] == s[0])
  {
    if |s| == 0 then [x]
    else if Le(x, s[0]) then [x] + s
    else
      LeTotal(x, s[0]);
      var rest := Insert(x, s[1..]);
      assert s == [s[0]] + s[1..];
      [s[0]] + rest
  }

  /** `sorted(xs)` */
  function Sort(s: seq<string>): (r: seq<string>)
    ensures Sorted(r)
    ensures multiset(r) == multiset(s)
  {
    if |s| == 0 then []
    else
      assert s == [s[0]] + s[1..];
      Insert(s[0], Sort(s[1..]))
  }

  /** Two sorted sequences holding the same elements are equal. */
  lemma {:induction false} SortedUnique(s: seq<string>, t: seq<string>)
    requires Sorted(s) && Sorted(t)
    requires multiset(s) == multiset(t)
    ensures s == t
    decreases |s|
  {
    assert |s| == |multiset(s)| == |t|;
    if |s| > 0 {
      assert s[0] in multiset(t);
      var j :| 0 <= j < |t| && t[j] == s[0];
      assert t[0] in multiset(s);
      var i :| 0 <= i < |s| && s[i] == t[0];
      SortedFirstIsLeast(t, j);
      SortedFirstIsLeast(s, i);
      LeAntisymmetric(s[0], t[0]);
      Seqs.MultisetTail(s, t);
      SortedUnique(s[1..], t[1..]);
    }
  }

  /** `sorted` depends only on which elements there are, not on their order. */
  lemma SortCanonical(a: seq<string>, b: seq<string>)
    requires multiset(a) == multiset(b)
    ensures Sort(a) == Sort(b)
  {
    SortedUnique(Sort(a), Sort(b));
  }
}

=== FILE: text.dfy ===
/** The pieces of Python's `str` API the core relies on, restricted to ASCII:
    `lower`, `isspace`, `strip`, `split`, `startswith`/`endswith`, `replace`
    and `str(int)`. */
module Text {

  /** `c.isspace()` for ASCII characters: tab, line feed, vertical tab, form
      feed, carriage return, the four information separators and space. */
  predicate IsSpace(c: char) {
    c == ' ' || ('\t' <= c <= '\r') || ('\U{1C}' <= c <= '\U{1F}')
  }

  predicate IsLowerAlnum(c: char) {
    ('a' <= c <= 'z') || ('0' <= c <= '9')
  }

  /** `c.lower()` on ASCII: only `A`..`Z` change. */
  function LowerChar(c: char): (r: char)
    ensures 'A' <= c <= 'Z' ==> 'a' <= r <= 'z'
    ensures !('A' <= c <= 'Z') ==> r == c
  {
    if 'A' <= c <= 'Z' then (c as int + 32) as char else c
  }

  function Lower(s: string): (r: string)
    ensures |r| == |s|
    ensures forall i :: 0 <= i < |s| ==> r[i] == LowerChar(s[i])
  {
    seq(|s|, i requires 0 <= i < |s| => LowerChar(s[i]))
  }

  // ---------------------------------------------------------------
  // strip / split
  // ---------------------------------------------------------------

  /** `s.lstrip()`: the suffix left after dropping leading whitespace. */
  function StripLeft(s: string): (r: string)
    ensures |r| <= |s| && r == s[|s| - |r|..]
    ensures forall k :: 0 <= k < |s| - |r| ==> IsSpace(s[k])
    ensures |r| > 0 ==> !IsSpace(r[0])
  {
    if |s| == 0 then s
    else if IsSpace(s[0]) then StripLeft(s[1..])
    else s
  }

  /** `s.rstrip()`: the prefix left after dropping trailing whitespace. */
  function StripRight(s: string): (r: string)
    ensures |r| <= |s| && r == s[..|r|]
    ensures forall k :: |r| <= k < |s| ==> IsSpace(s[k])
    ensures |r| > 0 ==> !IsSpace(r[|r| - 1])
  {
    if |s| == 0 then s
    else if IsSpace(s[|s| - 1]) then StripRight(s[..|s| - 1])
    else s
  }

  /** `s.strip()` */
  function Strip(s: string): (r: string)
    ensures |r| > 0 ==> !IsSpace(r[0]) && !IsSpace(r[|r| - 1])
    ensures OccursAt(s, r, |s| - |StripLeft(s)|)
  {
    var l := StripLeft(s);
    var r := StripRight(l);
    PrefixOfSuffix(s, l, r);
    r
  }

  /** A prefix `r` of a suffix `l` of `s` occurs in `s` where `l` starts, and
      starts with `l`'s first character. */
  lemma PrefixOfSuffix(s: string, l: string, r: string)
    requires |l| <= |s| && l == s[|s| - |l|..]
    requires |r| <= |l| && r == l[..|r|]
    ensures OccursAt(s, r, |s| - |l|)
    ensures |r| > 0 ==> r[0] == l[0]
  {
  }

  /** `s.strip()` is empty exactly when `s` is all whitespace. */
  lemma StripEmpty(s: string)
    ensures |Strip(s)| == 0 <==> forall k :: 0 <= k < |s| ==> IsSpace(s[k])
  {
    var l := StripLeft(s);
    var off := |s| - |l|;
    if |l| > 0 {
      assert StripRight(l)[0] == l[0];
    }
    if |Strip(s)| > 0 {
      assert !IsSpace(s[off]);
    }
  }

  /** The first whitespace-free run of a string. */
  function TakeWord(t: string): (w: string)
    ensures |w| <= |t| && w == t[..|w|]
    ensures forall k :: 0 <= k < |w| ==> !IsSpace(w[k])
    ensures |w| < |t| ==> IsSpace(t[|w|])
  {
    if |t| == 0 || IsSpace(t[0]) then [] else [t[0]] + TakeWord(t[1..])
  }

  /** `s.split()` with no separator: the maximal whitespace-free runs. */
  function Words(s: string): seq<string>
    decreases |s|
  {
    var t := StripLeft(s);
    if |t| == 0 then []
    else
      var w := TakeWord(t);
      [w] + Words(t[|w|..])
  }

  /** Every word is non-empty and free of whitespace. */
  lemma WordsShape(s: string)
    ensures forall i :: 0 <= i < |Words(s)| ==> |Words(s)[i]| > 0 && NoSpace(Words(s)[i])
    decreases |s|
  {
    var t := StripLeft(s);
    if |t| > 0 {
      WordsShape(t[|TakeWord(t)|..]);
    }
  }

  predicate NoSpace(w: string) {
    forall k :: 0 <= k < |w| ==> !IsSpace(w[k])
  }

  lemma WordsEmpty(s: string)
    ensures Words(s) == [] <==> forall k :: 0 <= k < |s| ==> IsSpace(s[k])
  {
    var t := StripLeft(s);
    if |t| > 0 {
      assert !IsSpace(s[|s| - |t|]);
    }
  }

  /** Words starting with a non-space character. */
  predicate StartsWord(x: string) {
    |x| > 0 && !IsSpace(x[0])
  }

  /** A leading whitespace character separates nothing. */
  lemma WordsSpaceCons(c: char, x: string)
    requires IsSpace(c)
    ensures Words([c] + x) == Words(x)
  {
    assert ([c] + x)[1..] == x;
  }

  /** A leading non-space character either starts the first word of `x`
      or forms a word of its own. */
  lemma WordsWordCons(c: char, x: string)
    requires !IsSpace(c)
    ensures Words([c] + x) ==
      if StartsWord(x) then [[c] + Words(x)[0]] + Words(x)[1..] else [[c]] + Words(x)
  {
    var s := [c] + x;
    assert s[1..] == x;
    assert StripLeft(s) == s;
    assert TakeWord(s) == [c] + TakeWord(x);
    if StartsWord(x) {
      assert StripLeft(x) == x;
      assert s[|TakeWord(s)|..] == x[|TakeWord(x)|..];
    } else {
      assert TakeWord(x) == [];
      assert s[1..] == x;
    }
  }

  /** A trailing whitespace character separates nothing. */
  lemma {:induction false} WordsSpaceSnoc(x: string, c: char)
    requires IsSpace(c)
    ensures Words(x + [c]) == Words(x)
    decreases |x|
  {
    if |x| == 0 {
      assert x + [c] == [c] + x;
      WordsSpaceCons(c, x);
    } else {
      var y := x[1..];
      assert x == [x[0]] + y;
      assert x + [c] == [x[0]] + (y + [c]);
      WordsSpaceSnoc(y, c);
      if IsSpace(x[0]) {
        WordsSpaceCons(x[0], y + [c]);
        WordsSpaceCons(x[0], y);
      } else {
        WordsWordCons(x[0], y + [c]);
        WordsWordCons(x[0], y);
      }
    }
  }

  /** `lstrip` keeps the words. */
  lemma WordsStripLeft(s: string)
    ensures Words(StripLeft(s)) == Words(s)
  {
    var t := StripLeft(s);
    assert StripLeft(t) == t;
  }

  /** `rstrip` keeps the words. */
  lemma {:induction false} WordsStripRight(s: string)
    ensures Words(StripRight(s)) == Words(s)
    decreases |s|
  {
    if |s| > 0 && IsSpace(s[|s| - 1]) {
      var x := s[..|s| - 1];
      assert s == x + [s[|s| - 1]];
      WordsSpaceSnoc(x, s[|s| - 1]);
      WordsStripRight(x);
    }
  }

  /** `strip` keeps the words. */
  lemma WordsStrip(s: string)
    ensures Words(Strip(s)) == Words(s)
  {
    WordsStripLeft(s);
    WordsStripRight(StripLeft(s));
  }

  // ---------------------------------------------------------------
  // prefixes, suffixes, search and replace
  // ---------------------------------------------------------------

  predicate StartsWith(s: string, p: string) {
    |p| <= |s| && s[..|p|] == p
  }

  predicate EndsWith(s: string, p: string) {
    |p| <= |s| && s[|s| - |p|..] == p
  }

  /** `p` occurs in `s` starting at index `i`. */
  predicate OccursAt(s: string, p: string, i: int) {
    0 <= i <= |s| - |p| && s[i..i + |p|] == p
  }

  /** `p in s` */
  predicate Contains(s: string, p: string) {
    exists i :: 0 <= i <= |s| - |p| && OccursAt(s, p, i)
  }

  /** `s.replace(p, q)` for a non-empty `p`: non-overlapping occurrences,
      found left to right. */
  function Replace(s: string, p: string, q: string): string
    requires |p| > 0
    decreases |s|
  {
    if |s| == 0 then []
    else if StartsWith(s, p) then q + Replace(s[|p|..], p, q)
    else [s[0]] + Replace(s[1..], p, q)
  }

  /** Replacing a pattern that does not occur changes nothing. */
  lemma {:induction false} ReplaceAbsent(s: string, p: string, q: string)
    requires |p| > 0 && !Contains(s, p)
    ensures Replace(s, p, q) == s
    decreases |s|
  {
    if |s| > 0 {
      assert !OccursAt(s, p, 0);
      assert !Contains(s[1..], p) by {
        if Contains(s[1..], p) {
          var i :| 0 <= i <= |s[1..]| - |p| && OccursAt(s[1..], p, i);
          assert s[i + 1..i + 1 + |p|] == s[1..][i..i + |p|];
          assert OccursAt(s, p, i + 1);
        }
      }
      ReplaceAbsent(s[1..], p, q);
      assert s == [s[0]] + s[1..];
    }
  }

  /** A string with no whitespace at either end is its own `strip()`. */
  lemma StripStripped(s: string)
    requires |s| > 0 ==> !IsSpace(s[0]) && !IsSpace(s[|s| - 1])
    ensures Strip(s) == s
  {
  }

  /** `strip()` returns a piece of its argument, so a pattern absent from
      the argument is absent from the result. */
  lemma StripKeepsAbsent(s: string, p: string)
    requires !Contains(s, p)
    ensures !Contains(Strip(s), p)
  {
    var r := Strip(s);
    var off := |s| - |StripLeft(s)|;
    if Contains(r, p) {
      var i :| 0 <= i <= |r| - |p| && OccursAt(r, p, i);
      assert r == s[off..off + |r|];
      assert s[off + i..off + i + |p|] == r[i..i + |p|];
      assert OccursAt(s, p, off + i);
    }
  }

  /** `s.split(sep)[0]`: everything before the first `sep`. */
  function BeforeFirst(s: string, sep: char): (r: string)
    ensures |r| <= |s| && r == s[..|r|]
    ensures sep !in r
    ensures |r| < |s| ==> s[|r|] == sep
  {
    if |s| == 0 || s[0] == sep then [] else [s[0]] + BeforeFirst(s[1..], sep)
  }

  // ---------------------------------------------------------------
  // str(n)
  // ---------------------------------------------------------------

  function DigitChar(d: nat): char
    requires d < 10
  {
    "0123456789"[d]
  }

  /** `str(n)` for a natural number. */
  function NatToString(n: nat): (r: string)
    ensures |r| > 0
    ensures forall k :: 0 <= k < |r| ==> '0' <= r[k] <= '9'
  {
    if n < 10 then [DigitChar(n)] else NatToString(n / 10) + [DigitChar(n % 10)]
  }
}

=== FILE: ui.dfy ===
/** The pure helpers of the Streamlit UI wrapper: clearing a JSON document
    down to its shape, checking that a text input is not blank, and the
    default widget key of a button. */
module StreamlitUi {
  import opened Wrappers
  import opened Values
  import opened Text

  // ---------------------------------------------------------------
  // clear_json_values
  // ---------------------------------------------------------------

  /** `clear_json_values(data)`: dicts keep their keys, lists their length,
      and every other value becomes `""`. */
  function ClearJsonValues(v: Value): (r: Value)
    ensures v.Dict? ==> r.Dict? && Keys(r.entries) == Keys(v.entries)
    ensures v.List? ==> r.List? && |r.items| == |v.items|
    ensures !v.Dict? && !v.List? ==> r == Str("")
    decreases v, 1
  {
    match v
    case Dict(es) => Dict(ClearEntries(v))
    case List(xs) => List(ClearItems(v))
    case _ => Str("")
  }

  function ClearEntries(v: Value): (r: seq<(string, Value)>)
    requires v.Dict?
    ensures |r| == |v.entries|
    ensures forall i :: 0 <= i < |r| ==> r[i].0 == v.entries[i].0
    decreases v, 0
  {
    seq(|v.entries|, i requires 0 <= i < |v.entries| => (v.entries[i].0, ClearJsonValues(v.entries[i].1)))
  }

  function ClearItems(v: Value): (r: seq<Value>)
    requires v.List?
    ensures |r| == |v.items|
    decreases v, 0
  {
    seq(|v.items|, i requires 0 <= i < |v.items| => ClearJsonValues(v.items[i]))
  }

  /** Two documents with the same structure: the same keys in the same order
      at every dict, the same length at every list, and leaves opposite
      leaves. */
  predicate SameShape(a: Value, b: Value) {
    match a
    case Dict(es) =>
      && b.Dict? && |b.entries| == |es|
      && forall i :: 0 <= i < |es| ==> b.entries[i].0 == es[i].0 && SameShape(es[i].1, b.entries[i].1)
    case List(xs) =>
      && b.List? && |b.items| == |xs|
      && forall i :: 0 <= i < |xs| ==> SameShape(xs[i], b.items[i])
    case _ => !b.Dict? && !b.List?
  }

  /** A document whose every leaf is the empty string. */
  predicate IsCleared(v: Value) {
    match v
    case Dict(es) => forall i :: 0 <= i < |es| ==> IsCleared(es[i].1)
    case List(xs) => forall i :: 0 <= i < |xs| ==> IsCleared(xs[i])
    case Str(s) => s == ""
    case _ => false
  }

  /** The result keeps the document's structure and blanks every leaf. */
  lemma {:induction false} ClearKeepsShape(v: Value)
    ensures SameShape(v, ClearJsonValues(v))
    ensures IsCleared(ClearJsonValues(v))
    decreases v
  {
    match v
    case Dict(es) =>
      var r := ClearEntries(v);
      forall i | 0 <= i < |es| ensures SameShape(es[i].1, r[i].1) && IsCleared(r[i].1) {
        ClearKeepsShape(es[i].1);
      }
    case List(xs) =>
      var r := ClearItems(v);
      forall i | 0 <= i < |xs| ensures SameShape(xs[i], r[i]) && IsCleared(r[i]) {
        ClearKeepsShape(xs[i]);
      }
    case _ =>
  }

  /** It is the only such document: any blanked document with the same
      structure as `v` is the cleared `v`. */
  lemma {:induction false} ClearUnique(v: Value, w: Value)
    requires SameShape(v, w) && IsCleared(w)
    ensures w == ClearJsonValues(v)
    decreases v
  {
    match v
    case Dict(es) =>
      var r := ClearEntries(v);
      forall i | 0 <= i < |es| ensures w.entries[i] == r[i] {
        ClearUnique(es[i].1, w.entries[i].1);
      }
      assert w.entries == r;
    case List(xs) =>
      var r := ClearItems(v);
      forall i | 0 <= i < |xs| ensures w.items[i] == r[i] {
        ClearUnique(xs[i], w.items[i]);
      }
      assert w.items == r;
    case _ =>
  }

  lemma {:induction false} SameShapeReflexive(v: Value)
    ensures SameShape(v, v)
    decreases v
  {
    match v
    case Dict(es) =>
      forall i | 0 <= i < |es| ensures SameShape(es[i].1, es[i].1) {
        SameShapeReflexive(es[i].1);
      }
    case List(xs) =>
      forall i | 0 <= i < |xs| ensures SameShape(xs[i], xs[i]) {
        SameShapeReflexive(xs[i]);
      }
    case _ =>
  }

  /** Clearing a cleared document changes nothing. */
  lemma ClearIdempotent(v: Value)
    ensures ClearJsonValues(ClearJsonValues(v)) == ClearJsonValues(v)
  {
    var c := ClearJsonValues(v);
    ClearKeepsShape(v);
    SameShapeReflexive(c);
    ClearUnique(c, c);
  }

  // ---------------------------------------------------------------
  // validate_non_empty
  // ---------------------------------------------------------------

  /** The outcome of a validation: whether it passed, and the error shown
      when it did not. */
  datatype Validation = Validation(ok: bool, shown: Option<string>)

  /** `validate_non_empty(caption, text)`: the text must have something left
      after `strip()`; otherwise `"<caption> cannot be empty."` is shown. */
  function ValidateNonEmpty(caption: string, text: string): (r: Validation)
    ensures r.ok <==> exists k :: 0 <= k < |text| && !IsSpace(text[k])
    ensures r.ok <==> r.shown.None?
    ensures !r.ok ==> r.shown == Some(caption + " cannot be empty.")
  {
    StripEmpty(text);
    if |Strip(text)| == 0 then Validation(false, Some(caption + " cannot be empty."))
    else Validation(true, None)
  }

  /** Validation accepts exactly the texts `split()` finds a word in, so
      padding with whitespace never changes the verdict. */
  lemma ValidateAgreesWithWords(caption: string, text: string, pad: string, pad': string)
    requires forall k :: 0 <= k < |pad| ==> IsSpace(pad[k])
    requires forall k :: 0 <= k < |pad'| ==> IsSpace(pad'[k])
    ensures ValidateNonEmpty(caption, text).ok <==> Words(text) != []
    ensures ValidateNonEmpty(caption, pad + text + pad') == ValidateNonEmpty(caption, text)
  {
    WordsEmpty(text);
    NonSpaceInMiddle(pad, text, pad');
  }

  /** Whitespace on either side adds no non-whitespace character. */
  lemma NonSpaceInMiddle(pad: string, text: string, pad': string)
    requires forall k :: 0 <= k < |pad| ==> IsSpace(pad[k])
    requires forall k :: 0 <= k < |pad'| ==> IsSpace(pad'[k])
    ensures (exists k :: 0 <= k < |pad + text + pad'| && !IsSpace((pad + text + pad')[k])) <==>
            (exists k :: 0 <= k < |text| && !IsSpace(text[k]))
  {
    var t := pad + text + pad';
    if exists k :: 0 <= k < |t| && !IsSpace(t[k]) {
      var k :| 0 <= k < |t| && !IsSpace(t[k]);
      assert !IsSpace(text[k - |pad|]);
    }
    if exists k :: 0 <= k < |text| && !IsSpace(text[k]) {
      var k :| 0 <= k < |text| && !IsSpace(text[k]);
      assert t[|pad| + k] == text[k];
    }
  }

  // ---------------------------------------------------------------
  // button
  // ---------------------------------------------------------------

  /** The key `button(caption, key)` hands to Streamlit: the given key, or the
      label itself. */
  function ButtonKey(caption: string, key: Option<string>): (r: string)
    ensures key.Some? ==> r == key.value
    ensures key.None? ==> r == caption
  {
    match key
    case Some(k) => k
    case None => caption
  }

  /** Without an explicit key the key depends only on the label: the same
      button gets the same key on every rerun, and buttons with different
      labels never share one. */
  lemma DefaultKeysFollowLabels(a: string, b: string)
    ensures ButtonKey(a, None) == ButtonKey(b, None) <==> a == b
  {
  }
}

=== FILE: uploads.dfy ===
/** An uploaded file as the upload widget stores it: a dict holding the file's
    `name` and its `bytes`. */
module Uploads {
  datatype Upload = Upload(name: string, bytes: seq<bv8>)
}

=== FILE: values.dfy ===
/** The Python values the core manipulates: everything `json.loads` can
    produce, plus sets of strings (the evaluator has a branch for sets).
    Dicts are kept as ordered association lists because Python dicts iterate
    in insertion order and the order is observable (path collisions, result
    rows, grouping). */
module Values {
  import opened Wrappers

  datatype Value =
    | Null
    | Bool(b: bool)
    | Int(i: int)
    | Float(r: real)
    | Str(s: string)
    | List(items: seq<Value>)
    | Dict(entries: seq<(string, Value)>)
    | StrSet(elems: seq<string>)   // a Python set of str; the order is irrelevant

  // A Python dict has distinct keys and a set distinct members, and values
  // parsed from JSON have both; the datatype does not enforce it. Lookups
  // return the first entry with the key, which under distinct keys is the
  // only one (`DistinctKeys`).

  /** The exceptions the core can raise, with the text `str(e)` would give. */
  datatype PyError =
    | AttributeError(typeName: string, attr: string)
    | TypeError(msg: string)
    | KeyError(key: string)
    | IndexError(msg: string)
    | ValueError(msg: string)
    | ZeroDivisionError

  function Message(e: PyError): string {
    match e
    case AttributeError(t, a) => "'" + t + "' object has no attribute '" + a + "'"
    case TypeError(m) => m
    case KeyError(k) => "'" + k + "'"
    case IndexError(m) => m
    case ValueError(m) => m
    case ZeroDivisionError => "division by zero"
  }

  /** `type(v).__name__` */
  function TypeName(v: Value): string {
    match v
    case Null => "NoneType"
    case Bool(_) => "bool"
    case Int(_) => "int"
    case Float(_) => "float"
    case Str(_) => "str"
    case List(_) => "list"
    case Dict(_) => "dict"
    case StrSet(_) => "set"
  }

  /** Python truthiness (`not v` is `!Truthy(v)`). */
  predicate Truthy(v: Value) {
    match v
    case Null => false
    case Bool(b) => b
    case Int(i) => i != 0
    case Float(r) => r != 0.0
    case Str(s) => |s| > 0
    case List(xs) => |xs| > 0
    case Dict(es) => |es| > 0
    case StrSet(es) => |es| > 0
  }

  /** `isinstance(v, (int, float))`; `bool` is a subclass of `int` in Python. */
  predicate IsNumber(v: Value) {
    v.Bool? || v.Int? || v.Float?
  }

  function NumberOf(v: Value): real
    requires IsNumber(v)
  {
    match v
    case Bool(b) => if b then 1.0 else 0.0
    case Int(i) => i as real
    case Float(r) => r
  }

  predicate IsLeaf(v: Value) {
    !(v.List? || v.Dict? || v.StrSet?)
  }

  /** `len(v)` */
  function Len(v: Value): (r: Result<nat, PyError>)
    ensures r.Ok? <==> !IsLeaf(v) || v.Str?
  {
    match v
    case List(xs) => Ok(|xs|)
    case Dict(es) => Ok(|es|)
    case StrSet(es) => Ok(|es|)
    case Str(t) => Ok(|t|)
    case _ => Err(TypeError("object of type '" + TypeName(v) + "' has no len()"))
  }

  // ---------------------------------------------------------------
  // Dicts as ordered association lists
  // ---------------------------------------------------------------

  function Keys<V>(d: seq<(string, V)>): (ks: seq<string>)
    ensures |ks| == |d|
    ensures forall i :: 0 <= i < |d| ==> ks[i] == d[i].0
  {
    seq(|d|, i requires 0 <= i < |d| => d[i].0)
  }

  lemma KeysCons<V>(x: (string, V), d: seq<(string, V)>)
    ensures Keys([x] + d) == [x.0] + Keys(d)
  {
  }

  predicate DistinctKeys<V>(d: seq<(string, V)>) {
    forall i, j :: 0 <= i < j < |d| ==> d[i].0 != d[j].0
  }

  /** `d.get(k)`: the value stored under `k`, if any. */
  function Get<V>(d: seq<(string, V)>, k: string): (r: Option<V>)
    ensures r.None? <==> k !in Keys(d)
    ensures r.Some? ==> (k, r.value) in d
  {
    if |d| == 0 then None
    else if d[0].0 == k then Some(d[0].1)
    else Get(d[1..], k)
  }

  /** `d[k] = v`: an existing key keeps its position, a new key goes last. */
  function Put<V>(d: seq<(string, V)>, k: string, v: V): (r: seq<(string, V)>)
    ensures Keys(r) == if k in Keys(d) then Keys(d) else Keys(d) + [k]
    ensures Get(r, k) == Some(v)
  {
    if |d| == 0 then [(k, v)]
    else
      KeysHead(d);
      if d[0].0 == k then
        KeysCons((k, v), d[1..]);
        [(k, v)] + d[1..]
      else
        var rest := Put(d[1..], k, v);
        KeysCons(d[0], rest);
        [d[0]] + rest
  }

  lemma KeysHead<V>(d: seq<(string, V)>)
    requires |d| > 0
    ensures Keys(d) == [d[0].0] + Keys(d[1..])
  {
    assert d == [d[0]] + d[1..];
    KeysCons(d[0], d[1..]);
  }

  /** Assigning one key leaves every other key's value as it was. */
  lemma PutOther<V>(d: seq<(string, V)>, k: string, v: V, k': string)
    requires k' != k
    ensures Get(Put(d, k, v), k') == Get(d, k')
  {
    if |d| > 0 && d[0].0 != k {
      PutOther(d[1..], k, v, k');
    }
  }

  lemma PutDistinct<V>(d: seq<(string, V)>, k: string, v: V)
    requires DistinctKeys(d)
    ensures DistinctKeys(Put(d, k, v))
  {
    var r := Put(d, k, v);
    forall i, j | 0 <= i < j < |r| ensures r[i].0 != r[j].0 {
      assert Keys(r)[i] == r[i].0 && Keys(r)[j] == r[j].0;
      if k !in Keys(d) && j == |d| {
        assert r[i].0 == Keys(d)[i];
      } else {
        assert r[i].0 == d[i].0 && r[j].0 == d[j].0;
      }
    }
  }

  /** Looking up in `d + e` finds `d`'s entry first, and `e`'s only when `d`
      lacks the key. */
  lemma {:induction false} GetAppend<V>(d: seq<(string, V)>, e: seq<(string, V)>, k: string)
    ensures Get(d + e, k) == if k in Keys(d) then Get(d, k) else Get(e, k)
  {
    if |d| == 0 {
      assert d + e == e;
    } else {
      assert (d + e)[0] == d[0];
      assert (d + e)[1..] == d[1..] + e;
      GetAppend(d[1..], e, k);
      KeysCons(d[0], d[1..]);
      assert d == [d[0]] + d[1..];
    }
  }

  /** Every entry after `d[k] = v` is the new one or an old one. */
  lemma PutEntries<V>(d: seq<(string, V)>, k: string, v: V)
    ensures forall e :: e in Put(d, k, v) ==> e == (k, v) || e in d
  {
    if |d| > 0 && d[0].0 != k {
      PutEntries(d[1..], k, v);
      assert d == [d[0]] + d[1..];
    }
  }

  /** `d.get(k, default)` */
  function GetOr(d: seq<(string, Value)>, k: string, default: Value): (v: Value)
    ensures k in Keys(d) ==> Get(d, k) == Some(v)
    ensures k !in Keys(d) ==> v == default
  {
    match Get(d, k)
    case Some(v) => v
    case None => default
  }

  /** The keys of a dict, as a set. */
  function KeySet<V>(d: seq<(string, V)>): set<string> {
    set i | 0 <= i < |d| :: d[i].0
  }

  lemma KeySetIsKeys<V>(d: seq<(string, V)>)
    ensures forall k :: k in KeySet(d) <==> k in Keys(d)
  {
    forall k ensures k in KeySet(d) <==> k in Keys(d) {
      if k in Keys(d) {
        var i :| 0 <= i < |Keys(d)| && Keys(d)[i] == k;
        assert d[i].0 == k;
      }
    }
  }

  // ---------------------------------------------------------------
  // Subscription
  // ---------------------------------------------------------------

  /** `v[key]` for a string key, with the exception Python raises. */
  function GetItem(v: Value, key: string): (r: Result<Value, PyError>)
    ensures r.Ok? <==> v.Dict? && key in Keys(v.entries)
    ensures r.Ok? ==> Get(v.entries, key) == Some(r.value)
  {
    match v
    case Dict(es) =>
      (match Get(es, key)
       case Some(x) => Ok(x)
       case None => Err(KeyError(key)))
    case List(_) => Err(TypeError("list indices must be integers or slices, not str"))
    case Str(_) => Err(TypeError("string indices must be integers, not 'str'"))
    case _ => Err(TypeError("'" + TypeName(v) + "' object is not subscriptable"))
  }
}

=== FILE: widgets.dfy ===
/** The multi-file upload widget, which keeps the files uploaded so far and
    ignores a file whose name it already holds. */
module Widgets {
  import opened Uploads
  import Seqs

  /** `FileUploadWidget`: its label, Streamlit key, accepted extensions and
      the files kept so far. */
  datatype FileUploadWidget = FileUploadWidget(caption: string, key: string, types: seq<string>, files: seq<Upload>)

  const DefaultTypes: seq<string> := ["jpg", "jpeg", "png"]

  /** A new widget holds no files. */
  function NewWidget(caption: string, key: string, types: seq<string>): (w: FileUploadWidget)
    ensures w.files == []
    ensures w.caption == caption && w.key == key && w.types == types
  {
    FileUploadWidget(caption, key, types, [])
  }

  /** A new widget built without `type`: it accepts jpg, jpeg and png. */
  function NewDefaultWidget(caption: string, key: string): (w: FileUploadWidget)
    ensures w.files == []
    ensures w.caption == caption && w.key == key && w.types == DefaultTypes
  {
    NewWidget(caption, key, DefaultTypes)
  }

  /** `[fi["name"] for fi in files]` */
  function Names(fs: seq<Upload>): (ns: seq<string>)
    ensures |ns| == |fs|
    ensures forall i :: 0 <= i < |fs| ==> ns[i] == fs[i].name
  {
    seq(|fs|, i requires 0 <= i < |fs| => fs[i].name)
  }

  lemma NamesAppend(fs: seq<Upload>, f: Upload)
    ensures Names(fs + [f]) == Names(fs) + [f.name]
  {
  }

  predicate DistinctNames(fs: seq<Upload>) {
    forall i, j :: 0 <= i < j < |fs| ==> fs[i].name != fs[j].name
  }

  /** Reference definition of what a batch adds: each upload whose name is
      neither among the names already kept nor carried by an earlier upload
      of the same batch, in upload order. */
  function Fresh(kept: seq<string>, batch: seq<Upload>): (r: seq<Upload>)
    ensures forall f :: f in r ==> f in batch && f.name !in kept
  {
    if |batch| == 0 then []
    else
      var earlier := batch[..|batch| - 1];
      var f := batch[|batch| - 1];
      if f.name in kept || f.name in Names(earlier) then Fresh(kept, earlier)
      else Fresh(kept, earlier) + [f]
  }

  /** The added files carry pairwise distinct names. */
  lemma {:induction false} FreshDistinct(kept: seq<string>, batch: seq<Upload>)
    ensures DistinctNames(Fresh(kept, batch))
    ensures forall f :: f in Fresh(kept, batch) ==> f.name in Names(batch)
  {
    if |batch| > 0 {
      var earlier := batch[..|batch| - 1];
      var f := batch[|batch| - 1];
      FreshDistinct(kept, earlier);
      assert Names(batch) == Names(earlier) + [f.name];
    }
  }

  /** `[fi["name"] for fi in a + b]` */
  lemma NamesConcat(a: seq<Upload>, b: seq<Upload>)
    ensures Names(a + b) == Names(a) + Names(b)
  {
  }

  /** The names a batch adds are its names that were not kept. */
  lemma {:induction false} FreshNames(kept: seq<string>, batch: seq<Upload>)
    ensures forall n :: n in Names(Fresh(kept, batch)) <==> n in Names(batch) && n !in kept
  {
    if |batch| > 0 {
      var earlier := batch[..|batch| - 1];
      var f := batch[|batch| - 1];
      FreshNames(kept, earlier);
      NamesAppend(earlier, f);
      assert earlier + [f] == batch;
      NamesAppend(Fresh(kept, earlier), f);
    }
  }

  /** One more upload: it is fresh unless its name is kept or came earlier. */
  lemma FreshLast(kept: seq<string>, seen: seq<Upload>, f: Upload)
    ensures Fresh(kept, seen + [f]) ==
      if f.name in kept || f.name in Names(seen) then Fresh(kept, seen) else Fresh(kept, seen) + [f]
  {
    assert (seen + [f])[..|seen|] == seen;
  }

  /** One turn of the loop of `render`: the kept files stay the earlier ones
      followed by the fresh part of the uploads seen so far. */
  lemma RenderStep(before: seq<Upload>, uploaded: seq<Upload>, i: int, files: seq<Upload>)
    requires 0 <= i < |uploaded|
    requires files == before + Fresh(Names(before), uploaded[..i])
    ensures (if uploaded[i].name in Names(files) then files else files + [uploaded[i]]) ==
      before + Fresh(Names(before), uploaded[..i + 1])
  {
    var seen := uploaded[..i];
    var f := uploaded[i];
    var kept := Names(before);
    assert uploaded[..i + 1] == seen + [f];
    FreshLast(kept, seen, f);
    assert f.name in Names(files) <==> f.name in kept || f.name in Names(seen) by {
      FreshNames(kept, seen);
      NamesConcat(before, Fresh(kept, seen));
    }
    if f.name !in Names(files) {
      Seqs.AppendAssoc(before, Fresh(kept, seen), [f]);
    }
  }

  /** Appending the fresh part of a batch to files with distinct names keeps
      the names distinct. */
  lemma AppendFreshDistinct(before: seq<Upload>, batch: seq<Upload>)
    requires DistinctNames(before)
    ensures DistinctNames(before + Fresh(Names(before), batch))
  {
    var added := Fresh(Names(before), batch);
    var files := before + added;
    FreshDistinct(Names(before), batch);
    forall a, b | 0 <= a < b < |files| ensures files[a].name != files[b].name {
      if b >= |before| {
        assert files[b] == added[b - |before|];
        assert files[b] in added;
        if a < |before| {
          assert Names(before)[a] == files[a].name;
        } else {
          assert files[a] == added[a - |before|];
        }
      }
    }
  }

  /** `render()`: each uploaded file whose name is not yet kept is appended
      as a `{"name", "bytes"}` entry, and the kept list is returned. Kept
      entries stay as they were, the new ones follow in upload order without
      repeating a name, and an empty upload changes nothing. */
  method Render(w: FileUploadWidget, uploaded: seq<Upload>) returns (w': FileUploadWidget, shown: seq<Upload>)
    ensures w'.files == w.files + Fresh(Names(w.files), uploaded)
    ensures w' == w.(files := w'.files)
    ensures shown == w'.files
    ensures |uploaded| == 0 ==> w' == w
    ensures DistinctNames(w.files) ==> DistinctNames(w'.files)
    ensures forall n :: n in Names(w'.files) <==> n in Names(w.files) || n in Names(uploaded)
  {
    var files := w.files;
    var i := 0;
    while i < |uploaded|
      invariant 0 <= i <= |uploaded|
      invariant files == w.files + Fresh(Names(w.files), uploaded[..i])
    {
      RenderStep(w.files, uploaded, i, files);
      files := if uploaded[i].name in Names(files) then files else files + [uploaded[i]];
      i := i + 1;
    }
    assert uploaded[..i] == uploaded;
    RenderDone(w.files, uploaded);
    w' := w.(files := files);
    shown := files;
  }

  /** What the finished loop gives: distinct names stay distinct, and the
      kept names are the earlier ones and the uploaded ones. */
  lemma RenderDone(before: seq<Upload>, uploaded: seq<Upload>)
    ensures DistinctNames(before) ==> DistinctNames(before + Fresh(Names(before), uploaded))
    ensures forall n :: n in Names(before + Fresh(Names(before), uploaded)) <==> n in Names(before) || n in Names(uploaded)
  {
    FreshNames(Names(before), uploaded);
    NamesConcat(before, Fresh(Names(before), uploaded));
    if DistinctNames(before) {
      AppendFreshDistinct(before, uploaded);
    }
  }

  /** The `files` property: the kept list itself. */
  function Files(w: FileUploadWidget): (r: seq<Upload>)
    ensures r == w.files
  {
    w.files
  }

  /** `clear_all()`: forget every kept file and nothing else. */
  function ClearAll(w: FileUploadWidget): (r: FileUploadWidget)
    ensures Files(r) == []
    ensures r.caption == w.caption && r.key == w.key && r.types == w.types
  {
    w.(files := [])
  }

  /** After clearing, the next upload is kept exactly as it would be by a new
      widget: a name uploaded before the clear is accepted again. */
  lemma ClearThenRender(w: FileUploadWidget, uploaded: seq<Upload>)
    ensures ClearAll(w).files + Fresh(Names(ClearAll(w).files), uploaded) == Fresh([], uploaded)
  {
  }
}

=== FILE: wrappers.dfy ===
/** Failure-compatible wrappers used throughout the model: `Option` for Python's
    `None`-or-value and `Result` for "returned a value" versus "raised". */
module Wrappers {

  datatype Option<+T> = None | Some(value: T) {

    predicate IsFailure() {
      None?
    }

    function PropagateFailure<U>(): Option<U>
      requires None?
    {
      None
    }

    function Extract(): T
      requires Some?
    {
      value
    }
  }

  /** `Err` carries the exception a Python call would have raised. */
  datatype Result<+T, +E> = Ok(value: T) | Err(error: E) {

    predicate IsFailure() {
      Err?
    }

    function PropagateFailure<U>(): Result<U, E>
      requires Err?
    {
      Err(error)
    }

    function Extract(): T
      requires Ok?
    {
      value
    }
  }
}
